=== FILE: README.md ===
# AthleteJourney core in Dafny

This project models the logic of the AthleteJourney trip-planning application
for athletes.

- **Server side.**
  - The in-memory repository `MemStorage` has one table and one auto-increment
    counter per entity. It is seeded with three events, three accommodations and
    three training facilities.
  - The REST handlers sit over that repository. They cover register, login, the
    user routes, events, trips, accommodations, facilities and reminders.
  - The table shapes come from the shared schema.
- **Client side.**
  - Three storage helpers work over the browser's `localStorage`: the
    `localStorage.ts` helpers, the `LocalStorageManager` and the `AuthManager`.
  - Several pure helpers are embedded in pages and components: duration and
    elapsed-time text, due-time labels, reminder colours, avatar initials, the
    auth-form rules, and the trip planner's selections, cost and search filters.

The model is functional:

- The repository is a record of tables (`Tables.Table`: a map from id to row
  plus the counter). Every repository operation is a pure function from the old
  repository to the new one and its answer.
- The browser store is a `map<string, Slot>`. A slot holds the JSON value the
  stored text parses to, or marks text that does not parse.
- Clocks (`new Date()`, `Date.now()`) are integer-millisecond parameters.
  Date parsing is a parameter too (`parseDate`), and so is `parseFloat` of a
  price (`parsePrice`).
- bcrypt is the uninterpreted pair `Crypto.hash`/`Crypto.compare`. The email
  check of the auth forms is an uninterpreted predicate `isEmail`.
- A schema parse that throws is an absent (`None`) body.
- JavaScript's truncating `%` is modelled explicitly (`JsMath.JsRem`).
  `Math.floor` and `Math.ceil` of a division are `JsMath.FloorDiv` and
  `JsMath.CeilDiv`.

Module layout (one file each):

- shared vocabulary: `Wrappers`, `JsonValues`, `Text`, `JsMath`, `Seqs`;
- row and insert shapes: `Schema`;
- the repository: `Tables`, `MemStorage`, `StorageProperties`;
- the handlers: `Routes`, `RouteProperties`;
- the browser store: `BrowserStore`;
- `localStorage.ts`: `LocalStorageHelpers`;
- `storage.ts`: `StorageManager`;
- `auth.ts`: `AuthManager`;
- the search history both storage helpers keep: `RecentSearches`;
- cross-helper facts: `ClientProperties`;
- the component helpers: `MockData`, `NotificationCenter`, `Dashboard`, `Navigation`, `AuthForms`, `PlanTrip`.

## Model

| member | source | states |
|---|---|---|
| Tables.Add | server/storage.ts:253-265 | A create stores the row under the current counter value and advances the counter by one. Every other id keeps its row. On a valid table the new id and row are listed after all earlier ones, so ids are distinct and increase in creation order. |
| Tables.Update | server/storage.ts:268-275 | An absent id answers undefined and leaves the table unchanged. A present id stores the merged row under the same key and returns it. The key set, the counter and every other row are unchanged. |
| Tables.UpdateValues | server/storage.ts:394-401 | After an update, the listed rows are the old ones at the same positions, except that the updated row holds its merged value at its old position. |
| Tables.FromSeq | server/storage.ts:101-242 | Creating rows one after another in a fresh table stores row k under id k, lists them in order, and leaves the counter at one past the last. |
| Schema.AccommodationFieldIsProp | shared/schema.ts:34-45 | Reading a key of an accommodation record gives its column value as the JSON the routes send, and nothing for a key that is not a column. |
| Schema.FacilityFieldIsProp | shared/schema.ts:47-58 | Reading a key of a training facility record gives its column value as the JSON the routes send, and nothing for a key that is not a column. |
| MemStorage.Initial | server/storage.ts:82-99 | After construction the users, trips, progress and reminders tables are empty with counter 1. Events, accommodations and facilities hold their three sample rows under ids 1-3, listed in that order, with counter 4. |
| MemStorage.GetUser | server/storage.ts:245-247 | The user stored under the id, or undefined exactly when no row has that id. |
| MemStorage.GetUserByEmail | server/storage.ts:249-251 | Finds nothing exactly when no user has that exact email. Otherwise it finds the first user, in creation order, whose email matches. |
| MemStorage.CreateUser | server/storage.ts:253-266 | The new user takes the next id and `createdAt := now`. A falsy sport, level, goals or preferences is stored as null. Nothing else in the repository changes, and there is no uniqueness check on email. |
| MemStorage.UpdateUser | server/storage.ts:268-275 | An absent id answers undefined and changes nothing. Otherwise `{...user, ...updates}` is stored under the same key and returned, and all other users are unchanged. |
| MemStorage.MergeUser | server/storage.ts:272 | `{...user, ...updates}`: each column the body carries takes the body's value, every other column keeps the stored one, and keys outside the columns are the stored ones overlaid by the body's. |
| MemStorage.SearchEvents | server/storage.ts:286-293 | Keeps exactly the stored events that pass every active filter, in creation order, each as often as it is stored: the result is a subsequence of the event list and as long as the number of matching positions. Sport and difficulty are exact matches, skipped when empty or "All Sports"/"Any Level". Location is a case-insensitive substring match. |
| MemStorage.GetEvents | server/storage.ts:278-280 | Every stored event, once each, position k holding the row under the k-th smallest id. |
| MemStorage.GetEvent | server/storage.ts:282-284 | The event stored under the id, or undefined exactly when no row has that id. |
| MemStorage.CreateEvent | server/storage.ts:295-311 | The event takes the next id and is listed last. Falsy description, price, difficulty, image, organizer, capacity and registered values are stored as null. All other events are unchanged. |
| MemStorage.SearchAccommodations | server/storage.ts:322-326 | Exactly the accommodations whose lower-cased location contains the lower-cased query, as a subsequence of the stored list (creation order) with one entry per matching position. |
| MemStorage.GetAccommodations | server/storage.ts:314-316 | Every stored accommodation, once each, in ascending id order. |
| MemStorage.GetAccommodation | server/storage.ts:318-320 | The accommodation stored under the id, or undefined exactly when no row has that id. |
| MemStorage.CreateAccommodation | server/storage.ts:328-340 | The next id. Falsy optionals, `isAthleteFriendly = false` included, are stored as null. Other rows are unchanged. |
| MemStorage.SearchTrainingFacilities | server/storage.ts:351-355 | Exactly the facilities whose lower-cased location contains the lower-cased query, as a subsequence of the stored list (creation order) with one entry per matching position. |
| MemStorage.GetTrainingFacilities | server/storage.ts:343-345 | Every stored training facility, once each, in ascending id order. |
| MemStorage.GetTrainingFacility | server/storage.ts:347-349 | The facility stored under the id, or undefined exactly when no row has that id. |
| MemStorage.CreateTrainingFacility | server/storage.ts:357-369 | The next id. A falsy status, price, rating or distance is stored as null. |
| MemStorage.GetUserTrips | server/storage.ts:372-374 | Exactly the stored trips with that `userId`, as a subsequence of the stored trips in creation order, with one entry per matching position. |
| MemStorage.GetTrip | server/storage.ts:376-378 | The trip stored under the id, or undefined exactly when no row has that id. |
| MemStorage.CreateTrip | server/storage.ts:380-392 | The next id, listed last. A falsy accommodation id, status, itinerary or notes is stored as null. Other trips are unchanged. |
| MemStorage.UpdateTrip | server/storage.ts:394-401 | An absent id answers undefined and changes nothing. Otherwise the merged trip is stored under the same key and returned. |
| MemStorage.MergeTrip | server/storage.ts:398 | `{...trip, ...updates}`: each column the body carries takes the body's value, every other column keeps the stored one, and extra keys are overlaid. |
| MemStorage.GetUserProgress | server/storage.ts:404-406 | Exactly the stored progress entries with that `userId`, as a subsequence in creation order, with one entry per matching position. |
| MemStorage.CreateProgress | server/storage.ts:408-417 | The next id, and `date` is always overwritten with now. The other keys are kept as given. |
| MemStorage.GetUserReminders | server/storage.ts:420-422 | Exactly the stored reminders with that `userId`, as a subsequence in creation order, with one entry per matching position. |
| MemStorage.CreateReminder | server/storage.ts:424-429 | The next id and the body as given. No key is nulled and no default is filled in. |
| MemStorage.UpdateReminder | server/storage.ts:431-438 | An absent id answers undefined and changes nothing. Otherwise the merged reminder is stored under the same key and returned. |
| MemStorage.MergeReminder | server/storage.ts:435 | `{...reminder, ...updates}`: each column the body carries takes the body's value, every other column keeps the stored one, and extra keys are overlaid. |
| StorageProperties.CreatedIdExceedsStored | server/storage.ts:295-297 | The id a create hands out is larger than every id already stored. |
| StorageProperties.ConsecutiveCreates | server/storage.ts:380-382 | Two creates in a row hand out consecutive ids. |
| StorageProperties.SeededLookups | server/storage.ts:101-154 | After construction, event 2 is the Alps Challenge, event 4 and accommodation 4 are absent, and there is no user 1. |
| StorageProperties.SearchEventsIgnoresDate | server/storage.ts:286-293 | The `date` key of an event search has no effect on the result. |
| StorageProperties.SearchEventsUnfiltered | server/storage.ts:288-291 | With sport and difficulty absent, empty or at their catch-all value, and no location, every event is returned in creation order. |
| StorageProperties.SearchEventsCommute | server/storage.ts:286-293 | Narrowing one event search by another's predicate gives the same list in either order. |
| StorageProperties.SeededCyclingSearch | server/storage.ts:103-154 | Searching the sample events for "Cycling" yields exactly the Alps Challenge. |
| StorageProperties.EmptyLocationKeepsAll | server/storage.ts:322-326 | An empty location query returns every accommodation. |
| StorageProperties.FalsyOptionalsStoredAsNull | server/storage.ts:295-311 | A price or registered count of 0, an empty description and an `isAthleteFriendly` of false are all stored as null. |
| StorageProperties.DeclaredDefaultsNotApplied | shared/schema.ts:31-92 | The repository does not apply the schema's declared defaults. An omitted registered count, facility status, trip status, `isCompleted` or priority is not given its declared value. |
| StorageProperties.DuplicateEmailKeepsFirst | server/storage.ts:249-266 | The repository accepts a second user with a taken email. Email lookups keep answering with the earlier user, and both rows are stored. |
| StorageProperties.MergeNothingIsIdentity | server/storage.ts:268-275 | An update body with no keys leaves the user row as it was. |
| StorageProperties.MergeIdempotent | server/storage.ts:272 | Merging the same body twice gives the same row as merging it once. |
| StorageProperties.UpdateTripKeepsPosition | server/storage.ts:394-401 | A trip update keeps the list's length and order, and the merged trip sits at the old trip's position. |
| StorageProperties.CreateTripListsLast | server/storage.ts:372-392 | On a valid repository a created trip is appended to its owner's `getUserTrips` list, and every other user's list is unchanged. |
| StorageProperties.CreateProgressListsLast | server/storage.ts:404-417 | A created progress entry is appended to its owner's `getUserProgress` list, and every other user's list is unchanged. |
| StorageProperties.CreateReminderListsLast | server/storage.ts:420-429 | A created reminder is appended to its owner's `getUserReminders` list, and every other user's list is unchanged. |
| StorageProperties.EmptyLocationKeepsAllFacilities | server/storage.ts:351-355 | An empty location query returns every training facility, in order. |
| StorageProperties.FacilitySearchIgnoresQueryCase | server/storage.ts:351-355 | A facility query and its lower-cased form return the same list. |
| Routes.Strip | server/routes.ts:27 | The public user has every key of the row except `password`. |
| Routes.Lookup | server/routes.ts:106-116 | A point lookup answers 404 with "`<what>` not found" exactly when the row is absent, and 200 with the row otherwise. |
| Routes.Register | server/routes.ts:9-32 | A rejected body gives 400 "Invalid user data". A taken email gives 400 "User already exists" and creates nothing. Otherwise it answers 200 and stores the user under the next id with `hash(password)`. The body is the stored user without its password. Only the success path changes the repository. On success the repository is exactly what `createUser` gives for the body with the hashed password: every earlier user is kept, and the new row has the body's other columns. |
| Routes.Login | server/routes.ts:34-56 | An unknown email and a wrong password both give 401 "Invalid credentials". A missing password for a known email gives 500. On success the row is marked `isAuthenticated`, but the response carries the user as read before that update. |
| Routes.GetUserRoute | server/routes.ts:59-71 | 404 "User not found" exactly when the id is absent. Otherwise 200 with the stored user without its password. |
| Routes.PutUserRoute | server/routes.ts:73-87 | 404 with no change exactly when the id is absent. Otherwise the merged user, without its password, and the repository of the update. |
| Routes.ListEventsRoute | server/routes.ts:90-104 | Always 200, whatever the query. The body lists every stored event once, position k holding the row under the k-th smallest id. |
| Routes.GetEventRoute | server/routes.ts:106-116 | 404 "Event not found" exactly when absent, otherwise 200 with the stored event. |
| Routes.PostEventRoute | server/routes.ts:118-126 | A rejected body gives 400 and no change. Otherwise 201 with the created event, and the counter advances. |
| Routes.GetUserTripsRoute | server/routes.ts:129-136 | 200 with exactly the user's trips, as a subsequence of the stored trips in creation order, one entry per matching row. |
| Routes.GetTripRoute | server/routes.ts:138-148 | 404 "Trip not found" exactly when absent, otherwise 200 with the stored trip. |
| Routes.PostTripRoute | server/routes.ts:150-158 | A rejected body gives 400 and no change. Otherwise 201 with the created trip. |
| Routes.PutTripRoute | server/routes.ts:160-173 | 404 with no change exactly when absent. Otherwise 200 with the merged trip. |
| Routes.ListAccommodationsRoute | server/routes.ts:176-189 | Always 200, whatever the query. The body lists every stored accommodation once, position k holding the row under the k-th smallest id. |
| Routes.GetAccommodationRoute | server/routes.ts:191-201 | 404 "Accommodation not found" exactly when absent, otherwise 200 with the row. |
| Routes.ListFacilitiesRoute | server/routes.ts:204-217 | Always 200, whatever the query. The body lists every stored facility once, position k holding the row under the k-th smallest id. |
| Routes.GetFacilityRoute | server/routes.ts:219-229 | 404 "Training facility not found" exactly when absent, otherwise 200 with the row. |
| Routes.GetUserRemindersRoute | server/routes.ts:274-281 | 200 with exactly the user's reminders, as a subsequence of the stored reminders in creation order, one entry per matching row. |
| Routes.PostReminderRoute | server/routes.ts:283-291 | A rejected body gives 400 and no change. Otherwise 201 with the created reminder. |
| Routes.PutReminderRoute | server/routes.ts:293-306 | 404 with no change exactly when absent. Otherwise 200 with the merged reminder. |
| RouteProperties.FindsAppendedUser | server/storage.ts:249-251 | When no earlier user has the email, the user just appended is the one an email lookup finds. |
| RouteProperties.RegisterThenLogin | server/routes.ts:9-56 | When the hash matches its own password, a fresh registration can log in with the same credentials, and login answers with the same user body as register. |
| RouteProperties.RegisterTwiceRejected | server/routes.ts:14-17 | Once an email is registered, registering it again gives 400 "User already exists" and changes nothing. |
| RouteProperties.LoginFailuresLookAlike | server/routes.ts:38-46 | An unknown email and a wrong password give identical responses: 401 "Invalid credentials". |
| RouteProperties.StoredUserIsKeyed | server/storage.ts:249-251 | When ids match keys, the user found by email is stored under its own id. |
| RouteProperties.LoginMarksRow | server/routes.ts:49-52 | A successful login stores `isAuthenticated: true` on the user's row and keeps its email, password hash and the user counter. |
| RouteProperties.MarkAuthenticatedRow | server/routes.ts:49 | Merging `{isAuthenticated: true}` into a stored row sets that key and keeps every column. |
| RouteProperties.RejectedBodiesChangeNothing | server/routes.ts:118-158 | A body the schema rejects leaves the repository unchanged on register and on the event, trip and reminder posts. |
| RouteProperties.ListRoutesIgnoreQuery | server/routes.ts:90-217 | The three list routes answer the same for any two query strings. |
| RouteProperties.PostedTripIsFetched | server/routes.ts:138-158 | A trip created by `POST /api/trips` is what `GET /api/trips/:id` answers for its id. |
| RouteProperties.PostedEventIsListedLast | server/routes.ts:90-126 | An event created by `POST /api/events` is the last entry of `GET /api/events`, after exactly the events listed before, whatever the query. |
| RouteProperties.PostedTripIsListedLast | server/routes.ts:129-158 | A trip created by `POST /api/trips` is appended to its owner's `GET /api/trips/user/:userId` list, and no other user's list changes. |
| RouteProperties.PostedReminderIsListedLast | server/routes.ts:274-291 | A reminder created by `POST /api/reminders` is appended to its owner's list, and no other user's list changes. |
| LocalStorageHelpers.ReadOr | client/src/lib/localStorage.ts:60-63 | An absent key gives the fallback, text that does not parse throws, and otherwise the parsed value is returned. |
| LocalStorageHelpers.ReadList | client/src/lib/localStorage.ts:121-124 | An absent key gives `[]`. A stored array gives its items. Anything else throws once it is used as an array. |
| LocalStorageHelpers.WriteList | client/src/lib/localStorage.ts:98 | Writing a list reads back as that list, and no other key changes. |
| LocalStorageHelpers.UserGet | client/src/lib/localStorage.ts:60-63 | `null` when no user is stored. It throws exactly when the stored text does not parse, and otherwise returns the stored user. |
| LocalStorageHelpers.UserSet | client/src/lib/localStorage.ts:65-67 | After a set, `get` returns the user. No other key changes. |
| LocalStorageHelpers.UserClear | client/src/lib/localStorage.ts:69-71 | After a clear, `get` returns `null`. No other key changes. |
| LocalStorageHelpers.UserUpdate | client/src/lib/localStorage.ts:73-80 | With no (truthy) user stored it returns `null` and writes nothing. Otherwise the shallow merge is stored, read back and returned. |
| LocalStorageHelpers.AddWithId | client/src/lib/localStorage.ts:91-100 | The item with `id := now` is appended to the stored list. Its other keys are the item's, and no other key changes. |
| LocalStorageHelpers.UpdateById | client/src/lib/localStorage.ts:102-110 | No entry with the id gives `null` and no write. Otherwise only the first entry with the id is merged, and every other entry is unchanged. |
| LocalStorageHelpers.OwnedEntries | client/src/lib/localStorage.ts:85-89 | Exactly the stored entries with that `userId`, in stored order, one per stored match: the result is a subsequence with as many entries as there are matching positions. |
| LocalStorageHelpers.TripDelete | client/src/lib/localStorage.ts:112-119 | A stored `null` entry makes the filter throw. Otherwise: false and no write when no trip has the id. Else every trip with the id is removed, the others keep their order, one per stored position, and the result is true. |
| LocalStorageHelpers.DropId | client/src/lib/localStorage.ts:114-115 | Filtering out an id shortens the list exactly when some entry carries that id. It keeps every other entry, in order, once per stored position. |
| LocalStorageHelpers.ProgressAdd | client/src/lib/localStorage.ts:135-145 | The entry with `id := now` is appended, and its date is the given one when truthy, else now. |
| LocalStorageHelpers.WeeklyStatsOf | client/src/lib/localStorage.ts:147-162 | Throws exactly when the stored list is unusable. The workout count never exceeds the stored entries. |
| LocalStorageHelpers.MarkCompleted | client/src/lib/localStorage.ts:199-201 | True exactly when some reminder has the id. In that case the first such reminder gets `isCompleted: true` and every other reminder is unchanged. |
| LocalStorageHelpers.GetUpcoming | client/src/lib/localStorage.ts:203-210 | A permutation of the user's reminders that are not completed and are due strictly after now, sorted ascending by due time. |
| LocalStorageHelpers.UpcomingIsOneFilter | client/src/lib/localStorage.ts:204-208 | The three successive filters of `getUpcoming` keep exactly what one combined predicate keeps. |
| LocalStorageHelpers.PreferencesGet | client/src/lib/localStorage.ts:220-228 | With nothing stored, the defaults: light theme, notifications on, metric units, English. It throws exactly when the stored text does not parse, and otherwise returns the stored preferences. |
| LocalStorageHelpers.PreferencesSet | client/src/lib/localStorage.ts:230-232 | After a set, `get` returns the preferences. |
| LocalStorageHelpers.PreferencesUpdate | client/src/lib/localStorage.ts:234-239 | The shallow merge with the current preferences is stored and returned. |
| LocalStorageHelpers.SearchHistoryAdd | client/src/lib/localStorage.ts:249-255 | The query is first, with no other copy of it. After it come the most recent other searches in their stored order: all of them when fewer than 10, else the first nine, so the list holds 10. |
| LocalStorageHelpers.SearchHistoryClear | client/src/lib/localStorage.ts:257-259 | Afterwards the history reads as empty, and no other key changes. |
| LocalStorageHelpers.ClearAllData | client/src/lib/localStorage.ts:263-267 | Removes exactly the six helper keys and keeps every other key and value. |
| RecentSearches.AddRecent | client/src/lib/storage.ts:67-72 | The search is first with no duplicate of it. After it come the most recent other entries, in order: all of them when there are fewer than 10, else the nine most recent, making the length 10. A short history loses nothing. |
| RecentSearches.AddRecentIdempotent | client/src/lib/localStorage.ts:249-255 | Adding the latest search again changes nothing. |
| RecentSearches.AddRecentKeepsDistinct | client/src/lib/storage.ts:67-72 | A history without duplicates stays without duplicates. |
| StorageManager.Get | client/src/lib/storage.ts:4-11 | `null` when the prefixed key is missing or its text fails to parse, never a throw. Otherwise the parsed value. |
| StorageManager.Set | client/src/lib/storage.ts:13-19 | `set(k, v)` followed by `get(k)` yields `v`. Only the prefixed key changes. |
| StorageManager.Remove | client/src/lib/storage.ts:21-23 | After removal `get` yields `null`. Only the prefixed key changes. |
| StorageManager.Clear | client/src/lib/storage.ts:25-32 | Removes exactly the keys that start with `athletetravel_` and keeps every other key and value. |
| StorageManager.GetTrips | client/src/lib/storage.ts:48-50 | A truthy stored value is returned as it is. Nothing stored, or a falsy value, gives `[]`. |
| StorageManager.SaveTrip | client/src/lib/storage.ts:35-46 | Throws exactly when the stored value is truthy but not an array, or when `findIndex` meets a `null` entry (or `trip` is `null`) before the first stored trip with a strictly equal id. Otherwise it replaces that first trip in place, or appends the trip with `id := now` when none matches. The length grows by at most one, and no other key changes. |
| StorageManager.Stamped | client/src/lib/storage.ts:42 | The appended trip's `id` is `now`, and every other key reads as in the saved trip. |
| StorageManager.StopsAtMatch | client/src/lib/storage.ts:37 | `findIndex(t => t.id === trip.id)` throws exactly when it stops at a `null` before any match. When it does not throw, it stops at the first trip with the id, or nowhere. |
| StorageManager.SaveTripIdempotent | client/src/lib/storage.ts:35-46 | Once a save of a trip whose id is already stored succeeds, saving it a second time changes nothing. |
| StorageManager.GetPreferences | client/src/lib/storage.ts:57-64 | A truthy stored value is returned as it is. Nothing stored, a falsy value or text that does not parse gives the fixed default: empty lists, budget 0-1000, notifications on. |
| StorageManager.SavePreferences | client/src/lib/storage.ts:53-55 | Saved truthy preferences are what `getPreferences` answers. |
| StorageManager.GetSearchHistory | client/src/lib/storage.ts:74-76 | A truthy stored history is returned as it is. Nothing stored, or a falsy value, gives `[]`. |
| StorageManager.AddSearchHistory | client/src/lib/storage.ts:67-72 | The search is first with no duplicate. After it come the most recent other searches in order: all of them when fewer than 10, else nine, for a length of 10. |
| AuthManager.GetCurrentUser | client/src/lib/auth.ts:8-15 | `null` when the key is absent or unparsable. Otherwise the stored user. |
| AuthManager.SetCurrentUser | client/src/lib/auth.ts:17-19 | `setCurrentUser(u)` followed by `getCurrentUser()` returns `u`. An undefined user reads back as `null`. |
| AuthManager.ClearCurrentUser | client/src/lib/auth.ts:21-23 | Afterwards `getCurrentUser()` is `null`. No other key changes. |
| AuthManager.IsAuthenticated | client/src/lib/auth.ts:25-27 | Signed in exactly when the user key holds text that parses to something other than `null`. |
| AuthManager.Logout | client/src/lib/auth.ts:72-74 | After logout `isAuthenticated()` is false. |
| AuthManager.ErrorMessage | client/src/lib/auth.ts:39-40 | A non-empty string message is thrown as is. With no truthy message, the fallback is thrown. |
| AuthManager.HandleReply | client/src/lib/auth.ts:38-45 | A `null` body throws a TypeError and writes nothing, ok or not. Otherwise a reply that is not ok fails with its message and writes nothing, and an ok reply stores and resolves with `response.user`. |
| AuthManager.Login | client/src/lib/auth.ts:29-46 | A `null` body throws a TypeError. A failed login leaves the store as it was and falls back to "Login failed". An ok reply resolves with `user` and stores it. |
| AuthManager.Register | client/src/lib/auth.ts:48-70 | A `null` body throws a TypeError. A failed registration leaves the store as it was and falls back to "Registration failed". An ok reply resolves with `user` and stores it. |
| ClientProperties.ManagerClearSignsOut | client/src/lib/storage.ts:25-32 | `storage.clear()` signs the user out, because `athletetravel_user` starts with the manager's prefix. |
| ClientProperties.ManagerClearKeepsHelperData | client/src/lib/localStorage.ts:49-56 | `storage.clear()` keeps every `localStorage.ts` key: `athleteTravel_` differs from the prefix in case. |
| ClientProperties.ClearAllDataKeepsSession | client/src/lib/localStorage.ts:263-267 | `clearAllData()` does not change whether a user is signed in. |
| ClientProperties.LoginThenLogout | client/src/lib/auth.ts:25-27 | After `logout`, `isAuthenticated()` is false whatever login stored. |
| ClientProperties.OkReplyWithoutUserSignsOut | client/src/lib/auth.ts:43-45 | An ok, non-null reply without `user` resolves, but stores text that does not parse, so nobody is signed in. |
| ClientProperties.OkReplyWithUserSignsIn | client/src/lib/auth.ts:43-44 | An ok reply with a non-null user signs it in, for login and register alike. |
| ClientProperties.FailedReplyKeepsSession | client/src/lib/auth.ts:38-41 | A failed login or register leaves the signed-in state as it was. |
| ClientProperties.MarkedReminderNotUpcoming | client/src/lib/localStorage.ts:199-209 | A reminder just marked completed is no longer upcoming. |
| ClientProperties.SumOfAppend | client/src/lib/localStorage.ts:158-160 | A weekly sum grows by the appended entry's value, with a missing value counting as 0. |
| ClientProperties.WeekAppend | client/src/lib/localStorage.ts:148-154 | An appended entry of the user dated within the week is appended to the entries the weekly stats count. |
| ClientProperties.ProgressAddCountsInWeek | client/src/lib/localStorage.ts:135-162 | Logging a workout of the user dated within the last seven days adds one workout, plus its calories, distance and duration, to the weekly stats. |
| ClientProperties.BothHistoriesAgree | client/src/lib/storage.ts:67-72 | `localStorage.ts` and `storage.ts` record a search identically. |
| MockData.HoursMinutes | client/src/lib/mock-data.ts:148 | For minutes below 60, the text is clock text `H:MM` that reads back as `h * 60 + mm`. |
| MockData.FormatDuration | client/src/lib/mock-data.ts:143-151 | From 60 minutes up, the `H:MM` text reads back as the duration. Below an hour, it reads back as 60 times the duration. For every input there is exactly one colon, with two characters after it. |
| MockData.HoursText | client/src/lib/mock-data.ts:147-148 | When the floored hours are positive, the duration is at least 60 minutes, and the text is clock text that reads back as the duration, with one colon. |
| MockData.MinutesText | client/src/lib/mock-data.ts:150 | When the floored hours are not positive, the duration is below 60 minutes, and the text has one colon third from the end. For a non-negative duration the text reads back as 60 times the duration. |
| MockData.SplitMinutes | client/src/lib/mock-data.ts:144-145 | For a non-negative count, the hours and the minutes below 60 make up the count. |
| MockData.SubHourText | client/src/lib/mock-data.ts:150 | For `0 <= m < 60` the text is `m` followed by ":00". |
| MockData.WholeHoursText | client/src/lib/mock-data.ts:147-149 | A whole number `h >= 1` of hours is `h` followed by ":00". |
| MockData.FormatDurationCollides | client/src/lib/mock-data.ts:143-151 | For `1 <= m < 60`, `formatDuration(m)` equals `formatDuration(60 * m)`. |
| MockData.FormatDurationFixed | client/src/lib/mock-data.ts:143-151 | The corrected rendering is always `H:MM` clock text, and it reads back as the duration. |
| MockData.FormatDurationFixedOneColon | client/src/lib/mock-data.ts:143-151 | The corrected rendering has exactly one colon, the third character from the end. |
| MockData.FormatDurationFixedFaithful | client/src/lib/mock-data.ts:143-149 | The corrected rendering is injective, and from an hour up it agrees with `formatDuration`. |
| MockData.FormatTimeAgo | client/src/lib/mock-data.ts:159-175 | Two days or more gives "N days ago", one day gives "Yesterday", and likewise "N hours ago"/"1 hour ago" and "N minutes ago"/"1 minute ago". Under a minute, future dates included, it gives "Just now". |
| MockData.FormatTimeAgoCountsDays | client/src/lib/mock-data.ts:159-167 | From a day on, two dates get the same text exactly when the same whole number of days has elapsed since each. |
| NotificationCenter.MarkAsRead | client/src/components/notification-center.tsx:91-97 | Entries with the id become read. Every entry keeps its other fields and its position, and the length is unchanged. |
| NotificationCenter.UnreadCount | client/src/components/notification-center.tsx:99 | The number of entries that are not read. So it is at most the length, and zero exactly when every entry is read. |
| NotificationCenter.MarkAsReadIdempotent | client/src/components/notification-center.tsx:91-97 | Marking the same id twice is the same as once. |
| NotificationCenter.MarkAsReadCount | client/src/components/notification-center.tsx:91-99 | After marking, the unread count is the number of unread entries with another id. |
| NotificationCenter.MarkAsReadLowersCount | client/src/components/notification-center.tsx:91-99 | Marking never raises the unread count. It lowers the count exactly when some unread entry carries the id. |
| NotificationCenter.FormatTimeRemaining | client/src/components/notification-center.tsx:76-89 | From a day on, "N day"/"N days" with whole days. From an hour, "N hour"/"N hours". Under an hour, overdue included, "Soon". |
| NotificationCenter.RemainingUnits | client/src/components/notification-center.tsx:79-80 | With the truncating remainder, the day count is positive only from a day on, and the hour count is positive only from an hour on. Below a day the hours are the whole hours. |
| Dashboard.FormatDueTime | client/src/pages/dashboard.tsx:93-106 | A day or more gives "Due in N day(s)". 1-23 whole hours gives "Due in N hour(s)". Less, overdue included, gives "Due soon". |
| Dashboard.DaysOfHours | client/src/pages/dashboard.tsx:96-97 | Whole days of whole hours are whole days. |
| Dashboard.DueTimeAgreesWithTimeRemaining | client/src/pages/dashboard.tsx:93-106 | The dashboard label is "Due in " plus the notification centre's label, and "Due soon" exactly when the centre says "Soon". |
| Dashboard.ReminderColor | client/src/pages/dashboard.tsx:84-91 | `high`, `medium` and `low` map to their classes, and anything else to the gray default. |
| Dashboard.ReminderColorsDistinct | client/src/pages/dashboard.tsx:84-91 | The three priority classes and the default are pairwise distinct. |
| Navigation.Lead | client/src/components/navigation.tsx:14 | The first character of a name, or nothing for an absent or empty name. |
| Navigation.GetInitials | client/src/components/navigation.tsx:12-15 | "AT" when both names are falsy. Otherwise the upper-cased first character of each non-empty name, first name first, with length 1 or 2. |
| Navigation.InitialsDependOnFirstCharacters | client/src/components/navigation.tsx:14 | Names with the same first characters give the same initials. |
| AuthForms.RegisterImpliesLogin | client/src/pages/auth.tsx:18-23 | Every valid register form is a valid login form, and sport and level never affect validity. |
| AuthForms.Utf16LengthBounds | client/src/pages/auth.tsx:15 | `.length` counts each character below U+10000 once and each other one twice, so it lies between the character count and twice it. |
| AuthForms.PasswordRuleByCharacters | client/src/pages/auth.tsx:13-16 | With a passing email, six or more characters always pass `min(6)` and fewer than three always fail. For text without astral characters the rule holds exactly when there are six or more. |
| AuthForms.AstralPasswordPasses | client/src/pages/auth.tsx:15 | Three emoji count as six code units, so such a three-character password passes `min(6)`. |
| AuthForms.NameRuleByCharacters | client/src/pages/auth.tsx:18-23 | With valid login fields, names of two or more characters pass. An empty name fails, and so does a single character below U+10000. |
| AuthForms.DefaultsInvalid | client/src/pages/auth.tsx:35-50 | The forms' empty default values are invalid whatever the email check says. |
| PlanTrip.ToggleAmenity | client/src/pages/plan-trip.tsx:165-172 | A selected amenity is removed, every copy of it, with the rest kept in order. An unselected one is appended. The rest of the plan is unchanged. |
| PlanTrip.ToggleTwiceRestores | client/src/pages/plan-trip.tsx:165-172 | Toggling an unselected amenity twice restores the plan. |
| PlanTrip.AddFacility | client/src/pages/plan-trip.tsx:178-186 | No change when the id is already selected. Otherwise the facility is appended, and distinct selected ids stay distinct. |
| PlanTrip.RemoveFacility | client/src/pages/plan-trip.tsx:188-194 | Every facility with the id is dropped, and the rest stay in order. |
| PlanTrip.AddThenRemoveRestores | client/src/pages/plan-trip.tsx:178-194 | Adding an unselected facility and then removing its id restores the plan. |
| PlanTrip.Nights | client/src/pages/plan-trip.tsx:202 | The number of started days between the dates: `ceil(span / day)`. |
| PlanTrip.NoNightlyPrice | client/src/pages/plan-trip.tsx:203 | An accommodation as the server sends it has no `pricePerNight`, so the read is `undefined` and the product is `NaN`. |
| PlanTrip.NoDailyPrice | client/src/pages/plan-trip.tsx:211 | A facility as the server sends it has no `pricePerDay`, so the read is `NaN`. |
| PlanTrip.TotalCost | client/src/pages/plan-trip.tsx:196-216 | As written, reading `pricePerNight` and `pricePerDay`: 0 while a date is missing or nothing is selected, and `NaN` once both dates are set and anything is selected, because the server's records have neither key. |
| PlanTrip.AccommodationSubtotal | client/src/pages/plan-trip.tsx:654-663 | As written, the sidebar's accommodation line is `NaN` for every record the server sends, with or without dates. |
| PlanTrip.FacilitySubtotal | client/src/pages/plan-trip.tsx:666-674 | As written, the sidebar's facility line is `NaN` whenever a facility is selected, with or without dates, and 0 for an empty selection. |
| PlanTrip.SidebarAddsUpToTotal | client/src/pages/plan-trip.tsx:196-216 | With both dates set, `calculateTotalCost` equals the sidebar's accommodation line plus its facility line, `(sum of daily prices) * days`, whatever keys the prices are read under, `NaN` included. |
| PlanTrip.CorrectedTotalCost | client/src/pages/plan-trip.tsx:196-216 | Reading both prices from `price`, the column the server records carry, the total is always a number, and 0 while a date is missing. |
| PlanTrip.CorrectedTotalValue | client/src/pages/plan-trip.tsx:196-216 | With both dates set, the corrected total is the accommodation's price times the nights plus the sum of the facilities' prices, a `null` price counting 0, times the nights. |
| PlanTrip.CorrectedSidebarAddsUp | client/src/pages/plan-trip.tsx:654-674 | Reading `price`, the sidebar's accommodation line is price times nights, its facility line is the summed prices times nights, and the two add up to the corrected total. |
| PlanTrip.SearchAccommodations | client/src/pages/plan-trip.tsx:131-146 | No destination leaves the filters unchanged. Otherwise the city is the destination, type "any" becomes "" and any other type is kept, and a price range, exactly when given, becomes the maximum price. |
| PlanTrip.SearchFacilities | client/src/pages/plan-trip.tsx:148-163 | No destination leaves the filters unchanged. Otherwise the city is the destination, the type is cleared, and the sports are `[user.sport]` or `[]`. |
| PlanTrip.SearchEnablesQueries | client/src/pages/plan-trip.tsx:131-163 | A destination always sets a non-empty city in both filter sets. Without one, both cities stay as they were. |
| PlanTrip.SearchOverwritesFilters | client/src/pages/plan-trip.tsx:131-163 | With a destination, both searches replace the previous filters completely: different earlier filters give the same result, and repeating a search changes nothing. |
| Seqs.InsertBySorted | client/src/lib/localStorage.ts:209 | Inserting into a list sorted by a key keeps it sorted, as the due-date sort needs. |
| JsMath.JsRem | client/src/components/notification-center.tsx:80 | JavaScript's `%`: the remainder takes the dividend's sign, and it agrees with Dafny's `%` on non-negative dividends. |
| JsMath.JsRemDiffersOnNegatives | client/src/components/notification-center.tsx:80 | On a negative dividend that is not a multiple, the truncating remainder is the Euclidean one minus the divisor. |

## Left out

- JSON text.
  - The browser store keeps the parsed value of each entry, not its text.
  - `JSON.stringify` and `JSON.parse` are identity on that value.
  - Text that does not parse is one `Unparsable` slot.
  - An entry holding the empty string (falsy, so read as the fallback) is not represented, because none of the helpers writes one.
- `exportData` and `importData` (client/src/lib/localStorage.ts:270-300): they only assemble or split JSON text.
- Floating point.
  - JSON numbers, prices and times are integers.
  - `parseFloat` of a price is the parameter `parsePrice`.
  - `formatPace` (client/src/lib/mock-data.ts:153-157) is left out entirely.
- Dates.
  - Every date is an integer count of milliseconds.
  - `new Date(x)` on a stored value or a form string is the parameter `parseDate`. `None` stands for an invalid date.
  - `new Date().toISOString()` is the parameter `nowIso`.
  - `oneWeekAgo.setDate(getDate() - 7)` is `now - 7 days`; daylight-saving shifts are not modelled.
- Ids made from `Date.now()` (client/src/lib/localStorage.ts:95, client/src/lib/storage.ts:42) are the parameter `now`.
- `parseInt` of a route parameter: ids are integers, and a `NaN` id is not modelled. It finds nothing, as an absent id does.
- The `catch` branches that answer 500 on the `GET`/`PUT` routes are not modelled, because the repository never throws. Login's 500 for a missing password is modelled.
- Handlers for health metrics and activities (server/routes.ts:232-271). They call repository methods and schemas that do not exist, so there is no behaviour to model.
- Express, `fetch`, bcrypt internals and the zod parsers.
  - A schema parse is an optional insert record.
  - The email format check is an uninterpreted predicate.
  - bcrypt is an uninterpreted hash/compare pair.
- Update bodies.
  - A `PUT` body is a typed patch: each column is kept or overwritten, and other keys land in `extra`.
  - A body that gives a column a value of the wrong JSON type is not representable.
- The schema's `type` columns are named `kind`, because `type` is a Dafny keyword.
- Row order. `Map.values()` lists rows in first-insertion order. Keys come from an increasing counter and no row is deleted, so the model lists rows by ascending id. That order is the same.
- Case mapping. `toLowerCase`/`toUpperCase` are modelled on ASCII letters only; other characters are unchanged.
- React state, rendering, toasts and queries.
  - The helpers are modelled as functions of the state they read.
  - `selectAccommodation` and the trip-save mutation of the planner are plain state updates and are not modelled.
- AuthManager.ErrorMessage: a truthy `message` that is not a string (a number, say) becomes the fallback in the model. JavaScript would throw its string form instead.
- PlanTrip.ToNumber: text, arrays and objects read as `NaN`. JavaScript turns numeric text such as "12" into a number. None of the price keys read here holds text, so no modelled result changes.
- Navigation.Lead: a name is a sequence of Unicode scalar values, so `name?.[0]` is the whole first character. JavaScript indexes UTF-16 code units, so for a first character from U+10000 up it yields a lone surrogate.
- LocalStorageHelpers.UserUpdate and LocalStorageHelpers.PreferencesUpdate: a spread (`JsonValues.Own`) takes no keys from a string or an array. JavaScript's `{..."ab"}` yields the keys "0" and "1". Only stored objects are merged here.
- LocalStorageHelpers.OwnedEntries, DropId, UpdateById, MarkCompleted, GetUpcoming and WeeklyStatsOf: a `null` entry in a stored list has no `userId` or `id` in the model (`Prop(null, k)` is absent), so it is skipped. JavaScript throws a TypeError when it reads `null.userId` or `null.id`.
- LocalStorageHelpers.WeeklyStatsOf: only numeric `calories`, `distance` and `duration` values are summed as JavaScript sums them; any other value counts 0 (`JsonValues.NumOrZero`). In JavaScript `sum + (entry.calories || 0)` adds 1 for `true` and turns the total into text for a truthy string, array or object.
- LocalStorageHelpers.WeeklyStatsOf: its own contract bounds only the workout count. How logging a workout changes every total is stated by `ClientProperties.ProgressAddCountsInWeek`.
- LocalStorageHelpers.GetUpcoming: the contract states the permutation and the ordering. It does not state stability among reminders due at the same instant.

## Findings

| source | as written | input that shows it | evidently intended | confidence | as-written member | corrected member |
|---|---|---|---|---|---|---|
| client/src/lib/mock-data.ts:150 | Below an hour, `formatDuration` prints the minutes followed by `:00`. That reads as whole hours: `H:MM` from an hour up, but `M:00` below. | `formatDuration(45)` and `formatDuration(2700)` are both "45:00". | `0:45`: hours, a colon, then two-digit minutes, for every duration. | medium; not executed | MockData.FormatDurationCollides | MockData.FormatDurationFixedFaithful |
| client/src/pages/plan-trip.tsx:196-216 | `calculateTotalCost` multiplies `selectedAccommodation.pricePerNight` and each `facility.pricePerDay` by the nights. The accommodation and facility records come from the server, and their price column is `price`; neither record has those keys. The sidebar lines at lines 654-674 read the same keys. | Select any accommodation or facility from the search results and fill in both dates: the total and the sidebar lines are `NaN`. | The same sums over the `price` column, with a `null` facility price counting 0. | high; not executed | PlanTrip.TotalCost | PlanTrip.CorrectedTotalCost |

=== FILE: auth_forms.dfy ===
/** The sign-in and sign-up form rules of `client/src/pages/auth.tsx`. The
    length rules count UTF-16 code units, as JavaScript's `length` does. */
module AuthForms {
  import opened Wrappers

  /** The login form's fields. */
  datatype LoginForm = LoginForm(email: string, password: string)

  /** The register form's fields; `sport` and `level` are optional. */
  datatype RegisterForm = RegisterForm(
    email: string,
    password: string,
    firstName: string,
    lastName: string,
    sport: Option<string>,
    level: Option<string>)

  /** A character outside the Basic Multilingual Plane takes two UTF-16 code
      units (a surrogate pair). */
  predicate Astral(c: char)
  {
    c as int >= 0x1_0000
  }

  /** `s.length`: the UTF-16 code units of `s`. */
  function Utf16Length(s: string): nat
    decreases |s|
  {
    if |s| == 0 then 0 else (if Astral(s[0]) then 2 else 1) + Utf16Length(s[1..])
  }

  /** A string has at least one code unit per character and at most two. */
  lemma {:induction false} Utf16LengthBounds(s: string)
    ensures |s| <= Utf16Length(s) <= 2 * |s|
    decreases |s|
  {
    if |s| > 0 {
      Utf16LengthBounds(s[1..]);
    }
  }

  /** Without astral characters the code units are the characters. */
  lemma {:induction false} Utf16LengthOfBmp(s: string)
    requires forall i :: 0 <= i < |s| ==> !Astral(s[i])
    ensures Utf16Length(s) == |s|
    decreases |s|
  {
    if |s| > 0 {
      assert !Astral(s[0]);
      Utf16LengthOfBmp(s[1..]);
    }
  }

  /** `loginSchema`: an email address (the address check `isEmail` is a
      parameter) and a password of at least six code units. */
  predicate LoginValid(isEmail: string -> bool, f: LoginForm)
  {
    isEmail(f.email) && Utf16Length(f.password) >= 6
  }

  /** `registerSchema`: the login rules plus first and last names of at least
      two code units each; `sport` and `level` are not checked. */
  predicate RegisterValid(isEmail: string -> bool, f: RegisterForm)
  {
    LoginValid(isEmail, LoginForm(f.email, f.password))
    && Utf16Length(f.firstName) >= 2 && Utf16Length(f.lastName) >= 2
  }

  /** The password rule by characters: six or more always pass, fewer than
      three always fail, and in between it depends on how many are astral.
      With a valid email the password rule alone decides the login form. */
  lemma PasswordRuleByCharacters(isEmail: string -> bool, email: string, password: string)
    requires isEmail(email)
    ensures |password| >= 6 ==> LoginValid(isEmail, LoginForm(email, password))
    ensures |password| < 3 ==> !LoginValid(isEmail, LoginForm(email, password))
    ensures (forall i :: 0 <= i < |password| ==> !Astral(password[i])) ==>
      (LoginValid(isEmail, LoginForm(email, password)) <==> |password| >= 6)
  {
    Utf16LengthBounds(password);
    if forall i :: 0 <= i < |password| ==> !Astral(password[i]) {
      Utf16LengthOfBmp(password);
    }
  }

  /** Three astral characters make a six-unit password: it passes the rule
      although it has only three characters. */
  lemma AstralPasswordPasses(isEmail: string -> bool, email: string)
    requires isEmail(email)
    ensures var password := "\U{1F600}\U{1F600}\U{1F600}";
      |password| == 3 && LoginValid(isEmail, LoginForm(email, password))
  {
    var password := "\U{1F600}\U{1F600}\U{1F600}";
    assert password[1..] == "\U{1F600}\U{1F600}";
    assert password[2..] == "\U{1F600}";
    assert password[3..] == "";
  }

  /** Every valid register form, cut down to email and password, is a valid
      login form; optional fields never affect validity. */
  lemma RegisterImpliesLogin(isEmail: string -> bool, f: RegisterForm, sport: Option<string>, level: Option<string>)
    ensures RegisterValid(isEmail, f) ==> LoginValid(isEmail, LoginForm(f.email, f.password))
    ensures RegisterValid(isEmail, f) == RegisterValid(isEmail, f.(sport := sport, level := level))
  {
  }

  /** The name rules by characters: two or more always pass; an empty name,
      or a single character below U+10000, always fails. */
  lemma NameRuleByCharacters(isEmail: string -> bool, f: RegisterForm)
    requires LoginValid(isEmail, LoginForm(f.email, f.password))
    ensures |f.firstName| >= 2 && |f.lastName| >= 2 ==> RegisterValid(isEmail, f)
    ensures |f.firstName| == 0 || |f.lastName| == 0 ==> !RegisterValid(isEmail, f)
    ensures (|f.firstName| == 1 && !Astral(f.firstName[0])) || (|f.lastName| == 1 && !Astral(f.lastName[0]))
      ==> !RegisterValid(isEmail, f)
  {
    Utf16LengthBounds(f.firstName);
    Utf16LengthBounds(f.lastName);
    if |f.firstName| == 1 {
      assert f.firstName[1..] == [];
    }
    if |f.lastName| == 1 {
      assert f.lastName[1..] == [];
    }
  }

  /** The forms' initial values (every field empty) are invalid whatever the
      email check says. */
  lemma DefaultsInvalid(isEmail: string -> bool)
    ensures !LoginValid(isEmail, LoginForm("", ""))
    ensures !RegisterValid(isEmail, RegisterForm("", "", "", "", Some(""), Some("")))
  {
  }
}

=== FILE: auth_manager.dfy ===
/** `AuthManager` of `client/src/lib/auth.ts`: the signed-in user kept under
    one key, and the handling of the login and register replies. The request
    itself is left to the caller: a reply is its `ok` flag and parsed body. */
module AuthManager {
  import opened Wrappers
  import opened JsonValues
  import opened BrowserStore

  const UserKey := "athletetravel_user"

  /** `getCurrentUser`: the parsed stored user; `null` when the key is absent or
      its text does not parse. */
  function GetCurrentUser(s: Store): (u: Json)
    ensures UserKey !in s ==> u == JNull
    ensures UserKey in s && s[UserKey].Unparsable? ==> u == JNull
    ensures UserKey in s && s[UserKey].Stored? ==> u == s[UserKey].value
  {
    if UserKey in s && s[UserKey].Stored? then s[UserKey].value else JNull
  }

  /** `setCurrentUser`: `JSON.stringify(user)`; for `undefined` (`None`) that is
      `undefined`, stored as the unparsable text "undefined". */
  function SetCurrentUser(s: Store, user: Option<Json>): (r: Store)
    ensures user.Some? ==> GetCurrentUser(r) == user.value
    ensures user.None? ==> GetCurrentUser(r) == JNull
    ensures SameElsewhere(r, s, UserKey)
  {
    s[UserKey := if user.Some? then Stored(user.value) else Unparsable]
  }

  /** `clearCurrentUser`. */
  function ClearCurrentUser(s: Store): (r: Store)
    ensures GetCurrentUser(r) == JNull
    ensures SameElsewhere(r, s, UserKey)
  {
    s - {UserKey}
  }

  /** `isAuthenticated`: `getCurrentUser() !== null`. Signed in exactly when
      the key holds text that parses to something other than `null`. */
  function IsAuthenticated(s: Store): (b: bool)
    ensures b <==> UserKey in s && s[UserKey].Stored? && s[UserKey].value != JNull
  {
    GetCurrentUser(s) != JNull
  }

  /** `logout`. */
  function Logout(s: Store): (r: Store)
    ensures !IsAuthenticated(r)
    ensures SameElsewhere(r, s, UserKey)
  {
    ClearCurrentUser(s)
  }

  /** A reply of the server: `response.ok` and the parsed `response.json()`. */
  datatype Reply = Reply(ok: bool, body: Json)

  /** How `login`/`register` settle: rejected with the `Error` they throw and
      its message; rejected with the `TypeError` that reading a property of a
      `null` body raises; or resolved with `user` from the body (`None` for
      `undefined`). */
  datatype AuthResult = Failed(message: string) | NullBodyError | SignedIn(user: Option<Json>)

  /** `error.message || fallback` for a string `message`. */
  function ErrorMessage(body: Json, fallback: string): (m: string)
    ensures Prop(body, "message").Some? && Prop(body, "message").value.JStr? && Prop(body, "message").value.s != "" ==>
      m == Prop(body, "message").value.s
    ensures !(Prop(body, "message").Some? && Truthy(Prop(body, "message").value)) ==> m == fallback
  {
    match Prop(body, "message")
    case Some(JStr(t)) => if t != "" then t else fallback
    case _ => fallback
  }

  /** The shared tail of `login` and `register`. A `null` body makes both
      `error.message` and `const { user } = ...` throw a `TypeError` before
      anything is written. Otherwise a reply that is not ok throws its message
      and writes nothing, and an ok reply stores and returns its `user`. */
  function HandleReply(s: Store, reply: Reply, fallback: string): (res: (Store, AuthResult))
    ensures reply.body == JNull ==> res == (s, NullBodyError)
    ensures !reply.ok && reply.body != JNull ==> res == (s, Failed(ErrorMessage(reply.body, fallback)))
    ensures reply.ok && reply.body != JNull ==>
      && res.1 == SignedIn(Prop(reply.body, "user"))
      && res.0 == SetCurrentUser(s, Prop(reply.body, "user"))
  {
    if reply.body == JNull then (s, NullBodyError)
    else if !reply.ok then (s, Failed(ErrorMessage(reply.body, fallback)))
    else
      var user := Prop(reply.body, "user");
      (SetCurrentUser(s, user), SignedIn(user))
  }

  /** `login`, with "Login failed" when the error body has no message. */
  function Login(s: Store, reply: Reply): (res: (Store, AuthResult))
    ensures reply.body == JNull ==> res == (s, NullBodyError)
    ensures !reply.ok ==> res.0 == s && !res.1.SignedIn?
    ensures !reply.ok && reply.body != JNull && !PropTruthy(Prop(reply.body, "message")) ==> res.1 == Failed("Login failed")
    ensures reply.ok && reply.body != JNull ==> res.1 == SignedIn(Prop(reply.body, "user"))
    ensures reply.ok && Prop(reply.body, "user").Some? ==> GetCurrentUser(res.0) == Prop(reply.body, "user").value
  {
    HandleReply(s, reply, "Login failed")
  }

  /** `register`, with "Registration failed" when the error body has no message. */
  function Register(s: Store, reply: Reply): (res: (Store, AuthResult))
    ensures reply.body == JNull ==> res == (s, NullBodyError)
    ensures !reply.ok ==> res.0 == s && !res.1.SignedIn?
    ensures !reply.ok && reply.body != JNull && !PropTruthy(Prop(reply.body, "message")) ==> res.1 == Failed("Registration failed")
    ensures reply.ok && reply.body != JNull ==> res.1 == SignedIn(Prop(reply.body, "user"))
    ensures reply.ok && Prop(reply.body, "user").Some? ==> GetCurrentUser(res.0) == Prop(reply.body, "user").value
  {
    HandleReply(s, reply, "Registration failed")
  }
}

=== FILE: browser_store.dfy ===
/** The browser's `localStorage` as the client helpers see it: a map from key
    to the JSON text stored under it, represented by the value that text parses
    back to. */
module BrowserStore {
  import opened JsonValues

  /** The text under one key: `JSON.stringify(value)`, or text `JSON.parse`
      rejects (`"undefined"`, which `JSON.stringify(undefined)` produces). */
  datatype Slot = Stored(value: Json) | Unparsable

  type Store = map<string, Slot>

  /** The result of a helper without a `try`: a value, or an exception. */
  datatype Outcome<+T> = Ok(value: T) | Throws

  /** `a` and `b` agree on every key except `key`. */
  predicate SameElsewhere(a: Store, b: Store, key: string)
  {
    a - {key} == b - {key}
  }
}

=== FILE: client_properties.dfy ===
/** Properties of the client storage helpers that relate several operations,
    or the three helper files to one another. */
module ClientProperties {
  import opened Wrappers
  import opened JsonValues
  import opened BrowserStore
  import Seqs
  import Text
  import JsMath
  import L = LocalStorageHelpers
  import M = StorageManager
  import A = AuthManager

  /** `storage.clear()` signs the user out: the `AuthManager` key starts with
      the `LocalStorageManager` prefix. */
  lemma ManagerClearSignsOut(s: Store)
    ensures !A.IsAuthenticated(M.Clear(s))
  {
    assert Text.StartsWith(A.UserKey, M.Prefix) by {
      assert A.UserKey[..|M.Prefix|] == M.Prefix;
    }
  }

  /** `storage.clear()` keeps everything `localStorage.ts` wrote: its keys
      start with `athleteTravel_`, which differs from the prefix in case. */
  lemma ManagerClearKeepsHelperData(s: Store)
    ensures forall k :: k in L.AllKeys ==> (k in M.Clear(s) <==> k in s)
  {
    forall k | k in L.AllKeys ensures !Text.StartsWith(k, M.Prefix) {
      assert k[7] == 'T' && M.Prefix[7] == 't';
    }
  }

  /** `clearAllData()` does not sign the user out: the `AuthManager` key is not
      one of the `localStorage.ts` keys. */
  lemma ClearAllDataKeepsSession(s: Store)
    ensures A.IsAuthenticated(L.ClearAllData(s)) == A.IsAuthenticated(s)
  {
    assert A.UserKey !in L.AllKeys;
  }

  /** After `logout` nothing is signed in, whatever was stored before. */
  lemma LoginThenLogout(s: Store, reply: A.Reply)
    ensures !A.IsAuthenticated(A.Logout(A.Login(s, reply).0))
  {
  }

  /** An ok reply whose (non-null) body has no `user` stores the text
      "undefined", which does not parse, so the client is signed out although
      `login` resolved. */
  lemma OkReplyWithoutUserSignsOut(s: Store, reply: A.Reply)
    requires reply.ok && reply.body != JNull && Prop(reply.body, "user").None?
    ensures A.Login(s, reply).1 == A.SignedIn(None)
    ensures !A.IsAuthenticated(A.Login(s, reply).0)
  {
  }

  /** An ok reply carrying a non-null user signs it in. */
  lemma OkReplyWithUserSignsIn(s: Store, reply: A.Reply)
    requires reply.ok && Prop(reply.body, "user").Some? && Prop(reply.body, "user").value != JNull
    ensures A.IsAuthenticated(A.Login(s, reply).0)
    ensures A.IsAuthenticated(A.Register(s, reply).0)
  {
  }

  /** A failed login or register leaves the session as it was. */
  lemma FailedReplyKeepsSession(s: Store, reply: A.Reply)
    requires !reply.ok
    ensures A.IsAuthenticated(A.Login(s, reply).0) == A.IsAuthenticated(s)
    ensures A.IsAuthenticated(A.Register(s, reply).0) == A.IsAuthenticated(s)
  {
  }

  /** A reminder just marked completed is no longer upcoming. */
  lemma MarkedReminderNotUpcoming(s: Store, id: int, now: int, parseDate: Json -> Option<int>)
    requires L.MarkCompleted(s, id).Ok? && L.MarkCompleted(s, id).value.1
    ensures var ys := L.ReadList(L.MarkCompleted(s, id).value.0, L.RemindersKey).value;
      exists i :: 0 <= i < |ys| && L.HasId(ys[i], id) && !L.Upcoming(ys[i], now, parseDate)
  {
    var xs := L.ReadList(s, L.RemindersKey).value;
    var ys := L.ReadList(L.MarkCompleted(s, id).value.0, L.RemindersKey).value;
    var i :| 0 <= i < |xs| == |ys| && L.HasId(ys[i], id) && Prop(ys[i], "isCompleted") == Some(JBool(true));
    assert !L.Upcoming(ys[i], now, parseDate);
  }

  /** Filtering a one-element list. */
  lemma FilterSingle<T>(x: T, p: T -> bool)
    ensures Seqs.Filter([x], p) == if p(x) then [x] else []
  {
    assert [x][1..] == [];
  }

  /** The sums of `getWeeklyStats` grow by the appended entry's value. */
  lemma SumOfAppend(xs: seq<Json>, x: Json, field: string)
    ensures L.SumOf(xs + [x], field) == L.SumOf(xs, field) + NumOrZero(Prop(x, field))
  {
    assert (xs + [x])[..|xs|] == xs;
  }

  /** Appending an entry of the user dated within the week appends it to the
      entries `getWeeklyStats` counts. */
  lemma WeekAppend(xs: seq<Json>, added: Json, userId: int, since: int, parseDate: Json -> Option<int>)
    requires L.OwnedBy(added, userId) && L.InWeek(added, since, parseDate)
    ensures Seqs.Filter(Seqs.Filter(xs + [added], L.Owner(userId)), L.InWeekOf(since, parseDate)) ==
            Seqs.Filter(Seqs.Filter(xs, L.Owner(userId)), L.InWeekOf(since, parseDate)) + [added]
  {
    Seqs.FilterAppend(xs, [added], L.Owner(userId));
    FilterSingle(added, L.Owner(userId));
    Seqs.FilterAppend(Seqs.Filter(xs, L.Owner(userId)), [added], L.InWeekOf(since, parseDate));
    FilterSingle(added, L.InWeekOf(since, parseDate));
  }

  /** Logging a workout of the user dated within the last seven days adds one
      workout and its calories, distance and duration to the weekly stats. */
  lemma ProgressAddCountsInWeek(s: Store, entry: Json, userId: int, now: int, nowIso: string,
                                parseDate: Json -> Option<int>, d: Json, t: int)
    requires L.ReadList(s, L.ProgressKey).Ok?
    requires L.OwnedBy(entry, userId)
    requires Prop(entry, "date") == Some(d) && Truthy(d) && parseDate(d) == Some(t)
    requires t >= now - 7 * JsMath.DayMs
    ensures
      var before := L.WeeklyStatsOf(s, userId, now, parseDate).value;
      var after := L.WeeklyStatsOf(L.ProgressAdd(s, entry, now, nowIso).value.0, userId, now, parseDate);
      && after.Ok?
      && after.value.totalWorkouts == before.totalWorkouts + 1
      && after.value.totalCalories == before.totalCalories + NumOrZero(Prop(entry, "calories"))
      && after.value.totalDistance == before.totalDistance + NumOrZero(Prop(entry, "distance"))
      && after.value.totalDuration == before.totalDuration + NumOrZero(Prop(entry, "duration"))
  {
    var since := now - 7 * JsMath.DayMs;
    var xs := L.ReadList(s, L.ProgressKey).value;
    var (s', added) := L.ProgressAdd(s, entry, now, nowIso).value;
    assert Prop(added, "userId") == Prop(entry, "userId");
    assert Prop(added, "date") == Some(d);
    assert Prop(added, "calories") == Prop(entry, "calories");
    assert Prop(added, "distance") == Prop(entry, "distance");
    assert Prop(added, "duration") == Prop(entry, "duration");
    WeekAppend(xs, added, userId, since, parseDate);
    var w := Seqs.Filter(Seqs.Filter(xs, L.Owner(userId)), L.InWeekOf(since, parseDate));
    assert L.WeeklyStatsOf(s, userId, now, parseDate) ==
      Ok(L.WeeklyStats(|w|, L.SumOf(w, "calories"), L.SumOf(w, "distance"), L.SumOf(w, "duration")));
    assert L.ReadList(s', L.ProgressKey) == Ok(xs + [added]);
    assert L.WeeklyStatsOf(s', userId, now, parseDate) ==
      Ok(L.WeeklyStats(|w + [added]|, L.SumOf(w + [added], "calories"), L.SumOf(w + [added], "distance"),
        L.SumOf(w + [added], "duration")));
    SumOfAppend(w, added, "calories");
    SumOfAppend(w, added, "distance");
    SumOfAppend(w, added, "duration");
  }

  /** `localStorage.ts` and `storage.ts` record a search the same way. */
  lemma BothHistoriesAgree(s: Store, q: string)
    requires L.ReadList(s, L.SearchHistoryKey).Ok?
    requires M.GetSearchHistory(s) == JArr(L.ReadList(s, L.SearchHistoryKey).value)
    ensures L.ReadList(L.SearchHistoryAdd(s, q).value, L.SearchHistoryKey).value ==
            M.GetSearchHistory(M.AddSearchHistory(s, q).value).items
  {
  }
}

=== FILE: dashboard.dfy ===
/** The reminder helpers of `client/src/pages/dashboard.tsx`: the due-time
    label and the colour classes per priority. */
module Dashboard {
  import opened Text
  import opened JsMath
  import NotificationCenter

  /** `formatDueTime(dueDate)` with `now` the current time in milliseconds: the
      whole hours left, then whole days of those hours; a day or more gives
      days, an hour or more gives hours, and anything less, overdue included,
      "Due soon". */
  function FormatDueTime(dueDate: int, now: int): (r: string)
    ensures var diff := dueDate - now;
      && (diff >= DayMs ==> r == "Due in " + NatToString(diff / DayMs) + (if diff < 2 * DayMs then " day" else " days"))
      && (HourMs <= diff < DayMs ==> r == "Due in " + NatToString(diff / HourMs) + (if diff < 2 * HourMs then " hour" else " hours"))
      && (diff < HourMs ==> r == "Due soon")
  {
    var diff := dueDate - now;
    var hours := FloorDiv(diff, HourMs);
    var days := FloorDiv(hours, 24);
    if days > 0 then
      DaysOfHours(diff);
      if days == 1 then "Due in 1 day" else "Due in " + IntToString(days) + " days"
    else if hours > 0 then
      if hours == 1 then "Due in 1 hour" else "Due in " + IntToString(hours) + " hours"
    else
      "Due soon"
  }

  /** Whole days of whole hours are whole days: `floor(floor(d / hour) / 24)`
      is `floor(d / day)`. */
  lemma DaysOfHours(diff: int)
    ensures FloorDiv(FloorDiv(diff, HourMs), 24) == FloorDiv(diff, DayMs)
  {
    var h := FloorDiv(diff, HourMs);
    var d := FloorDiv(h, 24);
    assert HourMs * h <= diff < HourMs * h + HourMs;
    assert 24 * d <= h < 24 * d + 24;
    assert DayMs * d <= diff < DayMs * d + DayMs;
    EuclidUnique(diff, DayMs, d, diff - DayMs * d);
  }

  /** The dashboard and the notification centre agree: the dashboard's label is
      "Due in " followed by the centre's, and "Due soon" exactly when the centre
      says "Soon". */
  lemma DueTimeAgreesWithTimeRemaining(dueDate: int, now: int)
    ensures var centre := NotificationCenter.FormatTimeRemaining(dueDate, now);
      && (centre == "Soon" <==> FormatDueTime(dueDate, now) == "Due soon")
      && (centre != "Soon" ==> FormatDueTime(dueDate, now) == "Due in " + centre)
  {
    var diff := dueDate - now;
    if diff >= HourMs {
      var t := NatToString(if diff >= DayMs then diff / DayMs else diff / HourMs);
      var u := if diff >= DayMs then (if diff < 2 * DayMs then " day" else " days")
               else (if diff < 2 * HourMs then " hour" else " hours");
      assert NotificationCenter.FormatTimeRemaining(dueDate, now) == t + u;
      assert FormatDueTime(dueDate, now) == "Due in " + t + u;
      assert u[|u| - 1] != 'n';
      PrefixedLabel(t, u);
    }
  }

  /** A count and a unit not ending in `n` are not "Soon", and with "Due in "
      in front they are not "Due soon". */
  lemma PrefixedLabel(t: string, u: string)
    requires |u| >= 1 && u[|u| - 1] != 'n'
    ensures t + u != "Soon"
    ensures "Due in " + t + u == "Due in " + (t + u) && "Due in " + t + u != "Due soon"
  {
    assert (t + u)[|t + u| - 1] == u[|u| - 1];
    assert "Soon"[3] == 'n';
    var due := "Due in " + t + u;
    assert due[4] == 'i';
    assert "Due soon"[4] == 's';
  }

  /** `getReminderColor(priority)`: `high`, `medium` and `low` have their own
      classes, pairwise distinct, and every other priority the gray default. */
  function ReminderColor(priority: string): (r: string)
    ensures priority == "high" ==> r == "bg-red-50 border-red-200 text-red-800"
    ensures priority == "medium" ==> r == "bg-yellow-50 border-yellow-200 text-yellow-800"
    ensures priority == "low" ==> r == "bg-blue-50 border-blue-200 text-blue-800"
    ensures priority !in {"high", "medium", "low"} ==> r == "bg-gray-50 border-gray-200 text-gray-800"
  {
    if priority == "high" then "bg-red-50 border-red-200 text-red-800"
    else if priority == "medium" then "bg-yellow-50 border-yellow-200 text-yellow-800"
    else if priority == "low" then "bg-blue-50 border-blue-200 text-blue-800"
    else "bg-gray-50 border-gray-200 text-gray-800"
  }

  /** The four colour classes are pairwise distinct: each known priority is
      told apart from the others and from the default. */
  lemma ReminderColorsDistinct(other: string)
    requires other !in {"high", "medium", "low"}
    ensures ReminderColor("high") != ReminderColor("medium")
    ensures ReminderColor("high") != ReminderColor("low")
    ensures ReminderColor("medium") != ReminderColor("low")
    ensures ReminderColor(other) !in {ReminderColor("high"), ReminderColor("medium"), ReminderColor("low")}
  {
    assert ReminderColor("high")[3] == 'r';
    assert ReminderColor("medium") == "bg-yellow-50 border-yellow-200 text-yellow-800";
    assert ReminderColor("medium")[3] == 'y';
    assert ReminderColor("low")[3] == 'b';
    assert ReminderColor(other)[3] == 'g';
  }
}

=== FILE: js_math.dfy ===
/** JavaScript integer arithmetic on millisecond timestamps.
    Dafny's `/` and `%` are Euclidean; JavaScript's `%` truncates toward zero and
    `Math.floor`/`Math.ceil` round a real quotient. Each is spelt out here. */
module JsMath {

  /** `1000 * 60`, `1000 * 60 * 60` and `1000 * 60 * 60 * 24`, written out. */
  const MinuteMs: int := 60000
  const HourMs: int := 3600000
  const DayMs: int := 86400000

  /** A JavaScript number as the page's cost arithmetic produces it: an integer
      or `NaN`. */
  datatype Number = Num(value: int) | NaN

  /** `a + b` on numbers: `NaN` when either operand is. */
  function Plus(a: Number, b: Number): (r: Number)
    ensures r.Num? <==> a.Num? && b.Num?
    ensures r.Num? ==> r.value == a.value + b.value
  {
    if a.Num? && b.Num? then Num(a.value + b.value) else NaN
  }

  /** `a * b` on numbers: `NaN` when either operand is. */
  function Times(a: Number, b: Number): (r: Number)
    ensures r.Num? <==> a.Num? && b.Num?
    ensures r.Num? ==> r.value == a.value * b.value
  {
    if a.Num? && b.Num? then Num(a.value * b.value) else NaN
  }

  /** `Math.floor(a / b)` for a positive divisor. */
  function FloorDiv(a: int, b: int): (q: int)
    requires b > 0
    ensures b * q <= a < b * q + b
  {
    a / b
  }

  /** `Math.ceil(a / b)` for a positive divisor. */
  function CeilDiv(a: int, b: int): (q: int)
    requires b > 0
    ensures b * q - b < a <= b * q
  {
    -((-a) / b)
  }

  /** The quotient JavaScript's truncating `%` pairs with: rounded toward zero. */
  function TruncDiv(a: int, b: int): int
    requires b > 0
  {
    if a >= 0 then a / b else -((-a) / b)
  }

  /** JavaScript's `a % b` for a positive divisor: the remainder takes the sign
      of the dividend. */
  function JsRem(a: int, b: int): (r: int)
    requires b > 0
    ensures -b < r < b
    ensures a >= 0 ==> 0 <= r && r == a % b
    ensures a < 0 ==> r <= 0
    ensures a == b * TruncDiv(a, b) + r
  {
    if a >= 0 then a % b
    else
      var q, s := (-a) / b, (-a) % b;
      assert -a == b * q + s;
      -s
  }

  /** On a negative dividend that is not a multiple of the divisor, the
      truncating remainder and Dafny's Euclidean remainder differ by the divisor. */
  lemma JsRemDiffersOnNegatives(a: int, b: int)
    requires b > 0 && a < 0 && a % b != 0
    ensures JsRem(a, b) == a % b - b
  {
    var q, s := (-a) / b, (-a) % b;
    assert -a == b * q + s;
    if s == 0 {
      assert a == b * (-q) + 0;
      EuclidUnique(a, b, -q, 0);
      assert false;
    }
    assert b * (-q - 1) == -(b * q) - b;
    EuclidUnique(a, b, -q - 1, b - s);
  }

  /** Dafny's `/` and `%` are the unique quotient and remainder with `0 <= r < b`. */
  lemma EuclidUnique(a: int, b: int, q: int, r: int)
    requires b > 0 && 0 <= r < b && a == b * q + r
    ensures a / b == q && a % b == r
  {
    var q', r' := a / b, a % b;
    assert b * q - b * q' == r' - r;
    if q > q' {
      MulAtLeast(b, q - q');
    } else if q < q' {
      MulAtLeast(b, q' - q);
    }
  }

  lemma {:induction false} MulAtLeast(b: nat, k: nat)
    requires k >= 1
    ensures b * k >= b
    decreases k
  {
    if k > 1 {
      MulAtLeast(b, k - 1);
      assert b * k == b * (k - 1) + b;
    }
  }
}

=== FILE: json.dfy ===
/** The JSON values that the schema's `jsonb` columns and free-form bodies carry. */
module JsonValues {
  import opened Wrappers

  /** A JSON value. Numbers are integers: floating point is not part of the model. */
  datatype Json =
    | JNull
    | JBool(b: bool)
    | JNum(n: int)
    | JStr(s: string)
    | JArr(items: seq<Json>)
    | JObj(fields: map<string, Json>)

  /** JavaScript truthiness of a parsed JSON value: `null`, `false`, `0` and `""`
      are falsy, every array and object is truthy. */
  predicate Truthy(j: Json)
  {
    match j
    case JNull => false
    case JBool(b) => b
    case JNum(n) => n != 0
    case JStr(s) => s != ""
    case JArr(_) => true
    case JObj(_) => true
  }

  /** `Truthy` of a property that may be `undefined`. */
  predicate PropTruthy(o: Option<Json>)
  {
    o.Some? && Truthy(o.value)
  }

  /** `j[k]` for a parsed value: the property of an object, `undefined` (`None`)
      for a key the object lacks and for every value that is not an object. */
  function Prop(j: Json, k: string): (r: Option<Json>)
    ensures r.Some? <==> j.JObj? && k in j.fields
    ensures r.Some? ==> r.value == j.fields[k]
  {
    if j.JObj? && k in j.fields then Some(j.fields[k]) else None
  }

  /** The own properties that a spread `{...j}` copies. `null`, booleans and
      numbers contribute nothing. */
  function Own(j: Json): map<string, Json>
  {
    if j.JObj? then j.fields else map[]
  }

  /** `{...a, ...b}`: every key of either operand, with `b`'s value winning. */
  function Spread(a: Json, b: Json): (r: Json)
    ensures r.JObj?
    ensures forall k :: Prop(r, k).Some? <==> Prop(a, k).Some? || Prop(b, k).Some?
    ensures forall k :: Prop(b, k).Some? ==> Prop(r, k) == Prop(b, k)
    ensures forall k :: Prop(b, k).None? ==> Prop(r, k) == Prop(a, k)
  {
    JObj(Own(a) + Own(b))
  }

  /** `a === b` on two values that may be `undefined`. Two parsed arrays or
      objects are distinct references, so they are never strictly equal. */
  predicate StrictEquals(a: Option<Json>, b: Option<Json>)
  {
    match (a, b)
    case (None, None) => true
    case (Some(x), Some(y)) => !x.JArr? && !x.JObj? && x == y
    case _ => false
  }

  /** `x || 0` on a numeric property: the number, or 0 when it is missing or falsy. */
  function NumOrZero(o: Option<Json>): (n: int)
    ensures o.Some? && o.value.JNum? ==> n == o.value.n
    ensures !(o.Some? && o.value.JNum?) ==> n == 0
  {
    if o.Some? && o.value.JNum? then o.value.n else 0
  }
}

=== FILE: local_storage.dfy ===
/** The helpers of `client/src/lib/localStorage.ts`. Every key carries the
    prefix `athleteTravel_` (capital `T`). None of the helpers catches an
    exception: text that does not parse, or a stored list that is not an array,
    makes the helper throw. `Date.now()`, `new Date()` and date parsing are
    parameters. */
module LocalStorageHelpers {
  import opened Wrappers
  import opened JsonValues
  import opened BrowserStore
  import Seqs
  import RecentSearches
  import JsMath

  const UserKey := "athleteTravel_user"
  const TripsKey := "athleteTravel_trips"
  const ProgressKey := "athleteTravel_progress"
  const RemindersKey := "athleteTravel_reminders"
  const PreferencesKey := "athleteTravel_preferences"
  const SearchHistoryKey := "athleteTravel_searchHistory"

  /** `Object.values(STORAGE_KEYS)`. */
  const AllKeys: set<string> :=
    {UserKey, TripsKey, ProgressKey, RemindersKey, PreferencesKey, SearchHistoryKey}

  /** `data ? JSON.parse(data) : fallback`: the parsed value, `fallback` when the
      key is absent, a throw when the text does not parse. */
  function ReadOr(s: Store, key: string, fallback: Json): (o: Outcome<Json>)
    ensures key !in s ==> o == Ok(fallback)
    ensures key in s ==> (o.Throws? <==> s[key].Unparsable?)
    ensures key in s && s[key].Stored? ==> o == Ok(s[key].value)
  {
    if key !in s then Ok(fallback)
    else match s[key]
      case Unparsable => Throws
      case Stored(v) => Ok(v)
  }

  /** A stored list, read as `data ? JSON.parse(data) : []` and then used as an
      array: anything stored that is not an array makes the array method throw. */
  function ReadList(s: Store, key: string): (o: Outcome<seq<Json>>)
    ensures key !in s ==> o == Ok([])
    ensures o.Ok? && key in s ==> s[key] == Stored(JArr(o.value))
    ensures o.Throws? <==> key in s && !(s[key].Stored? && s[key].value.JArr?)
  {
    if key !in s then Ok([])
    else match s[key]
      case Stored(JArr(xs)) => Ok(xs)
      case _ => Throws
  }

  /** `JSON.stringify(xs)` stored under `key`. */
  function WriteList(s: Store, key: string, xs: seq<Json>): (r: Store)
    ensures ReadList(r, key) == Ok(xs)
    ensures SameElsewhere(r, s, key)
  {
    s[key := Stored(JArr(xs))]
  }

  /** `item.id === id` for a parsed list entry. */
  predicate HasId(item: Json, id: int)
  {
    Prop(item, "id") == Some(JNum(id))
  }

  /** The search `item => item.id === id`. */
  function WithId(id: int): Json -> bool
  {
    (x: Json) => HasId(x, id)
  }

  /** `item.userId === userId` for a parsed list entry. */
  predicate OwnedBy(item: Json, userId: int)
  {
    Prop(item, "userId") == Some(JNum(userId))
  }

  /** The filter `item => item.userId === userId`. */
  function Owner(userId: int): Json -> bool
  {
    (x: Json) => OwnedBy(x, userId)
  }

  // -------------------------------------------------------------- userStorage

  /** `userStorage.get`: the stored user, `null` when none is stored. */
  function UserGet(s: Store): (o: Outcome<Json>)
    ensures UserKey !in s ==> o == Ok(JNull)
    ensures o.Throws? <==> UserKey in s && s[UserKey].Unparsable?
    ensures UserKey in s && s[UserKey].Stored? ==> o == Ok(s[UserKey].value)
  {
    ReadOr(s, UserKey, JNull)
  }

  /** `userStorage.set`. */
  function UserSet(s: Store, user: Json): (r: Store)
    ensures UserGet(r) == Ok(user)
    ensures SameElsewhere(r, s, UserKey)
  {
    s[UserKey := Stored(user)]
  }

  /** `userStorage.clear`. */
  function UserClear(s: Store): (r: Store)
    ensures UserGet(r) == Ok(JNull)
    ensures SameElsewhere(r, s, UserKey)
  {
    s - {UserKey}
  }

  /** `userStorage.update`: `null` and no write when no (truthy) user is stored;
      otherwise `{...user, ...updates}` is stored and returned. */
  function UserUpdate(s: Store, updates: Json): (o: Outcome<(Store, Json)>)
    ensures o.Throws? <==> UserGet(s).Throws?
    ensures o.Ok? && !Truthy(UserGet(s).value) ==> o.value == (s, JNull)
    ensures o.Ok? && Truthy(UserGet(s).value) ==>
      && o.value.1 == Spread(UserGet(s).value, updates)
      && UserGet(o.value.0) == Ok(o.value.1)
      && SameElsewhere(o.value.0, s, UserKey)
  {
    match UserGet(s)
    case Throws => Throws
    case Ok(user) =>
      if !Truthy(user) then Ok((s, JNull))
      else
        var merged := Spread(user, updates);
        Ok((UserSet(s, merged), merged))
  }

  // ------------------------------------------------- list entries with an id

  /** `add` of trips and reminders: `{...item, id: Date.now()}` appended. */
  function AddWithId(s: Store, key: string, item: Json, now: int): (o: Outcome<(Store, Json)>)
    ensures o.Throws? <==> ReadList(s, key).Throws?
    ensures o.Ok? ==>
      && HasId(o.value.1, now)
      && (forall k :: k != "id" ==> Prop(o.value.1, k) == Prop(item, k))
      && ReadList(o.value.0, key) == Ok(ReadList(s, key).value + [o.value.1])
      && SameElsewhere(o.value.0, s, key)
  {
    match ReadList(s, key)
    case Throws => Throws
    case Ok(xs) =>
      var added := Spread(item, JObj(map["id" := JNum(now)]));
      Ok((WriteList(s, key, xs + [added]), added))
  }

  /** `update` of trips and reminders: `null` and no write when no entry has the
      id; otherwise only the first entry with the id becomes
      `{...entry, ...updates}`, which is returned. */
  function UpdateById(s: Store, key: string, id: int, updates: Json): (o: Outcome<(Store, Option<Json>)>)
    ensures o.Throws? <==> ReadList(s, key).Throws?
    ensures o.Ok? ==>
      var xs := ReadList(s, key).value;
      && (o.value.1.None? <==> forall i :: 0 <= i < |xs| ==> !HasId(xs[i], id))
      && (o.value.1.None? ==> o.value.0 == s)
      && (o.value.1.Some? ==>
            && SameElsewhere(o.value.0, s, key)
            && exists i ::
                 && 0 <= i < |xs| && HasId(xs[i], id)
                 && (forall j :: 0 <= j < i ==> !HasId(xs[j], id))
                 && o.value.1 == Some(Spread(xs[i], updates))
                 && ReadList(o.value.0, key) == Ok(xs[i := Spread(xs[i], updates)]))
  {
    match ReadList(s, key)
    case Throws => Throws
    case Ok(xs) =>
      var i := Seqs.FindIndex(xs, WithId(id));
      if i == -1 then Ok((s, None))
      else
        var merged := Spread(xs[i], updates);
        Ok((WriteList(s, key, xs[i := merged]), Some(merged)))
  }

  /** The entries of a stored list that belong to `userId`, in stored order. */
  function OwnedEntries(s: Store, key: string, userId: int): (o: Outcome<seq<Json>>)
    ensures o.Throws? <==> ReadList(s, key).Throws?
    ensures o.Ok? ==> forall i :: 0 <= i < |o.value| ==>
      o.value[i] in ReadList(s, key).value && OwnedBy(o.value[i], userId)
    ensures o.Ok? ==> forall i :: 0 <= i < |ReadList(s, key).value| && OwnedBy(ReadList(s, key).value[i], userId) ==>
      ReadList(s, key).value[i] in o.value
    ensures o.Ok? ==> Seqs.Subseq(o.value, ReadList(s, key).value)
    ensures o.Ok? ==> |o.value| == |Seqs.Positions(ReadList(s, key).value, Owner(userId))|
  {
    match ReadList(s, key)
    case Throws => Throws
    case Ok(xs) =>
      Seqs.FilterSelects(xs, Owner(userId));
      Ok(Seqs.Filter(xs, Owner(userId)))
  }

  // -------------------------------------------------------------- tripStorage

  /** `tripStorage.delete`: false and no write when no trip has the id; otherwise
      every trip with the id is removed and the rest keep their order. The
      filter reads `trip.id` of every entry, so a stored `null` makes it throw. */
  function TripDelete(s: Store, id: int): (o: Outcome<(Store, bool)>)
    ensures o.Throws? <==> ReadList(s, TripsKey).Throws? || JNull in ReadList(s, TripsKey).value
    ensures o.Ok? ==>
      var xs := ReadList(s, TripsKey).value;
      && (o.value.1 <==> exists i :: 0 <= i < |xs| && HasId(xs[i], id))
      && (!o.value.1 ==> o.value.0 == s)
      && (o.value.1 ==>
            && SameElsewhere(o.value.0, s, TripsKey)
            && ReadList(o.value.0, TripsKey).Ok?
            && var ys := ReadList(o.value.0, TripsKey).value;
            && (forall i :: 0 <= i < |ys| ==> !HasId(ys[i], id))
            && (forall i :: 0 <= i < |xs| && !HasId(xs[i], id) ==> xs[i] in ys)
            && Seqs.Subseq(ys, xs)
            && |ys| == |Seqs.Positions(xs, OtherId(id))|)
  {
    match ReadList(s, TripsKey)
    case Throws => Throws
    case Ok(xs) =>
      if JNull in xs then Throws
      else
        var kept := Seqs.Filter(xs, OtherId(id));
        DropId(xs, id);
        if |kept| == |xs| then Ok((s, false))
        else Ok((WriteList(s, TripsKey, kept), true))
  }

  /** The filter `t => t.id !== id`. */
  function OtherId(id: int): Json -> bool
  {
    (x: Json) => !HasId(x, id)
  }

  /** Filtering out the entries with an id keeps every other entry, in order,
      and shortens the list exactly when some entry carries that id. */
  lemma DropId(xs: seq<Json>, id: int)
    ensures var kept := Seqs.Filter(xs, OtherId(id));
      && (|kept| != |xs| <==> exists i :: 0 <= i < |xs| && HasId(xs[i], id))
      && (forall i :: 0 <= i < |kept| ==> !HasId(kept[i], id))
      && (forall i :: 0 <= i < |xs| && !HasId(xs[i], id) ==> xs[i] in kept)
      && Seqs.Subseq(kept, xs)
      && |kept| == |Seqs.Positions(xs, OtherId(id))|
  {
    Seqs.FilterSelects(xs, OtherId(id));
    Seqs.FilterKeepsLength(xs, OtherId(id));
    var kept := Seqs.Filter(xs, OtherId(id));
    forall i | 0 <= i < |kept| ensures !HasId(kept[i], id) {
      assert OtherId(id)(kept[i]);
    }
    forall i | 0 <= i < |xs| && !HasId(xs[i], id) ensures xs[i] in kept {
      assert OtherId(id)(xs[i]);
    }
    if exists i :: 0 <= i < |xs| && HasId(xs[i], id) {
      var i :| 0 <= i < |xs| && HasId(xs[i], id);
      assert !OtherId(id)(xs[i]);
    }
  }

  // ---------------------------------------------------------- progressStorage

  /** `progressStorage.add`: `{...entry, id: Date.now(), date: entry.date || now}`
      appended, where `nowIso` is `new Date().toISOString()`. */
  function ProgressAdd(s: Store, entry: Json, now: int, nowIso: string): (o: Outcome<(Store, Json)>)
    ensures o.Throws? <==> ReadList(s, ProgressKey).Throws?
    ensures o.Ok? ==>
      && HasId(o.value.1, now)
      && Prop(o.value.1, "date") == (if PropTruthy(Prop(entry, "date")) then Prop(entry, "date") else Some(JStr(nowIso)))
      && (forall k :: k != "id" && k != "date" ==> Prop(o.value.1, k) == Prop(entry, k))
      && ReadList(o.value.0, ProgressKey) == Ok(ReadList(s, ProgressKey).value + [o.value.1])
      && SameElsewhere(o.value.0, s, ProgressKey)
  {
    match ReadList(s, ProgressKey)
    case Throws => Throws
    case Ok(xs) =>
      var date := if PropTruthy(Prop(entry, "date")) then Prop(entry, "date").value else JStr(nowIso);
      var added := Spread(entry, JObj(map["id" := JNum(now), "date" := date]));
      Ok((WriteList(s, ProgressKey, xs + [added]), added))
  }

  /** The object `getWeeklyStats` returns. */
  datatype WeeklyStats = WeeklyStats(totalWorkouts: int, totalCalories: int, totalDistance: int, totalDuration: int)

  /** `entries.reduce((sum, e) => sum + (e[field] || 0), 0)`. */
  function SumOf(xs: seq<Json>, field: string): int
    decreases |xs|
  {
    if |xs| == 0 then 0 else SumOf(xs[..|xs| - 1], field) + NumOrZero(Prop(xs[|xs| - 1], field))
  }

  /** `new Date(entry.date) >= oneWeekAgo`, where `parseDate` stands for
      `new Date(...)` and `None` for an invalid date, which compares false;
      `new Date(undefined)` is invalid. */
  predicate InWeek(e: Json, since: int, parseDate: Json -> Option<int>)
  {
    match Prop(e, "date")
    case None => false
    case Some(d) => parseDate(d).Some? && parseDate(d).value >= since
  }

  /** The filter `entry => new Date(entry.date) >= since`. */
  function InWeekOf(since: int, parseDate: Json -> Option<int>): Json -> bool
  {
    (e: Json) => InWeek(e, since, parseDate)
  }

  /** `progressStorage.getWeeklyStats`: the user's entries dated on or after
      seven days before `now`, counted and summed. */
  function WeeklyStatsOf(s: Store, userId: int, now: int, parseDate: Json -> Option<int>): (o: Outcome<WeeklyStats>)
    ensures o.Throws? <==> ReadList(s, ProgressKey).Throws?
    ensures o.Ok? ==> 0 <= o.value.totalWorkouts <= |ReadList(s, ProgressKey).value|
  {
    match OwnedEntries(s, ProgressKey, userId)
    case Throws => Throws
    case Ok(mine) =>
      var week := Seqs.Filter(mine, InWeekOf(now - 7 * JsMath.DayMs, parseDate));
      Ok(WeeklyStats(|week|, SumOf(week, "calories"), SumOf(week, "distance"), SumOf(week, "duration")))
  }

  // ---------------------------------------------------------- reminderStorage

  /** `reminderStorage.markCompleted`: true exactly when some reminder has the
      id, and then the first such reminder is stored with `isCompleted: true`. */
  function MarkCompleted(s: Store, id: int): (o: Outcome<(Store, bool)>)
    ensures o.Throws? <==> ReadList(s, RemindersKey).Throws?
    ensures o.Ok? ==>
      var xs := ReadList(s, RemindersKey).value;
      && (o.value.1 <==> exists i :: 0 <= i < |xs| && HasId(xs[i], id))
      && (!o.value.1 ==> o.value.0 == s)
      && (o.value.1 ==>
            && ReadList(o.value.0, RemindersKey).Ok?
            && var ys := ReadList(o.value.0, RemindersKey).value;
            exists i ::
              && 0 <= i < |xs| == |ys| && HasId(xs[i], id) && HasId(ys[i], id)
              && (forall j :: 0 <= j < i ==> !HasId(xs[j], id))
              && Prop(ys[i], "isCompleted") == Some(JBool(true))
              && (forall j :: 0 <= j < |xs| && j != i ==> ys[j] == xs[j]))
  {
    var done := JObj(map["isCompleted" := JBool(true)]);
    match UpdateById(s, RemindersKey, id, done)
    case Throws => Throws
    case Ok((s', found)) => Ok((s', found.Some?))
  }

  /** `new Date(r.dueDate!)` for a reminder whose `dueDate` is truthy; `None`
      when it is missing, falsy or not a valid date. */
  function DueTime(r: Json, parseDate: Json -> Option<int>): Option<int>
  {
    match Prop(r, "dueDate")
    case None => None
    case Some(d) => if Truthy(d) then parseDate(d) else None
  }

  /** The sort key of `getUpcoming`. */
  function DueKey(parseDate: Json -> Option<int>): Json -> int
  {
    (r: Json) => DueTime(r, parseDate).GetOr(0)
  }

  /** A reminder `getUpcoming` lists: not completed, due strictly after `now`. */
  predicate Upcoming(r: Json, now: int, parseDate: Json -> Option<int>)
  {
    !PropTruthy(Prop(r, "isCompleted")) && DueTime(r, parseDate).Some? && DueTime(r, parseDate).value > now
  }

  /** The reminders `getUpcoming` lists for `userId`, as one filter. */
  function UpcomingFor(userId: int, now: int, parseDate: Json -> Option<int>): Json -> bool
  {
    (r: Json) => OwnedBy(r, userId) && Upcoming(r, now, parseDate)
  }

  /** The first filter of `getUpcoming`: `!r.isCompleted && r.dueDate`. */
  function Pending(): Json -> bool
  {
    (r: Json) => !PropTruthy(Prop(r, "isCompleted")) && PropTruthy(Prop(r, "dueDate"))
  }

  /** The second filter of `getUpcoming`: `new Date(r.dueDate!) > now`. */
  function DueAfter(now: int, parseDate: Json -> Option<int>): Json -> bool
  {
    (r: Json) => DueTime(r, parseDate).Some? && DueTime(r, parseDate).value > now
  }

  /** `reminderStorage.getUpcoming`: exactly the user's upcoming reminders,
      ordered by due time, ties in stored order. */
  function GetUpcoming(s: Store, userId: int, now: int, parseDate: Json -> Option<int>): (o: Outcome<seq<Json>>)
    ensures o.Throws? <==> ReadList(s, RemindersKey).Throws?
    ensures o.Ok? ==>
      multiset(o.value) == multiset(Seqs.Filter(ReadList(s, RemindersKey).value, UpcomingFor(userId, now, parseDate)))
    ensures o.Ok? ==> Seqs.SortedBy(o.value, DueKey(parseDate))
  {
    match OwnedEntries(s, RemindersKey, userId)
    case Throws => Throws
    case Ok(mine) =>
      var pending := Seqs.Filter(mine, Pending());
      var future := Seqs.Filter(pending, DueAfter(now, parseDate));
      UpcomingIsOneFilter(ReadList(s, RemindersKey).value, userId, now, parseDate);
      Ok(Seqs.SortBy(future, DueKey(parseDate)))
  }

  /** The three filters of `getUpcoming` keep what `UpcomingFor` keeps. */
  lemma UpcomingIsOneFilter(xs: seq<Json>, userId: int, now: int, parseDate: Json -> Option<int>)
    ensures Seqs.Filter(Seqs.Filter(Seqs.Filter(xs, Owner(userId)), Pending()), DueAfter(now, parseDate)) ==
            Seqs.Filter(xs, UpcomingFor(userId, now, parseDate))
  {
    var both := (r: Json) => OwnedBy(r, userId) && Pending()(r);
    Seqs.FilterFilterWith(xs, Owner(userId), Pending(), both);
    forall i | 0 <= i < |xs|
      ensures UpcomingFor(userId, now, parseDate)(xs[i]) == (both(xs[i]) && DueAfter(now, parseDate)(xs[i]))
    {
      var r := xs[i];
      if DueTime(r, parseDate).Some? {
        assert PropTruthy(Prop(r, "dueDate"));
      }
    }
    Seqs.FilterFilterWith(xs, both, DueAfter(now, parseDate), UpcomingFor(userId, now, parseDate));
  }

  // ------------------------------------------------------- preferencesStorage

  /** The preferences `preferencesStorage.get` answers when none are stored. */
  const DefaultPreferences: Json :=
    JObj(map["theme" := JStr("light"), "notifications" := JBool(true), "units" := JStr("metric"), "language" := JStr("en")])

  /** `preferencesStorage.get`. */
  function PreferencesGet(s: Store): (o: Outcome<Json>)
    ensures PreferencesKey !in s ==> o == Ok(DefaultPreferences)
    ensures o.Throws? <==> PreferencesKey in s && s[PreferencesKey].Unparsable?
    ensures PreferencesKey in s && s[PreferencesKey].Stored? ==> o == Ok(s[PreferencesKey].value)
  {
    ReadOr(s, PreferencesKey, DefaultPreferences)
  }

  /** `preferencesStorage.set`. */
  function PreferencesSet(s: Store, prefs: Json): (r: Store)
    ensures PreferencesGet(r) == Ok(prefs)
    ensures SameElsewhere(r, s, PreferencesKey)
  {
    s[PreferencesKey := Stored(prefs)]
  }

  /** `preferencesStorage.update`: `{...current, ...updates}` stored and returned. */
  function PreferencesUpdate(s: Store, updates: Json): (o: Outcome<(Store, Json)>)
    ensures o.Throws? <==> PreferencesGet(s).Throws?
    ensures o.Ok? ==>
      && o.value.1 == Spread(PreferencesGet(s).value, updates)
      && PreferencesGet(o.value.0) == Ok(o.value.1)
      && SameElsewhere(o.value.0, s, PreferencesKey)
  {
    match PreferencesGet(s)
    case Throws => Throws
    case Ok(current) =>
      var merged := Spread(current, updates);
      Ok((PreferencesSet(s, merged), merged))
  }

  // ----------------------------------------------------- searchHistoryStorage

  /** `searchHistoryStorage.add`: the query becomes the most recent search. */
  function SearchHistoryAdd(s: Store, q: string): (o: Outcome<Store>)
    ensures o.Throws? <==> ReadList(s, SearchHistoryKey).Throws?
    ensures o.Ok? ==>
      && ReadList(o.value, SearchHistoryKey).Ok?
      && var h := ReadList(o.value, SearchHistoryKey).value;
      && 1 <= |h| <= RecentSearches.Limit && h[0] == JStr(q)
      && (forall i :: 1 <= i < |h| ==> h[i] != JStr(q))
      && Seqs.Subseq(h[1..], ReadList(s, SearchHistoryKey).value)
      && var others := Seqs.Filter(ReadList(s, SearchHistoryKey).value, RecentSearches.Other(JStr(q)));
      && h[1..] <= others
      && |h| == (if |others| < RecentSearches.Limit then 1 + |others| else RecentSearches.Limit)
      && SameElsewhere(o.value, s, SearchHistoryKey)
  {
    match ReadList(s, SearchHistoryKey)
    case Throws => Throws
    case Ok(h) => Ok(WriteList(s, SearchHistoryKey, RecentSearches.AddRecent(h, JStr(q))))
  }

  /** `searchHistoryStorage.clear`. */
  function SearchHistoryClear(s: Store): (r: Store)
    ensures ReadList(r, SearchHistoryKey) == Ok([])
    ensures SameElsewhere(r, s, SearchHistoryKey)
  {
    s - {SearchHistoryKey}
  }

  /** `clearAllData`: removes the six keys above and nothing else. */
  function ClearAllData(s: Store): (r: Store)
    ensures forall k :: k in AllKeys ==> k !in r
    ensures forall k :: k !in AllKeys ==> (k in r <==> k in s)
    ensures forall k :: k in r ==> r[k] == s[k]
  {
    s - AllKeys
  }
}

=== FILE: mem_storage.dfy ===
/** The server's in-memory repository (`MemStorage`): one table and one counter
    per entity type, seeded with three events, three accommodations and three
    training facilities. Every operation is a pure transition over `Repo`; the
    wall clock of `new Date()` is the parameter `now`. */
module MemStorage {
  import opened Wrappers
  import opened JsonValues
  import opened Schema
  import opened Text
  import Seqs
  import Tables

  datatype Repo = Repo(
    users: Tables.Table<User>,
    events: Tables.Table<Event>,
    accommodations: Tables.Table<Accommodation>,
    facilities: Tables.Table<TrainingFacility>,
    trips: Tables.Table<Trip>,
    progress: Tables.Table<Progress>,
    reminders: Tables.Table<Reminder>)

  /** Every table satisfies the table invariant. */
  ghost predicate Valid(r: Repo)
  {
    && Tables.Valid(r.users)
    && Tables.Valid(r.events)
    && Tables.Valid(r.accommodations)
    && Tables.Valid(r.facilities)
    && Tables.Valid(r.trips)
    && Tables.Valid(r.progress)
    && Tables.Valid(r.reminders)
  }

  // ---------------------------------------------------------------- seed data

  const BostonMarathon: Event :=
    Event(1, "Boston Marathon",
      Some("Join thousands of runners in this iconic 26.2-mile race through Boston's historic neighborhoods."),
      "Running", "Boston, MA", 1710460800000, Some(250), Some("Advanced"), Some(1707955200000),
      Some("https://images.unsplash.com/photo-1544717297-fa95b6ee9643"),
      Some("Boston Athletic Association"), Some(30000), Some(28500))

  const AlpsChallenge: Event :=
    Event(2, "Alps Challenge",
      Some("Conquer the challenging mountain passes of the French Alps in this multi-stage cycling event."),
      "Cycling", "French Alps", 1713744000000, Some(450), Some("Expert"), Some(1711065600000),
      Some("https://images.unsplash.com/photo-1558618666-fcd25c85cd64"),
      Some("Alpine Sports Federation"), Some(500), Some(320))

  const OpenWaterChampionship: Event :=
    Event(3, "Open Water Championship",
      Some("Test your endurance in crystal clear waters with distances from 1K to 10K available."),
      "Swimming", "Lake Tahoe, CA", 1715126400000, Some(180), Some("Intermediate"), Some(1712534400000),
      Some("https://images.unsplash.com/photo-1571019613454-1cb2f99b2d8b"),
      Some("Open Water Swimming Association"), Some(1000), Some(750))

  const SampleEvents: seq<Event> := [BostonMarathon, AlpsChallenge, OpenWaterChampionship]

  function Strings(xs: seq<string>): Json
  {
    JArr(seq(|xs|, i requires 0 <= i < |xs| => JStr(xs[i])))
  }

  function Hours(weekdays: string, weekend: string): Json
  {
    JObj(map["mon-fri" := JStr(weekdays), "sat-sun" := JStr(weekend)])
  }

  const AthleticDowntown: Accommodation :=
    Accommodation(1, "The Athletic Downtown", "Boston, MA", 189, Some(48),
      Some(Strings(["Gym", "Pool", "Nutrition Center", "Recovery Room"])),
      Some("https://images.unsplash.com/photo-1566073771259-6a8506099945"),
      Some("Modern hotel with state-of-the-art athletic facilities"), Some(true),
      Some(Strings(["Elite Performance Center", "Boston Athletic Track"])))

  const RecoveryResort: Accommodation :=
    Accommodation(2, "Recovery Resort & Spa", "Scottsdale, AZ", 299, Some(49),
      Some(Strings(["Spa", "Track", "Nutrition", "Recovery Center"])),
      Some("https://images.unsplash.com/photo-1571896349842-33c89424de2d"),
      Some("Luxury resort focused on athletic recovery and performance"), Some(true),
      Some(Strings(["Desert Training Center", "Mountain Trails"])))

  const FitStayBudgetInn: Accommodation :=
    Accommodation(3, "FitStay Budget Inn", "Austin, TX", 89, Some(42),
      Some(Strings(["Gym", "Bike Storage", "WiFi"])),
      Some("https://images.unsplash.com/photo-1551882547-ff40c63fe5fa"),
      Some("Budget-friendly accommodation with essential athletic amenities"), Some(true),
      Some(Strings(["City Bike Trails", "Public Pool"])))

  const SampleAccommodations: seq<Accommodation> := [AthleticDowntown, RecoveryResort, FitStayBudgetInn]

  const ElitePerformanceCenter: TrainingFacility :=
    TrainingFacility(1, "Elite Performance Center", "Boston, MA", "Full Gym", Some(25),
      Some(Strings(["Pool", "Track", "Weights", "Cardio"])), Some(Hours("5:00-23:00", "6:00-22:00")),
      Some(49), Some("0.3 miles"), Some("open"))

  const CrossFitDowntown: TrainingFacility :=
    TrainingFacility(2, "CrossFit Downtown", "Boston, MA", "CrossFit", Some(30),
      Some(Strings(["CrossFit Equipment", "Classes", "Personal Training"])), Some(Hours("6:00-22:00", "8:00-20:00")),
      Some(46), Some("0.7 miles"), Some("busy"))

  const AquaticCenter: TrainingFacility :=
    TrainingFacility(3, "Aquatic Center", "Boston, MA", "Swimming", Some(15),
      Some(Strings(["Olympic Pool", "Diving", "Swimming Lessons"])), Some(Hours("5:30-22:00", "7:00-20:00")),
      Some(47), Some("1.2 miles"), Some("open"))

  const SampleFacilities: seq<TrainingFacility> := [ElitePerformanceCenter, CrossFitDowntown, AquaticCenter]

  /** `new MemStorage()`: all counters start at 1, then the sample rows are
      created in order, so events, accommodations and facilities hold their
      sample rows under ids 1, 2, 3 (listed in that order) with the counter just
      after the last; every other table is empty with its counter at 1. */
  function Initial(): (r: Repo)
    ensures Valid(r)
    ensures r.users == Tables.Empty() && r.trips == Tables.Empty() && r.progress == Tables.Empty()
    ensures r.reminders == Tables.Empty()
    ensures Tables.Seeded(r.events, SampleEvents)
    ensures Tables.Seeded(r.accommodations, SampleAccommodations)
    ensures Tables.Seeded(r.facilities, SampleFacilities)
  {
    Seed(SampleEvents, SampleAccommodations, SampleFacilities)
  }

  /** A repository whose events, accommodations and facilities are created from
      the given rows in order and whose other tables are empty. */
  function Seed(es: seq<Event>, acs: seq<Accommodation>, fs: seq<TrainingFacility>): (r: Repo)
    ensures Valid(r)
    ensures r.users == Tables.Empty() && r.trips == Tables.Empty() && r.progress == Tables.Empty()
    ensures r.reminders == Tables.Empty()
    ensures Tables.Seeded(r.events, es) && Tables.Seeded(r.accommodations, acs) && Tables.Seeded(r.facilities, fs)
  {
    Repo(Tables.Empty(), Tables.FromSeq(es), Tables.FromSeq(acs), Tables.FromSeq(fs), Tables.Empty(), Tables.Empty(), Tables.Empty())
  }

  // --------------------------------------------------------------------- users

  /** `getUser`: the row stored under `id`, or undefined. */
  function GetUser(r: Repo, id: int): (u: Option<User>)
    ensures u.Some? <==> id in r.users.rows
    ensures u.Some? ==> u.value == r.users.rows[id]
  {
    Tables.Get(r.users, id)
  }

  /** `Array.from(users.values()).find(u => u.email === email)`: the first user,
      in creation order, whose email is exactly `email`. */
  function GetUserByEmail(r: Repo, email: string): (u: Option<User>)
    ensures u.None? <==> forall i :: 0 <= i < |Tables.Values(r.users)| ==> Tables.Values(r.users)[i].email != email
    ensures u.Some? ==> u.value.email == email
    ensures u.Some? ==>
      exists i :: 0 <= i < |Tables.Values(r.users)| && Tables.Values(r.users)[i] == u.value &&
        forall j :: 0 <= j < i ==> Tables.Values(r.users)[j].email != email
  {
    var all := Tables.Values(r.users);
    var i := Seqs.FindIndex(all, EmailIs(email));
    if i == -1 then None else Some(all[i])
  }

  /** The search predicate `u => u.email === email`. */
  function EmailIs(email: string): User -> bool
  {
    (u: User) => u.email == email
  }

  /** `createUser`: the next id and `createdAt := now`; a falsy `sport`, `level`,
      `goals` or `preferences` is stored as null. No uniqueness check on `email`. */
  function CreateUser(r: Repo, ins: InsertUser, now: int): (res: (Repo, User))
    ensures res.0 == r.(users := res.0.users)
    ensures res.1.id == r.users.next && res.0.users.next == r.users.next + 1
    ensures Tables.Get(res.0.users, res.1.id) == Some(res.1)
    ensures forall k :: k != res.1.id ==> Tables.Get(res.0.users, k) == Tables.Get(r.users, k)
    ensures Valid(r) ==> Valid(res.0) && res.1.id !in r.users.rows
    ensures Valid(r) ==> Tables.Values(res.0.users) == Tables.Values(r.users) + [res.1]
    ensures res.1.email == ins.email && res.1.password == ins.password
    ensures res.1.firstName == ins.firstName && res.1.lastName == ins.lastName
    ensures res.1.sport == OrNull(ins.sport, StrTruthy) && res.1.level == OrNull(ins.level, StrTruthy)
    ensures res.1.goals == OrNull(ins.goals, Truthy) && res.1.preferences == OrNull(ins.preferences, Truthy)
    ensures res.1.createdAt == Some(now) && res.1.extra == map[]
  {
    var u := User(r.users.next, ins.email, ins.password, ins.firstName, ins.lastName,
      OrNull(ins.sport, StrTruthy), OrNull(ins.level, StrTruthy),
      OrNull(ins.goals, Truthy), OrNull(ins.preferences, Truthy), Some(now), map[]);
    (r.(users := Tables.Add(r.users, u)), u)
  }

  /** One column after `{...row, ...updates}`: the body's value when it
      carries the key, the stored value otherwise. */
  ghost predicate Merged<T>(f: Field<T>, stored: T, merged: T)
  {
    if f.Put? then merged == f.value else merged == stored
  }

  /** The keys outside the columns after `{...row, ...updates}`: those of the
      row, overlaid with those of the body, the body's values winning. */
  ghost predicate ExtraOverlaid(stored: map<string, Json>, body: map<string, Json>, columns: set<string>,
                          merged: map<string, Json>)
  {
    && merged.Keys == stored.Keys + (body.Keys - columns)
    && (forall k :: k in body && k !in columns ==> merged[k] == body[k])
    && (forall k :: k in stored && (k !in body || k in columns) ==> merged[k] == stored[k])
  }

  /** `{...user, ...updates}`: keys the body carries overwrite, the others keep
      their stored values. Keys outside the columns are merged into `extra`. */
  function MergeUser(u: User, p: UserPatch): (m: User)
    ensures Merged(p.id, u.id, m.id) && Merged(p.email, u.email, m.email)
    ensures Merged(p.password, u.password, m.password)
    ensures Merged(p.firstName, u.firstName, m.firstName) && Merged(p.lastName, u.lastName, m.lastName)
    ensures Merged(p.sport, u.sport, m.sport) && Merged(p.level, u.level, m.level)
    ensures Merged(p.goals, u.goals, m.goals) && Merged(p.preferences, u.preferences, m.preferences)
    ensures Merged(p.createdAt, u.createdAt, m.createdAt)
    ensures ExtraOverlaid(u.extra, p.extra, UserColumns, m.extra)
  {
    User(p.id.Over(u.id), p.email.Over(u.email), p.password.Over(u.password),
      p.firstName.Over(u.firstName), p.lastName.Over(u.lastName), p.sport.Over(u.sport),
      p.level.Over(u.level), p.goals.Over(u.goals), p.preferences.Over(u.preferences),
      p.createdAt.Over(u.createdAt), u.extra + (p.extra - UserColumns))
  }

  /** `updateUser`: absent id => undefined and no change; otherwise the merged row
      is stored under the same key and returned. */
  function UpdateUser(r: Repo, id: int, p: UserPatch): (res: (Repo, Option<User>))
    ensures res.0 == r.(users := res.0.users)
    ensures res.1.None? <==> id !in r.users.rows
    ensures res.1.None? ==> res.0 == r
    ensures res.1.Some? ==> res.1.value == MergeUser(r.users.rows[id], p)
    ensures res.1.Some? ==> Tables.Get(res.0.users, id) == res.1
    ensures forall k :: k != id ==> Tables.Get(res.0.users, k) == Tables.Get(r.users, k)
    ensures res.0.users.rows.Keys == r.users.rows.Keys && res.0.users.next == r.users.next
    ensures Valid(r) ==> Valid(res.0)
  {
    var (t, u) := Tables.Update(r.users, id, (x: User) => MergeUser(x, p));
    (r.(users := t), u)
  }

  // -------------------------------------------------------------------- events

  /** `getEvents`: every stored event, in ascending id order. */
  function GetEvents(r: Repo): (es: seq<Event>)
    ensures |es| == |Tables.Keys(r.events)|
    ensures forall i :: 0 <= i < |es| ==> es[i] == r.events.rows[Tables.Keys(r.events)[i]]
    ensures Tables.Valid(r.events) ==> forall id :: id in r.events.rows ==> r.events.rows[id] in es
  {
    Tables.Values(r.events)
  }

  /** `getEvent`: the row stored under `id`, or undefined. */
  function GetEvent(r: Repo, id: int): (e: Option<Event>)
    ensures e.Some? <==> id in r.events.rows
    ensures e.Some? ==> e.value == r.events.rows[id]
  {
    Tables.Get(r.events, id)
  }

  /** The query of `searchEvents`; every key is optional. */
  datatype EventFilters = EventFilters(
    sport: Option<string>,
    location: Option<string>,
    date: Option<string>,
    difficulty: Option<string>)

  /** `location.toLowerCase().includes(query.toLowerCase())`. */
  predicate LocationMatches(location: string, query: string)
  {
    Contains(ToLower(location), ToLower(query))
  }

  /** A filter key is active when it is a non-empty string other than its
      catch-all value. */
  predicate Active(f: Option<string>, catchAll: string)
  {
    f.Some? && f.value != "" && f.value != catchAll
  }

  /** The predicate of `searchEvents`: sport and difficulty must equal an
      active filter, location must contain a non-empty filter ignoring case.
      `date` is accepted and ignored. */
  predicate EventMatches(e: Event, f: EventFilters)
  {
    && (Active(f.sport, "All Sports") ==> e.sport == f.sport.value)
    && (f.location.Some? && f.location.value != "" ==> LocationMatches(e.location, f.location.value))
    && (Active(f.difficulty, "Any Level") ==> e.difficulty == Some(f.difficulty.value))
  }

  /** The filter of `searchEvents`. */
  function Matching(f: EventFilters): Event -> bool
  {
    (e: Event) => EventMatches(e, f)
  }

  /** `searchEvents`: exactly the events that pass every active filter, in
      creation order. */
  function SearchEvents(r: Repo, f: EventFilters): (es: seq<Event>)
    ensures forall i :: 0 <= i < |es| ==> es[i] in GetEvents(r) && EventMatches(es[i], f)
    ensures forall e :: e in GetEvents(r) && EventMatches(e, f) ==> e in es
    ensures Seqs.Subseq(es, GetEvents(r)) && |es| == |Seqs.Positions(GetEvents(r), Matching(f))|
  {
    Seqs.FilterSelects(GetEvents(r), Matching(f));
    Seqs.Filter(GetEvents(r), Matching(f))
  }

  /** `createEvent`: the next id; falsy optionals stored as null. */
  function CreateEvent(r: Repo, ins: InsertEvent): (res: (Repo, Event))
    ensures res.0 == r.(events := res.0.events)
    ensures res.1.id == r.events.next && res.0.events.next == r.events.next + 1
    ensures Tables.Get(res.0.events, res.1.id) == Some(res.1)
    ensures forall k :: k != res.1.id ==> Tables.Get(res.0.events, k) == Tables.Get(r.events, k)
    ensures Valid(r) ==> Valid(res.0) && res.1.id !in r.events.rows
    ensures Valid(r) ==> GetEvents(res.0) == GetEvents(r) + [res.1]
    ensures res.1.title == ins.title && res.1.sport == ins.sport
    ensures res.1.location == ins.location && res.1.date == ins.date
    ensures res.1.registrationDeadline == ins.registrationDeadline
    ensures res.1.description == OrNull(ins.description, StrTruthy)
    ensures res.1.price == OrNull(ins.price, IntTruthy)
    ensures res.1.difficulty == OrNull(ins.difficulty, StrTruthy)
    ensures res.1.imageUrl == OrNull(ins.imageUrl, StrTruthy)
    ensures res.1.organizer == OrNull(ins.organizer, StrTruthy)
    ensures res.1.capacity == OrNull(ins.capacity, IntTruthy)
    ensures res.1.registered == OrNull(ins.registered, IntTruthy)
  {
    // A Date object is always truthy, so `registrationDeadline || null` keeps it.
    var e := Event(r.events.next, ins.title, OrNull(ins.description, StrTruthy), ins.sport, ins.location,
      ins.date, OrNull(ins.price, IntTruthy), OrNull(ins.difficulty, StrTruthy), ins.registrationDeadline,
      OrNull(ins.imageUrl, StrTruthy), OrNull(ins.organizer, StrTruthy), OrNull(ins.capacity, IntTruthy),
      OrNull(ins.registered, IntTruthy));
    (r.(events := Tables.Add(r.events, e)), e)
  }

  // ------------------------------------------------------------ accommodations

  /** `getAccommodations`: every stored accommodation, in ascending id order. */
  function GetAccommodations(r: Repo): (xs: seq<Accommodation>)
    ensures |xs| == |Tables.Keys(r.accommodations)|
    ensures forall i :: 0 <= i < |xs| ==> xs[i] == r.accommodations.rows[Tables.Keys(r.accommodations)[i]]
    ensures Tables.Valid(r.accommodations) ==>
      forall id :: id in r.accommodations.rows ==> r.accommodations.rows[id] in xs
  {
    Tables.Values(r.accommodations)
  }

  /** `getAccommodation`: the row stored under `id`, or undefined. */
  function GetAccommodation(r: Repo, id: int): (a: Option<Accommodation>)
    ensures a.Some? <==> id in r.accommodations.rows
    ensures a.Some? ==> a.value == r.accommodations.rows[id]
  {
    Tables.Get(r.accommodations, id)
  }

  /** The filter of `searchAccommodations`. */
  function AccommodationIn(location: string): Accommodation -> bool
  {
    (a: Accommodation) => LocationMatches(a.location, location)
  }

  /** `searchAccommodations`: the accommodations whose location contains the
      query, ignoring case, in creation order. */
  function SearchAccommodations(r: Repo, location: string): (xs: seq<Accommodation>)
    ensures forall i :: 0 <= i < |xs| ==> xs[i] in GetAccommodations(r) && LocationMatches(xs[i].location, location)
    ensures forall a :: a in GetAccommodations(r) && LocationMatches(a.location, location) ==> a in xs
    ensures Seqs.Subseq(xs, GetAccommodations(r)) && |xs| == |Seqs.Positions(GetAccommodations(r), AccommodationIn(location))|
  {
    Seqs.FilterSelects(GetAccommodations(r), AccommodationIn(location));
    Seqs.Filter(GetAccommodations(r), AccommodationIn(location))
  }

  /** `createAccommodation`: the next id; falsy optionals stored as null, so a
      `false` `isAthleteFriendly` becomes null. */
  function CreateAccommodation(r: Repo, ins: InsertAccommodation): (res: (Repo, Accommodation))
    ensures res.0 == r.(accommodations := res.0.accommodations)
    ensures res.1.id == r.accommodations.next && res.0.accommodations.next == r.accommodations.next + 1
    ensures Tables.Get(res.0.accommodations, res.1.id) == Some(res.1)
    ensures forall k :: k != res.1.id ==> Tables.Get(res.0.accommodations, k) == Tables.Get(r.accommodations, k)
    ensures Valid(r) ==> Valid(res.0) && res.1.id !in r.accommodations.rows
    ensures res.1.name == ins.name && res.1.location == ins.location && res.1.price == ins.price
    ensures res.1.amenities == ins.amenities && res.1.nearbyFacilities == ins.nearbyFacilities
    ensures res.1.description == OrNull(ins.description, StrTruthy)
    ensures res.1.imageUrl == OrNull(ins.imageUrl, StrTruthy)
    ensures res.1.rating == OrNull(ins.rating, IntTruthy)
    ensures res.1.isAthleteFriendly == OrNull(ins.isAthleteFriendly, BoolTruthy)
  {
    var a := Accommodation(r.accommodations.next, ins.name, ins.location, ins.price,
      OrNull(ins.rating, IntTruthy), ins.amenities, OrNull(ins.imageUrl, StrTruthy),
      OrNull(ins.description, StrTruthy), OrNull(ins.isAthleteFriendly, BoolTruthy), ins.nearbyFacilities);
    (r.(accommodations := Tables.Add(r.accommodations, a)), a)
  }

  // -------------------------------------------------------- training facilities

  /** `getTrainingFacilities`: every stored facility, in ascending id order. */
  function GetTrainingFacilities(r: Repo): (xs: seq<TrainingFacility>)
    ensures |xs| == |Tables.Keys(r.facilities)|
    ensures forall i :: 0 <= i < |xs| ==> xs[i] == r.facilities.rows[Tables.Keys(r.facilities)[i]]
    ensures Tables.Valid(r.facilities) ==> forall id :: id in r.facilities.rows ==> r.facilities.rows[id] in xs
  {
    Tables.Values(r.facilities)
  }

  /** `getTrainingFacility`: the row stored under `id`, or undefined. */
  function GetTrainingFacility(r: Repo, id: int): (f: Option<TrainingFacility>)
    ensures f.Some? <==> id in r.facilities.rows
    ensures f.Some? ==> f.value == r.facilities.rows[id]
  {
    Tables.Get(r.facilities, id)
  }

  /** The filter of `searchTrainingFacilities`. */
  function FacilityIn(location: string): TrainingFacility -> bool
  {
    (a: TrainingFacility) => LocationMatches(a.location, location)
  }

  /** `searchTrainingFacilities`: the facilities whose location contains the
      query, ignoring case, in creation order. */
  function SearchTrainingFacilities(r: Repo, location: string): (xs: seq<TrainingFacility>)
    ensures forall i :: 0 <= i < |xs| ==> xs[i] in GetTrainingFacilities(r) && LocationMatches(xs[i].location, location)
    ensures forall a :: a in GetTrainingFacilities(r) && LocationMatches(a.location, location) ==> a in xs
    ensures Seqs.Subseq(xs, GetTrainingFacilities(r)) && |xs| == |Seqs.Positions(GetTrainingFacilities(r), FacilityIn(location))|
  {
    Seqs.FilterSelects(GetTrainingFacilities(r), FacilityIn(location));
    Seqs.Filter(GetTrainingFacilities(r), FacilityIn(location))
  }

  /** `createTrainingFacility`: the next id; a falsy `status`, `price`, `rating`
      or `distance` is stored as null (the declared "open" is not applied). */
  function CreateTrainingFacility(r: Repo, ins: InsertTrainingFacility): (res: (Repo, TrainingFacility))
    ensures res.0 == r.(facilities := res.0.facilities)
    ensures res.1.id == r.facilities.next && res.0.facilities.next == r.facilities.next + 1
    ensures Tables.Get(res.0.facilities, res.1.id) == Some(res.1)
    ensures forall k :: k != res.1.id ==> Tables.Get(res.0.facilities, k) == Tables.Get(r.facilities, k)
    ensures Valid(r) ==> Valid(res.0) && res.1.id !in r.facilities.rows
    ensures res.1.name == ins.name && res.1.location == ins.location && res.1.kind == ins.kind
    ensures res.1.amenities == ins.amenities && res.1.hours == ins.hours
    ensures res.1.status == OrNull(ins.status, StrTruthy)
    ensures res.1.price == OrNull(ins.price, IntTruthy)
    ensures res.1.rating == OrNull(ins.rating, IntTruthy)
    ensures res.1.distance == OrNull(ins.distance, StrTruthy)
  {
    var f := TrainingFacility(r.facilities.next, ins.name, ins.location, ins.kind,
      OrNull(ins.price, IntTruthy), ins.amenities, ins.hours, OrNull(ins.rating, IntTruthy),
      OrNull(ins.distance, StrTruthy), OrNull(ins.status, StrTruthy));
    (r.(facilities := Tables.Add(r.facilities, f)), f)
  }

  // --------------------------------------------------------------------- trips

  /** The filter `t => t.userId === userId`. */
  function TripOf(userId: int): Trip -> bool
  {
    (t: Trip) => t.userId == userId
  }

  /** `getUserTrips`: exactly the trips with that `userId`, in creation order. */
  function GetUserTrips(r: Repo, userId: int): (ts: seq<Trip>)
    ensures forall i :: 0 <= i < |ts| ==> ts[i] in Tables.Values(r.trips) && ts[i].userId == userId
    ensures forall t :: t in Tables.Values(r.trips) && t.userId == userId ==> t in ts
    ensures Seqs.Subseq(ts, Tables.Values(r.trips)) && |ts| == |Seqs.Positions(Tables.Values(r.trips), TripOf(userId))|
  {
    Seqs.FilterSelects(Tables.Values(r.trips), TripOf(userId));
    Seqs.Filter(Tables.Values(r.trips), TripOf(userId))
  }

  /** `getTrip`: the row stored under `id`, or undefined. */
  function GetTrip(r: Repo, id: int): (t: Option<Trip>)
    ensures t.Some? <==> id in r.trips.rows
    ensures t.Some? ==> t.value == r.trips.rows[id]
  {
    Tables.Get(r.trips, id)
  }

  /** `createTrip`: the next id; a falsy `accommodationId`, `status`,
      `itinerary` or `notes` is stored as null (the declared "planning" is not
      applied). */
  function CreateTrip(r: Repo, ins: InsertTrip): (res: (Repo, Trip))
    ensures res.0 == r.(trips := res.0.trips)
    ensures res.1.id == r.trips.next && res.0.trips.next == r.trips.next + 1
    ensures Tables.Get(res.0.trips, res.1.id) == Some(res.1)
    ensures forall k :: k != res.1.id ==> Tables.Get(res.0.trips, k) == Tables.Get(r.trips, k)
    ensures Valid(r) ==> Valid(res.0) && res.1.id !in r.trips.rows
    ensures Valid(r) ==> Tables.Values(res.0.trips) == Tables.Values(r.trips) + [res.1]
    ensures res.1.userId == ins.userId && res.1.eventId == ins.eventId
    ensures res.1.startDate == ins.startDate && res.1.endDate == ins.endDate && res.1.extra == map[]
    ensures res.1.accommodationId == OrNull(ins.accommodationId, IntTruthy)
    ensures res.1.status == OrNull(ins.status, StrTruthy)
    ensures res.1.itinerary == OrNull(ins.itinerary, Truthy)
    ensures res.1.notes == OrNull(ins.notes, StrTruthy)
  {
    var t := Trip(r.trips.next, ins.userId, ins.eventId, OrNull(ins.accommodationId, IntTruthy),
      ins.startDate, ins.endDate, OrNull(ins.status, StrTruthy), OrNull(ins.itinerary, Truthy),
      OrNull(ins.notes, StrTruthy), map[]);
    (r.(trips := Tables.Add(r.trips, t)), t)
  }

  /** The update `updateTrip` applies to the stored row. */
  function TripMerge(p: TripPatch): Trip -> Trip
  {
    (t: Trip) => MergeTrip(t, p)
  }

  /** `{...trip, ...updates}`, as `MergeUser` for trips. */
  function MergeTrip(t: Trip, p: TripPatch): (m: Trip)
    ensures Merged(p.id, t.id, m.id) && Merged(p.userId, t.userId, m.userId)
    ensures Merged(p.eventId, t.eventId, m.eventId) && Merged(p.accommodationId, t.accommodationId, m.accommodationId)
    ensures Merged(p.startDate, t.startDate, m.startDate) && Merged(p.endDate, t.endDate, m.endDate)
    ensures Merged(p.status, t.status, m.status) && Merged(p.itinerary, t.itinerary, m.itinerary)
    ensures Merged(p.notes, t.notes, m.notes)
    ensures ExtraOverlaid(t.extra, p.extra, TripColumns, m.extra)
  {
    Trip(p.id.Over(t.id), p.userId.Over(t.userId), p.eventId.Over(t.eventId),
      p.accommodationId.Over(t.accommodationId), p.startDate.Over(t.startDate), p.endDate.Over(t.endDate),
      p.status.Over(t.status), p.itinerary.Over(t.itinerary), p.notes.Over(t.notes),
      t.extra + (p.extra - TripColumns))
  }

  /** `updateTrip`: absent id => undefined and no change; otherwise the merged
      row is stored under the same key and returned. */
  function UpdateTrip(r: Repo, id: int, p: TripPatch): (res: (Repo, Option<Trip>))
    ensures res.0 == r.(trips := res.0.trips)
    ensures res.1.None? <==> id !in r.trips.rows
    ensures res.1.None? ==> res.0 == r
    ensures res.1.Some? ==> res.1.value == MergeTrip(r.trips.rows[id], p)
    ensures res.1.Some? ==> Tables.Get(res.0.trips, id) == res.1
    ensures forall k :: k != id ==> Tables.Get(res.0.trips, k) == Tables.Get(r.trips, k)
    ensures res.0.trips.rows.Keys == r.trips.rows.Keys && res.0.trips.next == r.trips.next
    ensures Valid(r) ==> Valid(res.0)
  {
    var (t, x) := Tables.Update(r.trips, id, TripMerge(p));
    (r.(trips := t), x)
  }

  // ------------------------------------------------------------------ progress

  /** The filter `p => p.userId === userId`. */
  function ProgressOf(userId: int): Progress -> bool
  {
    (p: Progress) => p.userId == userId
  }

  /** `getUserProgress`: exactly the entries with that `userId`, in creation order. */
  function GetUserProgress(r: Repo, userId: int): (ps: seq<Progress>)
    ensures forall i :: 0 <= i < |ps| ==> ps[i] in Tables.Values(r.progress) && ps[i].userId == userId
    ensures forall p :: p in Tables.Values(r.progress) && p.userId == userId ==> p in ps
    ensures Seqs.Subseq(ps, Tables.Values(r.progress)) && |ps| == |Seqs.Positions(Tables.Values(r.progress), ProgressOf(userId))|
  {
    Seqs.FilterSelects(Tables.Values(r.progress), ProgressOf(userId));
    Seqs.Filter(Tables.Values(r.progress), ProgressOf(userId))
  }

  /** `createProgress`: the next id, and `date` is always overwritten with now;
      no other key is nulled. */
  function CreateProgress(r: Repo, ins: InsertProgress, now: int): (res: (Repo, Progress))
    ensures res.0 == r.(progress := res.0.progress)
    ensures res.1.id == r.progress.next && res.0.progress.next == r.progress.next + 1
    ensures Tables.Get(res.0.progress, res.1.id) == Some(res.1)
    ensures forall k :: k != res.1.id ==> Tables.Get(res.0.progress, k) == Tables.Get(r.progress, k)
    ensures Valid(r) ==> Valid(res.0) && res.1.id !in r.progress.rows
    ensures res.1.date == Some(now)
    ensures res.1.userId == ins.userId && res.1.workoutType == ins.workoutType && res.1.duration == ins.duration
    ensures res.1.distance == ins.distance && res.1.calories == ins.calories
    ensures res.1.notes == ins.notes && res.1.metrics == ins.metrics
  {
    var p := Progress(r.progress.next, ins.userId, Some(now), ins.workoutType, ins.duration,
      ins.distance, ins.calories, ins.notes, ins.metrics);
    (r.(progress := Tables.Add(r.progress, p)), p)
  }

  // ----------------------------------------------------------------- reminders

  /** The filter `r => r.userId === userId`. */
  function ReminderOf(userId: int): Reminder -> bool
  {
    (x: Reminder) => x.userId == userId
  }

  /** `getUserReminders`: exactly the reminders with that `userId`, in creation order. */
  function GetUserReminders(r: Repo, userId: int): (rs: seq<Reminder>)
    ensures forall i :: 0 <= i < |rs| ==> rs[i] in Tables.Values(r.reminders) && rs[i].userId == userId
    ensures forall x :: x in Tables.Values(r.reminders) && x.userId == userId ==> x in rs
    ensures Seqs.Subseq(rs, Tables.Values(r.reminders)) && |rs| == |Seqs.Positions(Tables.Values(r.reminders), ReminderOf(userId))|
  {
    Seqs.FilterSelects(Tables.Values(r.reminders), ReminderOf(userId));
    Seqs.Filter(Tables.Values(r.reminders), ReminderOf(userId))
  }

  /** `createReminder`: the next id and the body as given; nothing is nulled
      and no default is filled in. */
  function CreateReminder(r: Repo, ins: InsertReminder): (res: (Repo, Reminder))
    ensures res.0 == r.(reminders := res.0.reminders)
    ensures res.1.id == r.reminders.next && res.0.reminders.next == r.reminders.next + 1
    ensures Tables.Get(res.0.reminders, res.1.id) == Some(res.1)
    ensures forall k :: k != res.1.id ==> Tables.Get(res.0.reminders, k) == Tables.Get(r.reminders, k)
    ensures Valid(r) ==> Valid(res.0) && res.1.id !in r.reminders.rows
    ensures res.1.userId == ins.userId && res.1.kind == ins.kind && res.1.title == ins.title
    ensures res.1.message == ins.message && res.1.dueDate == ins.dueDate
    ensures res.1.isCompleted == ins.isCompleted && res.1.priority == ins.priority && res.1.extra == map[]
  {
    var x := Reminder(r.reminders.next, ins.userId, ins.kind, ins.title, ins.message, ins.dueDate,
      ins.isCompleted, ins.priority, map[]);
    (r.(reminders := Tables.Add(r.reminders, x)), x)
  }

  /** `{...reminder, ...updates}`, as `MergeUser` for reminders. */
  function MergeReminder(x: Reminder, p: ReminderPatch): (m: Reminder)
    ensures Merged(p.id, x.id, m.id) && Merged(p.userId, x.userId, m.userId)
    ensures Merged(p.kind, x.kind, m.kind) && Merged(p.title, x.title, m.title)
    ensures Merged(p.message, x.message, m.message) && Merged(p.dueDate, x.dueDate, m.dueDate)
    ensures Merged(p.isCompleted, x.isCompleted, m.isCompleted) && Merged(p.priority, x.priority, m.priority)
    ensures ExtraOverlaid(x.extra, p.extra, ReminderColumns, m.extra)
  {
    Reminder(p.id.Over(x.id), p.userId.Over(x.userId), p.kind.Over(x.kind), p.title.Over(x.title),
      p.message.Over(x.message), p.dueDate.Over(x.dueDate), p.isCompleted.Over(x.isCompleted),
      p.priority.Over(x.priority), x.extra + (p.extra - ReminderColumns))
  }

  /** `updateReminder`: absent id => undefined and no change; otherwise the
      merged row is stored under the same key and returned. */
  function UpdateReminder(r: Repo, id: int, p: ReminderPatch): (res: (Repo, Option<Reminder>))
    ensures res.0 == r.(reminders := res.0.reminders)
    ensures res.1.None? <==> id !in r.reminders.rows
    ensures res.1.None? ==> res.0 == r
    ensures res.1.Some? ==> res.1.value == MergeReminder(r.reminders.rows[id], p)
    ensures res.1.Some? ==> Tables.Get(res.0.reminders, id) == res.1
    ensures forall k :: k != id ==> Tables.Get(res.0.reminders, k) == Tables.Get(r.reminders, k)
    ensures res.0.reminders.rows.Keys == r.reminders.rows.Keys && res.0.reminders.next == r.reminders.next
    ensures Valid(r) ==> Valid(res.0)
  {
    var (t, x) := Tables.Update(r.reminders, id, (y: Reminder) => MergeReminder(y, p));
    (r.(reminders := t), x)
  }
}

=== FILE: mock_data.dfy ===
/** The formatting helpers of `client/src/lib/mock-data.ts`: durations in
    minutes rendered as clock text, and elapsed time rendered as words. */
module MockData {
  import opened Text
  import opened JsMath

  /** Text of the form `H:MM`: digits, a colon, then exactly two digits. */
  predicate ClockShape(s: string)
  {
    |s| >= 4 && AllDigits(s[..|s| - 3]) && s[|s| - 3] == ':' && AllDigits(s[|s| - 2..])
  }

  /** The only colon of `s` is at index `k`. */
  predicate OnlyColonAt(s: string, k: int)
  {
    0 <= k < |s| && s[k] == ':' && forall i :: 0 <= i < |s| && i != k ==> s[i] != ':'
  }

  /** Clock text has exactly one colon, the third character from the end:
      the characters around it are digits. */
  lemma ClockShapeOneColon(s: string)
    requires ClockShape(s)
    ensures OnlyColonAt(s, |s| - 3)
  {
    var k := |s| - 3;
    forall i | 0 <= i < |s| && i != k ensures s[i] != ':' {
      if i < k {
        assert s[..k][i] == s[i];
      } else {
        assert s[k + 1..][i - k - 1] == s[i];
      }
    }
  }

  /** The number of minutes a reader takes `H:MM` to mean: `H * 60 + MM`. */
  function ClockMinutes(s: string): nat
    requires ClockShape(s)
  {
    ParseDigits(s[..|s| - 3]) * 60 + ParseDigits(s[|s| - 2..])
  }

  /** `n.toString().padStart(2, '0')` for a one-digit `n`: a `0`, then the digit. */
  lemma TwoDigitsSmall(n: nat)
    requires n < 10
    ensures var p := PadStart(NatToString(n), 2, '0');
            |p| == 2 && AllDigits(p) && ParseDigits(p) == n
  {
    var d := DigitChar(n);
    assert NatToString(n) == [d];
    assert PadStart([d], 2, '0') == ['0', d];
    assert ['0', d][..1] == ['0'];
    assert ['0'][..0] == [];
  }

  /** `n.toString().padStart(2, '0')` for a two-digit `n`: the rendering itself. */
  lemma TwoDigitsLarge(n: nat)
    requires 10 <= n < 100
    ensures var p := PadStart(NatToString(n), 2, '0');
            |p| == 2 && AllDigits(p) && ParseDigits(p) == n
  {
    var hi := n / 10;
    assert hi < 10;
    assert |NatToString(hi)| == 1;
    assert |NatToString(n)| == 2;
  }

  /** Digits, a colon, then two digits: `ClockShape`, with the colon the only one. */
  lemma ClockOfParts(hs: string, p: string)
    requires |hs| >= 1 && AllDigits(hs) && |p| == 2 && AllDigits(p)
    ensures var s := hs + ":" + p;
            ClockShape(s) && ClockMinutes(s) == ParseDigits(hs) * 60 + ParseDigits(p)
  {
    var s := hs + ":" + p;
    assert s[..|s| - 3] == hs;
    assert s[|s| - 2..] == p;
  }

  /** Text without colons, a colon, then two characters without colons: the
      colon is the third character from the end and the only one. */
  lemma OneColon(a: string, b: string)
    requires |b| == 2 && (forall i :: 0 <= i < |a| ==> a[i] != ':') && b[0] != ':' && b[1] != ':'
    ensures var s := a + ":" + b;
            |s| >= 3 && OnlyColonAt(s, |s| - 3)
  {
    var s := a + ":" + b;
    forall i | 0 <= i < |s| && i != |s| - 3 ensures s[i] != ':' {
      if i < |a| { assert s[i] == a[i]; } else { assert s[i] == b[i - |a| - 1]; }
    }
  }

  /** A digit string holds no colon. */
  lemma DigitsHaveNoColon(s: string)
    requires AllDigits(s)
    ensures forall i :: 0 <= i < |s| ==> s[i] != ':'
  {
  }

  /** `${h}:${mm.toString().padStart(2, '0')}`: for `mm` below 60 it is clock
      text reading back as `h` hours and `mm` minutes. */
  function HoursMinutes(h: nat, mm: nat): (s: string)
    requires mm < 60
    ensures ClockShape(s) && ClockMinutes(s) == h * 60 + mm
  {
    HoursMinutesText(h, mm);
    NatToString(h) + ":" + TwoDigits(mm)
  }

  /** The text of `HoursMinutes`, reading back as its parts. */
  lemma HoursMinutesText(h: nat, mm: nat)
    requires mm < 60
    ensures var s := NatToString(h) + ":" + TwoDigits(mm);
            ClockShape(s) && ClockMinutes(s) == h * 60 + mm
  {
    var hs := NatToString(h);
    var p := TwoDigits(mm);
    ClockText(hs, p);
    assert ParseDigits(hs) == h && ParseDigits(p) == mm;
  }

  /** `n.toString().padStart(2, '0')` for `0 <= n < 100`: two digits reading `n`. */
  function TwoDigits(n: nat): (p: string)
    requires n < 100
    ensures |p| == 2 && AllDigits(p) && ParseDigits(p) == n
  {
    TwoDigitsReadBack(n);
    PadStart(NatToString(n), 2, '0')
  }

  /** Both cases of `TwoDigits` together. */
  lemma TwoDigitsReadBack(n: nat)
    requires n < 100
    ensures var p := PadStart(NatToString(n), 2, '0');
            |p| == 2 && AllDigits(p) && ParseDigits(p) == n
  {
    if n < 10 {
      TwoDigitsSmall(n);
    } else {
      TwoDigitsLarge(n);
    }
  }

  /** Digits, a colon and two digits: clock text whose only colon is the third
      character from the end. */
  lemma ClockText(hs: string, p: string)
    requires |hs| >= 1 && AllDigits(hs) && |p| == 2 && AllDigits(p)
    ensures var s := hs + ":" + p;
            && ClockShape(s) && ClockMinutes(s) == ParseDigits(hs) * 60 + ParseDigits(p)
            && OnlyColonAt(s, |s| - 3)
  {
    ClockOfParts(hs, p);
    DigitsHaveNoColon(hs);
    DigitsHaveNoColon(p);
    OneColon(hs, p);
  }

  /** `formatDuration` as written: from an hour up the text is `H:MM`, but
      below an hour it is the minutes followed by `:00`, which reads as hours. */
  function FormatDuration(minutes: int): (r: string)
    ensures minutes >= 0 ==> ClockShape(r)
    ensures minutes >= 60 ==> ClockMinutes(r) == minutes
    ensures 0 <= minutes < 60 ==> ClockMinutes(r) == minutes * 60
    ensures |r| >= 4 && OnlyColonAt(r, |r| - 3)
  {
    var hours := FloorDiv(minutes, 60);
    if hours > 0 then HoursText(minutes) else MinutesText(minutes)
  }

  /** The hour branch of `formatDuration`: `${hours}:${mins padded to two}`. */
  function HoursText(minutes: int): (r: string)
    requires FloorDiv(minutes, 60) > 0
    ensures minutes >= 60 && ClockShape(r) && ClockMinutes(r) == minutes
    ensures |r| >= 4 && OnlyColonAt(r, |r| - 3)
  {
    LongDuration(minutes);
    HoursMinutes(FloorDiv(minutes, 60), JsRem(minutes, 60))
  }

  /** The sub-hour branch of `formatDuration`: `${mins}:00`. */
  function MinutesText(minutes: int): (r: string)
    requires FloorDiv(minutes, 60) <= 0
    ensures minutes < 60 && |r| >= 4 && OnlyColonAt(r, |r| - 3)
    ensures minutes >= 0 ==> ClockShape(r) && ClockMinutes(r) == minutes * 60
  {
    SubHour(minutes);
    IntToString(JsRem(minutes, 60)) + ":00"
  }

  /** `Math.floor(minutes / 60)` hours and `minutes % 60` minutes make up a
      non-negative count of minutes, with the minutes below 60. */
  lemma SplitMinutes(minutes: int)
    requires minutes >= 0
    ensures var h := FloorDiv(minutes, 60);
            var mm := JsRem(minutes, 60);
            h >= 0 && 0 <= mm < 60 && h * 60 + mm == minutes
  {
    var h := FloorDiv(minutes, 60);
    EuclidUnique(minutes, 60, h, minutes - 60 * h);
  }

  /** From an hour up `formatDuration` is `H:MM` reading back as the minutes. */
  lemma LongDuration(minutes: int)
    requires FloorDiv(minutes, 60) > 0
    ensures 0 <= JsRem(minutes, 60) < 60
    ensures var r := HoursMinutes(FloorDiv(minutes, 60), JsRem(minutes, 60));
      && minutes >= 60 && ClockShape(r) && ClockMinutes(r) == minutes
      && |r| >= 4 && OnlyColonAt(r, |r| - 3)
  {
    assert minutes >= 60;
    SplitMinutes(minutes);
    ClockShapeOneColon(HoursMinutes(FloorDiv(minutes, 60), JsRem(minutes, 60)));
  }

  /** The sub-hour branch of `formatDuration`: `${mins}:00`. */
  lemma SubHour(minutes: int)
    requires minutes < 60
    ensures var r := IntToString(JsRem(minutes, 60)) + ":00";
      && |r| >= 4 && OnlyColonAt(r, |r| - 3)
      && (minutes >= 0 ==> ClockShape(r) && ClockMinutes(r) == minutes * 60)
  {
    var mins := JsRem(minutes, 60);
    var t := IntToString(mins);
    forall i | 0 <= i < |t| ensures t[i] != ':' {
      if mins < 0 && i > 0 { assert t[i] == t[1..][i - 1]; }
    }
    OneColon(t, "00");
    AppendColonZeros(t);
    if minutes >= 0 {
      assert mins == minutes;
      assert ParseDigits("00") == 0 by {
        assert "00"[..1] == "0";
        assert "0"[..0] == "";
      }
      ClockOfParts(t, "00");
    }
  }

  /** Below an hour, `formatDuration(m)` is `m` followed by `:00`. */
  lemma SubHourText(m: int)
    requires 0 <= m < 60
    ensures FormatDuration(m) == NatToString(m) + ":00"
  {
    assert FloorDiv(m, 60) == 0 && JsRem(m, 60) == m;
    assert IntToString(m) == NatToString(m);
  }

  /** A whole number `h` of hours is `h` followed by `:00`. */
  lemma WholeHoursText(h: int)
    requires h >= 1
    ensures FormatDuration(h * 60) == NatToString(h) + ":00"
  {
    var n := h * 60;
    assert FloorDiv(n, 60) == h by { EuclidUnique(n, 60, h, 0); }
    assert JsRem(n, 60) == 0 by { EuclidUnique(n, 60, h, 0); }
    var z := JsRem(n, 60);
    assert FormatDuration(n) == HoursMinutes(h, z);
    OnTheHour(h, z);
  }

  /** `h` hours and no minutes is `h` followed by `:00`. */
  lemma OnTheHour(h: nat, zero: nat)
    requires zero == 0
    ensures HoursMinutes(h, zero) == NatToString(h) + ":00"
  {
    var p := TwoDigits(zero);
    ZeroDigits(p);
    AppendColonZeros(NatToString(h));
  }

  /** `t + ":" + "00"` is `t + ":00"`. */
  lemma AppendColonZeros(t: string)
    ensures t + ":" + "00" == t + ":00"
  {
    var a := t + ":" + "00";
    var b := t + ":00";
    forall i | 0 <= i < |a| ensures a[i] == b[i] {
      if i < |t| { } else if i == |t| { } else { }
    }
  }

  /** Two digits reading zero are `00`. */
  lemma ZeroDigits(p: string)
    requires |p| == 2 && AllDigits(p) && ParseDigits(p) == 0
    ensures p == "00"
  {
    assert ParseDigits(p) == ParseDigits(p[..1]) * 10 + DigitValue(p[1]);
    assert p[..1][..0] == [];
    assert ParseDigits(p[..1]) == DigitValue(p[0]);
  }

  /** Below an hour, `formatDuration` gives `m` minutes the text of `m` hours. */
  lemma FormatDurationCollides(m: int)
    requires 1 <= m < 60
    ensures FormatDuration(m) == FormatDuration(m * 60)
    ensures m != m * 60
  {
    SubHourText(m);
    WholeHoursText(m);
  }

  /** `formatDuration` with the sub-hour branch printing `0:MM`, so every
      duration is `H:MM` and reads back as itself. On a non-negative count
      `Math.floor(minutes / 60)` and `minutes % 60` are Dafny's `/` and `%`. */
  function FormatDurationFixed(minutes: nat): (r: string)
    ensures ClockShape(r) && ClockMinutes(r) == minutes
  {
    DivMod60(minutes);
    HoursMinutes(minutes / 60, minutes % 60)
  }

  /** Dividing by 60 splits a count into whole hours and the minutes below 60. */
  lemma DivMod60(minutes: nat)
    ensures minutes / 60 >= 0 && 0 <= minutes % 60 < 60
    ensures (minutes / 60) * 60 + minutes % 60 == minutes
  {
  }

  /** The corrected rendering has one colon, the third character from the end. */
  lemma FormatDurationFixedOneColon(minutes: nat)
    ensures OnlyColonAt(FormatDurationFixed(minutes), |FormatDurationFixed(minutes)| - 3)
  {
    ClockShapeOneColon(FormatDurationFixed(minutes));
  }

  /** The corrected rendering is injective and agrees with `formatDuration`
      from an hour up. */
  lemma FormatDurationFixedFaithful(m: nat, n: nat)
    ensures FormatDurationFixed(m) == FormatDurationFixed(n) ==> m == n
    ensures m >= 60 ==> FormatDurationFixed(m) == FormatDuration(m)
  {
  }

  /** `formatTimeAgo(date)` with `now` the current time in milliseconds: whole
      days, else whole hours, else whole minutes elapsed; under a minute,
      including any future date, "Just now". */
  function FormatTimeAgo(date: int, now: int): (r: string)
    ensures var diff := now - date;
      && (diff >= 2 * DayMs ==> r == NatToString(diff / DayMs) + " days ago")
      && (DayMs <= diff < 2 * DayMs ==> r == "Yesterday")
      && (2 * HourMs <= diff < DayMs ==> r == NatToString(diff / HourMs) + " hours ago")
      && (HourMs <= diff < 2 * HourMs ==> r == "1 hour ago")
      && (2 * MinuteMs <= diff < HourMs ==> r == NatToString(diff / MinuteMs) + " minutes ago")
      && (MinuteMs <= diff < 2 * MinuteMs ==> r == "1 minute ago")
      && (diff < MinuteMs ==> r == "Just now")
  {
    var diffMs := now - date;
    var diffDays := FloorDiv(diffMs, DayMs);
    var diffHours := FloorDiv(diffMs, HourMs);
    var diffMinutes := FloorDiv(diffMs, MinuteMs);
    if diffDays > 0 then
      (if diffDays == 1 then "Yesterday" else IntToString(diffDays) + " days ago")
    else if diffHours > 0 then
      (if diffHours == 1 then "1 hour ago" else IntToString(diffHours) + " hours ago")
    else if diffMinutes > 0 then
      (if diffMinutes == 1 then "1 minute ago" else IntToString(diffMinutes) + " minutes ago")
    else "Just now"
  }

  /** Two counts with the same unit word read the same exactly when the counts
      are equal. */
  lemma CountTextInjective(m: nat, n: nat, unit: string)
    ensures NatToString(m) + unit == NatToString(n) + unit <==> m == n
  {
    if NatToString(m) + unit == NatToString(n) + unit {
      var a, b := NatToString(m), NatToString(n);
      assert |a| == |b|;
      assert a == (a + unit)[..|a|] && b == (b + unit)[..|b|];
      NatToStringInjective(m, n);
    }
  }

  /** From a day on, `formatTimeAgo` tells two dates apart exactly by the
      whole days elapsed since each. */
  lemma FormatTimeAgoCountsDays(date1: int, date2: int, now: int)
    requires now - date1 >= DayMs && now - date2 >= DayMs
    ensures FormatTimeAgo(date1, now) == FormatTimeAgo(date2, now)
        <==> (now - date1) / DayMs == (now - date2) / DayMs
  {
    var q1, q2 := (now - date1) / DayMs, (now - date2) / DayMs;
    assert q1 >= 1 && q2 >= 1;
    assert q1 == 1 <==> now - date1 < 2 * DayMs;
    assert q2 == 1 <==> now - date2 < 2 * DayMs;
    if q1 >= 2 && q2 >= 2 {
      CountTextInjective(q1, q2, " days ago");
    } else if q1 >= 2 {
      assert FormatTimeAgo(date1, now)[0] != 'Y';
    } else if q2 >= 2 {
      assert FormatTimeAgo(date2, now)[0] != 'Y';
    }
  }
}

=== FILE: navigation.dfy ===
/** The avatar initials of `client/src/components/navigation.tsx`. */
module Navigation {
  import opened Wrappers
  import opened Text

  /** A name is falsy when it is absent or empty. */
  predicate Falsy(name: Option<string>)
  {
    name.None? || name.value == ""
  }

  /** `name?.[0] || ""`: the first character, or nothing for a falsy name. */
  function Lead(name: Option<string>): (r: string)
    ensures |r| <= 1
    ensures r == "" <==> Falsy(name)
    ensures !Falsy(name) ==> r == [name.value[0]]
  {
    if name.Some? && |name.value| > 0 then [name.value[0]] else ""
  }

  /** `getInitials(firstName, lastName)`: "AT" when both names are falsy,
      otherwise the upper-cased first character of each name that has one, the
      first name's before the last name's. */
  function GetInitials(firstName: Option<string>, lastName: Option<string>): (r: string)
    ensures Falsy(firstName) && Falsy(lastName) ==> r == "AT"
    ensures !Falsy(firstName) || !Falsy(lastName) ==>
      && 1 <= |r| <= 2
      && |r| == (if Falsy(firstName) then 0 else 1) + (if Falsy(lastName) then 0 else 1)
      && (!Falsy(firstName) ==> r[0] == UpperChar(firstName.value[0]))
      && (!Falsy(lastName) ==> r[|r| - 1] == UpperChar(lastName.value[0]))
  {
    if Falsy(firstName) && Falsy(lastName) then "AT"
    else ToUpper(Lead(firstName) + Lead(lastName))
  }

  /** The initials depend only on the first character of each name: names that
      start alike (or are both falsy) give the same initials. */
  lemma InitialsDependOnFirstCharacters(f1: Option<string>, l1: Option<string>, f2: Option<string>, l2: Option<string>)
    requires Lead(f1) == Lead(f2) && Lead(l1) == Lead(l2)
    ensures GetInitials(f1, l1) == GetInitials(f2, l2)
  {
  }
}

=== FILE: notification_center.dfy ===
/** The list logic of `client/src/components/notification-center.tsx`: marking
    a notification read, counting the unread ones, and the time-remaining label. */
module NotificationCenter {
  import opened Text
  import opened JsMath
  import Seqs

  /** One entry of the notification list. `kind` is the entry's `type` key. */
  datatype Notification = Notification(
    id: int,
    kind: string,
    title: string,
    message: string,
    priority: string,
    dueDate: int,
    isRead: bool)

  /** The filter behind `unreadCount`: `n => !n.isRead`. */
  function Unread(): Notification -> bool
  {
    (n: Notification) => !n.isRead
  }

  /** Unread entries carrying the given id: those `markAsRead(id)` flips. */
  function UnreadWithId(id: int): Notification -> bool
  {
    (n: Notification) => !n.isRead && n.id == id
  }

  /** Unread entries carrying another id: those `markAsRead(id)` leaves unread. */
  function UnreadOtherThan(id: int): Notification -> bool
  {
    (n: Notification) => !n.isRead && n.id != id
  }

  /** `markAsRead(id)`: every entry with that id becomes read; each entry keeps
      its other fields, its position and its read flag otherwise. */
  function MarkAsRead(ns: seq<Notification>, id: int): (r: seq<Notification>)
    ensures |r| == |ns|
    ensures forall i :: 0 <= i < |ns| ==> r[i].isRead == (ns[i].isRead || ns[i].id == id)
    ensures forall i :: 0 <= i < |ns| ==> r[i].(isRead := ns[i].isRead) == ns[i]
  {
    seq(|ns|, i requires 0 <= i < |ns| => if ns[i].id == id then ns[i].(isRead := true) else ns[i])
  }

  /** `unreadCount`: the number of entries whose `isRead` is false. */
  function UnreadCount(ns: seq<Notification>): (n: nat)
    ensures n == |set i | 0 <= i < |ns| && !ns[i].isRead|
    ensures n <= |ns|
    ensures n == 0 <==> forall i :: 0 <= i < |ns| ==> ns[i].isRead
  {
    UnreadIsNotRead(ns);
    Seqs.FilterCountsPositions(ns, Unread());
    assert Seqs.Positions(ns, Unread()) == set i | 0 <= i < |ns| && !ns[i].isRead;
    |Seqs.Filter(ns, Unread())|
  }

  /** The unread entries are empty exactly when every entry is read. */
  lemma UnreadIsNotRead(ns: seq<Notification>)
    ensures |Seqs.Filter(ns, Unread())| == 0 <==> forall i :: 0 <= i < |ns| ==> ns[i].isRead
  {
    if forall i :: 0 <= i < |ns| ==> ns[i].isRead {
      Seqs.FilterDropsAll(ns, Unread());
    } else {
      var i :| 0 <= i < |ns| && !ns[i].isRead;
      assert Unread()(ns[i]);
      assert ns[i] in Seqs.Filter(ns, Unread());
    }
  }

  /** Marking is idempotent: a second `markAsRead(id)` changes nothing. */
  lemma MarkAsReadIdempotent(ns: seq<Notification>, id: int)
    ensures MarkAsRead(MarkAsRead(ns, id), id) == MarkAsRead(ns, id)
  {
    var once := MarkAsRead(ns, id);
    var twice := MarkAsRead(once, id);
    forall i | 0 <= i < |ns| ensures twice[i] == once[i] {
      assert twice[i].(isRead := once[i].isRead) == once[i];
    }
  }

  /** Marking reads exactly the unread entries with that id off the count:
      the new count is the number of unread entries with another id. */
  lemma {:induction false} MarkAsReadCount(ns: seq<Notification>, id: int)
    ensures |Seqs.Filter(MarkAsRead(ns, id), Unread())| == |Seqs.Filter(ns, UnreadOtherThan(id))|
    ensures |Seqs.Filter(ns, Unread())|
         == |Seqs.Filter(ns, UnreadOtherThan(id))| + |Seqs.Filter(ns, UnreadWithId(id))|
    decreases |ns|
  {
    if |ns| > 0 {
      var r := MarkAsRead(ns, id);
      assert r[1..] == MarkAsRead(ns[1..], id);
      MarkAsReadCount(ns[1..], id);
    }
  }

  /** `markAsRead` never increases `unreadCount`, and it lowers it exactly when
      some unread entry carries that id. */
  lemma MarkAsReadLowersCount(ns: seq<Notification>, id: int)
    ensures UnreadCount(MarkAsRead(ns, id)) <= UnreadCount(ns)
    ensures UnreadCount(MarkAsRead(ns, id)) < UnreadCount(ns)
        <==> exists i :: 0 <= i < |ns| && !ns[i].isRead && ns[i].id == id
  {
    MarkAsReadCount(ns, id);
    var hit := Seqs.Filter(ns, UnreadWithId(id));
    if exists i :: 0 <= i < |ns| && !ns[i].isRead && ns[i].id == id {
      var i :| 0 <= i < |ns| && !ns[i].isRead && ns[i].id == id;
      assert UnreadWithId(id)(ns[i]);
      assert ns[i] in hit;
    } else {
      Seqs.FilterDropsAll(ns, UnreadWithId(id));
    }
  }

  /** `"N day"`/`"N days"` and the like: the count, a space, the unit, and an
      `s` unless the count is 1. */
  function Plural(n: int, unit: string): string
  {
    IntToString(n) + " " + unit + (if n == 1 then "" else "s")
  }

  /** `formatTimeRemaining(date)` with `now` the current time in milliseconds:
      whole days left from a day on, else whole hours left from an hour on,
      else (under an hour, or overdue) "Soon". The hour count uses JavaScript's
      truncating remainder, which is never positive on an overdue date. */
  function FormatTimeRemaining(dueDate: int, now: int): (r: string)
    ensures var diff := dueDate - now;
      && (diff >= DayMs ==> r == NatToString(diff / DayMs) + (if diff < 2 * DayMs then " day" else " days"))
      && (HourMs <= diff < DayMs ==> r == NatToString(diff / HourMs) + (if diff < 2 * HourMs then " hour" else " hours"))
      && (diff < HourMs ==> r == "Soon")
  {
    var diff := dueDate - now;
    var days := FloorDiv(diff, DayMs);
    var hours := FloorDiv(JsRem(diff, DayMs), HourMs);
    RemainingUnits(diff);
    if days > 0 then
      PluralWords(days, "day", " day", " days");
      Plural(days, "day")
    else if hours > 0 then
      PluralWords(hours, "hour", " hour", " hours");
      Plural(hours, "hour")
    else
      "Soon"
  }

  /** The day and hour counts of `formatTimeRemaining` for a time difference:
      from a day on the days are the whole days; below a day the hours are the
      whole hours; below an hour neither count is positive. */
  lemma RemainingUnits(diff: int)
    ensures var days := FloorDiv(diff, DayMs);
            var hours := FloorDiv(JsRem(diff, DayMs), HourMs);
      && (diff >= DayMs ==> days == diff / DayMs && days >= 1 && (days == 1 <==> diff < 2 * DayMs))
      && (diff < DayMs ==> days <= 0)
      && (HourMs <= diff < DayMs ==> hours == diff / HourMs && hours >= 1 && (hours == 1 <==> diff < 2 * HourMs))
      && (diff < HourMs ==> hours <= 0)
  {
    if 0 <= diff < DayMs {
      EuclidUnique(diff, DayMs, 0, diff);
    }
  }

  /** `Plural(n, unit)` for a positive count: the count, then the singular or
      plural words. */
  lemma PluralWords(n: int, unit: string, single: string, plural: string)
    requires n >= 1 && single == " " + unit && plural == " " + unit + "s"
    ensures Plural(n, unit) == NatToString(n) + (if n == 1 then single else plural)
  {
    var a := IntToString(n) + " " + unit;
    if n == 1 {
      assert a + "" == a;
    }
  }
}

=== FILE: plan_trip.dfy ===
/** The trip-planning form logic of `client/src/pages/plan-trip.tsx`: the
    amenity and facility selections, the cost arithmetic and the search
    handlers. Dates are the form's date strings, read through `parseDate`
    (the `new Date(s).getTime()` of the page). The selected accommodation and
    facilities are the records the accommodation and facility routes send. */
module PlanTrip {
  import opened Wrappers
  import opened JsonValues
  import opened JsMath
  import Schema
  import Seqs

  type Accommodation = Schema.Accommodation
  type Facility = Schema.TrainingFacility

  /** The page's `TripPlanningData` state. */
  datatype TripPlan = TripPlan(
    name: string,
    destination: string,
    checkInDate: string,
    checkOutDate: string,
    accommodationType: string,
    priceRange: string,
    selectedAccommodation: Option<Accommodation>,
    selectedFacilities: seq<Facility>,
    dietaryPreference: string,
    mealPlanning: string,
    athleticAmenities: seq<string>)

  /** The accommodation query's filters; the query runs once `city` is set. */
  datatype AccommodationFilters = AccommodationFilters(city: string, kind: string, maxPrice: Option<int>)

  /** The facility query's filters; the query runs once `city` is set. */
  datatype FacilityFilters = FacilityFilters(city: string, kind: string, sports: seq<string>)

  /** `a => a !== amenity`. */
  function Other(amenity: string): string -> bool
  {
    (a: string) => a != amenity
  }

  /** `handleAmenityToggle(amenity)`: a selected amenity is dropped, every copy
      of it, keeping the rest in order; an unselected one is appended. Nothing
      else in the plan changes. */
  function ToggleAmenity(plan: TripPlan, amenity: string): (r: TripPlan)
    ensures r.(athleticAmenities := plan.athleticAmenities) == plan
    ensures amenity in r.athleticAmenities <==> amenity !in plan.athleticAmenities
    ensures amenity in plan.athleticAmenities ==>
      Seqs.Subseq(r.athleticAmenities, plan.athleticAmenities) &&
      forall a :: a in plan.athleticAmenities && a != amenity ==> a in r.athleticAmenities
    ensures amenity !in plan.athleticAmenities ==>
      |r.athleticAmenities| == |plan.athleticAmenities| + 1 &&
      r.athleticAmenities[..|plan.athleticAmenities|] == plan.athleticAmenities &&
      r.athleticAmenities[|plan.athleticAmenities|] == amenity
  {
    var current := plan.athleticAmenities;
    if amenity in current then
      var kept := Seqs.Filter(current, Other(amenity));
      Seqs.FilterSubseq(current, Other(amenity));
      assert forall a :: a in current && a != amenity ==> a in kept by {
        forall a | a in current && a != amenity ensures a in kept {
          var i :| 0 <= i < |current| && current[i] == a;
          assert Other(amenity)(current[i]);
        }
      }
      plan.(athleticAmenities := kept)
    else
      plan.(athleticAmenities := current + [amenity])
  }

  /** Toggling an unselected amenity twice restores the plan. */
  lemma ToggleTwiceRestores(plan: TripPlan, amenity: string)
    requires amenity !in plan.athleticAmenities
    ensures ToggleAmenity(ToggleAmenity(plan, amenity), amenity) == plan
  {
    var current := plan.athleticAmenities;
    Seqs.FilterAppend(current, [amenity], Other(amenity));
    Seqs.FilterKeepsAll(current, Other(amenity));
    assert Seqs.Filter([amenity], Other(amenity)) == [];
  }

  /** `f => f.id === id`. */
  function HasId(id: int): Facility -> bool
  {
    (f: Facility) => f.id == id
  }

  /** `f => f.id !== id`. */
  function NotId(id: int): Facility -> bool
  {
    (f: Facility) => f.id != id
  }

  /** No two selected facilities share an id. */
  predicate DistinctIds(fs: seq<Facility>)
  {
    forall i, j :: 0 <= i < j < |fs| ==> fs[i].id != fs[j].id
  }

  /** `addFacility(facility)`: appended when no selected facility has its id,
      otherwise the plan is unchanged; either way a facility with that id is
      selected, and distinct selected ids stay distinct. */
  function AddFacility(plan: TripPlan, facility: Facility): (r: TripPlan)
    ensures r.(selectedFacilities := plan.selectedFacilities) == plan
    ensures exists i :: 0 <= i < |r.selectedFacilities| && r.selectedFacilities[i].id == facility.id
    ensures (exists i :: 0 <= i < |plan.selectedFacilities| && plan.selectedFacilities[i].id == facility.id)
            ==> r == plan
    ensures (forall i :: 0 <= i < |plan.selectedFacilities| ==> plan.selectedFacilities[i].id != facility.id)
            ==> r.selectedFacilities == plan.selectedFacilities + [facility]
    ensures DistinctIds(plan.selectedFacilities) ==> DistinctIds(r.selectedFacilities)
  {
    var current := plan.selectedFacilities;
    var at := Seqs.FindIndex(current, HasId(facility.id));
    if at < 0 then
      var r := plan.(selectedFacilities := current + [facility]);
      assert r.selectedFacilities[|current|].id == facility.id;
      r
    else
      assert current[at].id == facility.id;
      plan
  }

  /** `removeFacility(facilityId)`: every facility with that id is dropped and
      the others stay, in order. Nothing else in the plan changes. */
  function RemoveFacility(plan: TripPlan, facilityId: int): (r: TripPlan)
    ensures r.(selectedFacilities := plan.selectedFacilities) == plan
    ensures forall i :: 0 <= i < |r.selectedFacilities| ==> r.selectedFacilities[i].id != facilityId
    ensures Seqs.Subseq(r.selectedFacilities, plan.selectedFacilities)
    ensures forall f :: f in plan.selectedFacilities && f.id != facilityId ==> f in r.selectedFacilities
  {
    var current := plan.selectedFacilities;
    var kept := Seqs.Filter(current, NotId(facilityId));
    Seqs.FilterSubseq(current, NotId(facilityId));
    assert forall i :: 0 <= i < |kept| ==> NotId(facilityId)(kept[i]);
    assert forall f :: f in current && f.id != facilityId ==> f in kept by {
      forall f | f in current && f.id != facilityId ensures f in kept {
        var i :| 0 <= i < |current| && current[i] == f;
        assert NotId(facilityId)(current[i]);
      }
    }
    plan.(selectedFacilities := kept)
  }

  /** Adding a facility whose id is not selected and then removing that id
      restores the plan. */
  lemma AddThenRemoveRestores(plan: TripPlan, facility: Facility)
    requires forall i :: 0 <= i < |plan.selectedFacilities| ==> plan.selectedFacilities[i].id != facility.id
    ensures RemoveFacility(AddFacility(plan, facility), facility.id) == plan
  {
    var current := plan.selectedFacilities;
    Seqs.FilterAppend(current, [facility], NotId(facility.id));
    Seqs.FilterKeepsAll(current, NotId(facility.id));
    assert Seqs.Filter([facility], NotId(facility.id)) == [];
  }

  /** Both date fields are filled in. */
  predicate HasDates(plan: TripPlan)
  {
    plan.checkInDate != "" && plan.checkOutDate != ""
  }

  /** `Math.ceil((checkOut - checkIn) / day)`: the number of started days
      between the two dates. */
  function Nights(plan: TripPlan, parseDate: string -> int): (n: int)
    ensures var span := parseDate(plan.checkOutDate) - parseDate(plan.checkInDate);
            DayMs * n - DayMs < span <= DayMs * n
  {
    CeilDiv(parseDate(plan.checkOutDate) - parseDate(plan.checkInDate), DayMs)
  }

  /** The number JavaScript's `*` and `+` make of a property read: `undefined`
      is `NaN`, `null` is 0, a boolean is 0 or 1 and a number is itself. Text,
      arrays and objects, which no price column holds, are taken as `NaN`. */
  function ToNumber(o: Option<Json>): (n: Number)
    ensures o.None? ==> n == NaN
    ensures o == Some(JNull) ==> n == Num(0)
    ensures o.Some? && o.value.JNum? ==> n == Num(o.value.n)
  {
    match o
    case None => NaN
    case Some(JNull) => Num(0)
    case Some(JBool(b)) => Num(if b then 1 else 0)
    case Some(JNum(n)) => Num(n)
    case Some(_) => NaN
  }

  /** The keys the page reads: `selectedAccommodation.pricePerNight` and
      `facility.pricePerDay`. */
  const NightKey := "pricePerNight"
  const DayKey := "pricePerDay"

  /** The key both server records carry their price under. */
  const PriceKey := "price"

  /** `accommodation[key]` as a number, read from the record as the routes
      send it (`Schema.AccommodationFieldIsProp`). */
  function NightlyPrice(a: Accommodation, key: string): Number
  {
    ToNumber(Schema.AccommodationField(a, key))
  }

  /** `facility[key]` as a number, read from the record as the routes send it
      (`Schema.FacilityFieldIsProp`). */
  function DailyPrice(f: Facility, key: string): Number
  {
    ToNumber(Schema.FacilityField(f, key))
  }

  /** `facility[key]` for each facility, in order. */
  function DailyPrices(fs: seq<Facility>, key: string): (ps: seq<Number>)
    ensures |ps| == |fs|
    decreases |fs|
  {
    if |fs| == 0 then [] else [DailyPrice(fs[0], key)] + DailyPrices(fs[1..], key)
  }

  /** `ps.forEach(p => total += p * days)`, from the running `total`. */
  function AddCosts(total: Number, ps: seq<Number>, days: int): Number
    decreases |ps|
  {
    if |ps| == 0 then total else AddCosts(Plus(total, Times(ps[0], Num(days))), ps[1..], days)
  }

  /** `ps.reduce((sum, p) => sum + p, sum)`. */
  function SumFrom(sum: Number, ps: seq<Number>): Number
    decreases |ps|
  {
    if |ps| == 0 then sum else SumFrom(Plus(sum, ps[0]), ps[1..])
  }

  /** `calculateTotalCost()` with the nightly price read under `nightKey` and
      the daily price under `dayKey`: 0 unless both dates are set; otherwise
      the accommodation's price for the nights, then each facility's price for
      the days, added to the running total. */
  function TotalCostWith(plan: TripPlan, parseDate: string -> int, nightKey: string, dayKey: string): Number
  {
    var total :=
      if plan.selectedAccommodation.Some? && HasDates(plan)
      then Plus(Num(0), Times(NightlyPrice(plan.selectedAccommodation.value, nightKey), Num(Nights(plan, parseDate))))
      else Num(0);
    if HasDates(plan) then AddCosts(total, DailyPrices(plan.selectedFacilities, dayKey), Nights(plan, parseDate))
    else total
  }

  /** The multiplier of the sidebar's lines: the nights, or 1 while a date is
      missing. */
  function SidebarDays(plan: TripPlan, parseDate: string -> int): int
  {
    if HasDates(plan) then Nights(plan, parseDate) else 1
  }

  /** The sidebar's "Accommodation" line, reading the price under `key`. */
  function AccommodationLineWith(a: Accommodation, plan: TripPlan, parseDate: string -> int, key: string): Number
  {
    Times(NightlyPrice(a, key), Num(SidebarDays(plan, parseDate)))
  }

  /** The sidebar's "Training Facilities" line, reading the prices under `key`. */
  function FacilityLineWith(plan: TripPlan, parseDate: string -> int, key: string): Number
  {
    Times(SumFrom(Num(0), DailyPrices(plan.selectedFacilities, key)), Num(SidebarDays(plan, parseDate)))
  }

  /** A running sum folds in like one addition: `reduce` from `sum` is `sum`
      plus the `reduce` from 0. */
  lemma {:induction false} SumFromStart(sum: Number, ps: seq<Number>)
    ensures SumFrom(sum, ps) == Plus(sum, SumFrom(Num(0), ps))
    decreases |ps|
  {
    if |ps| > 0 {
      SumFromStart(Plus(sum, ps[0]), ps[1..]);
      SumFromStart(Plus(Num(0), ps[0]), ps[1..]);
    }
  }

  /** Adding each cost for the stay equals adding the summed prices times the
      days: `Σ (p × d) = (Σ p) × d`, `NaN` included. */
  lemma {:induction false} CostsFactor(total: Number, ps: seq<Number>, days: int)
    ensures AddCosts(total, ps, days) == Plus(total, Times(SumFrom(Num(0), ps), Num(days)))
    decreases |ps|
  {
    if |ps| > 0 {
      var p := ps[0];
      var rest := SumFrom(Num(0), ps[1..]);
      CostsFactor(Plus(total, Times(p, Num(days))), ps[1..], days);
      SumFromStart(Plus(Num(0), p), ps[1..]);
      NumberDistribute(total, p, rest, days);
    }
  }

  /** `total + p × d + s × d = total + (0 + p + s) × d` on numbers, `NaN`
      included. */
  lemma NumberDistribute(total: Number, p: Number, s: Number, days: int)
    ensures Plus(Plus(total, Times(p, Num(days))), Times(s, Num(days)))
         == Plus(total, Times(Plus(Plus(Num(0), p), s), Num(days)))
  {
    if total.Num? && p.Num? && s.Num? {
      Distribute(total.value, p.value, s.value, days);
    }
  }

  /** With both dates set, the sidebar's lines add up to the total, whatever
      keys the prices are read under: the accommodation line (shown when one is
      selected) plus the facility line (shown when any is selected). */
  lemma SidebarAddsUpToTotal(plan: TripPlan, parseDate: string -> int, nightKey: string, dayKey: string)
    requires HasDates(plan)
    ensures TotalCostWith(plan, parseDate, nightKey, dayKey)
         == Plus(if plan.selectedAccommodation.Some?
                 then AccommodationLineWith(plan.selectedAccommodation.value, plan, parseDate, nightKey) else Num(0),
                 if plan.selectedFacilities != [] then FacilityLineWith(plan, parseDate, dayKey) else Num(0))
  {
    var d := Nights(plan, parseDate);
    var total :=
      if plan.selectedAccommodation.Some?
      then Plus(Num(0), Times(NightlyPrice(plan.selectedAccommodation.value, nightKey), Num(d)))
      else Num(0);
    CostsFactor(total, DailyPrices(plan.selectedFacilities, dayKey), d);
  }

  /** An accommodation as the server sends it has no `pricePerNight`: reading
      it gives `undefined`, which is `NaN` in arithmetic. */
  lemma NoNightlyPrice(a: Accommodation)
    ensures NightlyPrice(a, NightKey) == NaN
  {
    assert NightKey !in Schema.AccommodationColumns;
  }

  /** A training facility as the server sends it has no `pricePerDay`. */
  lemma NoDailyPrice(f: Facility)
    ensures DailyPrice(f, DayKey) == NaN
  {
    assert DayKey !in Schema.FacilityColumns;
  }

  /** `calculateTotalCost()` as written: 0 while a date is missing or nothing is
      selected, and `NaN` as soon as both dates are set and an accommodation or
      a facility is selected. */
  function TotalCost(plan: TripPlan, parseDate: string -> int): (total: Number)
    ensures !HasDates(plan) ==> total == Num(0)
    ensures HasDates(plan) && plan.selectedAccommodation.None? && plan.selectedFacilities == [] ==> total == Num(0)
    ensures HasDates(plan) && (plan.selectedAccommodation.Some? || plan.selectedFacilities != []) ==> total == NaN
  {
    if HasDates(plan) then
      SidebarAddsUpToTotal(plan, parseDate, NightKey, DayKey);
      if plan.selectedAccommodation.Some? then
        NoNightlyPrice(plan.selectedAccommodation.value);
        TotalCostWith(plan, parseDate, NightKey, DayKey)
      else if plan.selectedFacilities != [] then
        FacilityLineNaN(plan, parseDate);
        TotalCostWith(plan, parseDate, NightKey, DayKey)
      else
        TotalCostWith(plan, parseDate, NightKey, DayKey)
    else
      TotalCostWith(plan, parseDate, NightKey, DayKey)
  }

  /** The sidebar's "Accommodation" line as written: `NaN` for every record the
      server sends, with or without dates. */
  function AccommodationSubtotal(a: Accommodation, plan: TripPlan, parseDate: string -> int): (line: Number)
    ensures line == NaN
  {
    NoNightlyPrice(a);
    AccommodationLineWith(a, plan, parseDate, NightKey)
  }

  /** The sidebar's "Training Facilities" line as written: `NaN` whenever it is
      shown, that is whenever a facility is selected. */
  function FacilitySubtotal(plan: TripPlan, parseDate: string -> int): (line: Number)
    ensures plan.selectedFacilities != [] ==> line == NaN
    ensures plan.selectedFacilities == [] ==> line == Num(0)
  {
    if plan.selectedFacilities != [] then
      FacilityLineNaN(plan, parseDate);
      FacilityLineWith(plan, parseDate, DayKey)
    else
      FacilityLineWith(plan, parseDate, DayKey)
  }

  /** One facility without `pricePerDay` makes the summed daily price `NaN`. */
  lemma FacilityLineNaN(plan: TripPlan, parseDate: string -> int)
    requires plan.selectedFacilities != []
    ensures FacilityLineWith(plan, parseDate, DayKey) == NaN
  {
    var ps := DailyPrices(plan.selectedFacilities, DayKey);
    NoDailyPrice(plan.selectedFacilities[0]);
    SumFromStart(NaN, ps[1..]);
  }

  /** A facility's price read from `price`: a `null` price counts 0, as
      `null * days` and `sum + null` do. */
  function PriceOrZero(f: Facility): int
  {
    if f.price.Some? then f.price.value else 0
  }

  /** The daily prices of the facilities added up, `null` counting 0. */
  function DailyTotal(fs: seq<Facility>): int
    decreases |fs|
  {
    if |fs| == 0 then 0 else PriceOrZero(fs[0]) + DailyTotal(fs[1..])
  }

  /** An accommodation carries its price under `price`, and it reads as a
      number. */
  lemma NightlyPriceIsNumber(a: Accommodation)
    ensures NightlyPrice(a, PriceKey) == Num(a.price)
  {
  }

  /** A facility carries its price under `price`; a `null` one reads as 0. */
  lemma DailyPriceIsNumber(f: Facility)
    ensures DailyPrice(f, PriceKey) == Num(PriceOrZero(f))
  {
  }

  /** The selected accommodation's price, read from `price`, is a number. */
  lemma NightlyOfSelection(plan: TripPlan, parseDate: string -> int)
    ensures plan.selectedAccommodation.Some? ==>
      NightlyPrice(plan.selectedAccommodation.value, PriceKey) == Num(plan.selectedAccommodation.value.price)
  {
    if plan.selectedAccommodation.Some? {
      NightlyPriceIsNumber(plan.selectedAccommodation.value);
    }
  }

  /** The daily prices read from `price` and added to a numeric running sum:
      again a number, the sum plus the facilities' prices. */
  lemma {:induction false} PricedSum(sum: int, fs: seq<Facility>)
    ensures SumFrom(Num(sum), DailyPrices(fs, PriceKey)) == Num(sum + DailyTotal(fs))
    decreases |fs|
  {
    if |fs| > 0 {
      DailyPricesHead(fs);
      SumFromStep(sum, DailyPrices(fs, PriceKey), PriceOrZero(fs[0]));
      PricedSum(sum + PriceOrZero(fs[0]), fs[1..]);
    }
  }

  /** The first price read from `price` is the first facility's price, and the
      rest are read from the other facilities. */
  lemma DailyPricesHead(fs: seq<Facility>)
    requires |fs| > 0
    ensures DailyPrices(fs, PriceKey)[0] == Num(PriceOrZero(fs[0]))
    ensures DailyPrices(fs, PriceKey)[1..] == DailyPrices(fs[1..], PriceKey)
  {
    DailyPriceIsNumber(fs[0]);
  }

  /** A leading number joins the running sum. */
  lemma SumFromStep(sum: int, ps: seq<Number>, x: int)
    requires |ps| > 0 && ps[0] == Num(x)
    ensures SumFrom(Num(sum), ps) == SumFrom(Num(sum + x), ps[1..])
  {
  }

  /** The daily prices read from `price`, added up from 0: the facilities'
      prices. */
  lemma PricedSumFromZero(fs: seq<Facility>)
    ensures SumFrom(Num(0), DailyPrices(fs, PriceKey)) == Num(DailyTotal(fs))
  {
    PricedSumFrom(Num(0), fs);
  }

  /** `PricedSum` from a numeric start. */
  lemma PricedSumFrom(start: Number, fs: seq<Facility>)
    requires start.Num?
    ensures SumFrom(start, DailyPrices(fs, PriceKey)) == Num(start.value + DailyTotal(fs))
  {
    PricedSum(start.value, fs);
  }

  /** Each facility's cost for the stay, read from `price`, added to a numeric
      running total: again a number. */
  lemma PricedFacilityCosts(total: int, fs: seq<Facility>, days: int, dailyTotal: int)
    requires dailyTotal == DailyTotal(fs)
    ensures AddCosts(Num(total), DailyPrices(fs, PriceKey), days) == Num(total + dailyTotal * days)
  {
    PricedSumFromZero(fs);
    NumericCosts(total, DailyPrices(fs, PriceKey), dailyTotal, days);
  }

  /** Costs of prices summing to the number `sum`, added to a numeric total:
      the total plus `sum` times the days. */
  lemma NumericCosts(total: int, ps: seq<Number>, sum: int, days: int)
    requires SumFrom(Num(0), ps) == Num(sum)
    ensures AddCosts(Num(total), ps, days) == Num(total + sum * days)
  {
    CostsFactor(Num(total), ps, days);
    PlusTimes(total, sum, days);
  }

  /** `t + x * d` on numbers is the integer `t + x * d`. */
  lemma PlusTimes(t: int, x: int, d: int)
    ensures Plus(Num(t), Times(Num(x), Num(d))) == Num(t + x * d)
  {
  }

  /** Multiplication distributes over the running sum. */
  lemma Distribute(t: int, p: int, rest: int, d: int)
    ensures t + p * d + rest * d == t + (p + rest) * d
  {
  }

  /** `calculateTotalCost()` reading both prices from `price`, the column the
      server's records carry: never `NaN`, and 0 while a date is missing. */
  function CorrectedTotalCost(plan: TripPlan, parseDate: string -> int): (total: int)
    ensures TotalCostWith(plan, parseDate, PriceKey, PriceKey) == Num(total)
    ensures !HasDates(plan) ==> total == 0
  {
    CorrectedIsNumber(plan, parseDate);
    TotalCostWith(plan, parseDate, PriceKey, PriceKey).value
  }

  /** Read from `price`, the total is a number. */
  lemma CorrectedIsNumber(plan: TripPlan, parseDate: string -> int)
    ensures TotalCostWith(plan, parseDate, PriceKey, PriceKey).Num?
  {
    if HasDates(plan) {
      var d := Nights(plan, parseDate);
      var nightly := if plan.selectedAccommodation.Some? then plan.selectedAccommodation.value.price * d else 0;
      NightlyOfSelection(plan, parseDate);
      PricedFacilityCosts(nightly, plan.selectedFacilities, d, DailyTotal(plan.selectedFacilities));
    }
  }

  /** The corrected total with both dates set: the accommodation's price times
      the nights, plus the facilities' daily prices (a `null` price counting 0)
      times the nights. */
  lemma CorrectedTotalValue(plan: TripPlan, parseDate: string -> int, dailyTotal: int)
    requires HasDates(plan) && dailyTotal == DailyTotal(plan.selectedFacilities)
    ensures CorrectedTotalCost(plan, parseDate)
         == (if plan.selectedAccommodation.Some? then plan.selectedAccommodation.value.price * Nights(plan, parseDate) else 0)
            + dailyTotal * Nights(plan, parseDate)
  {
    var d := Nights(plan, parseDate);
    var nightly := if plan.selectedAccommodation.Some? then plan.selectedAccommodation.value.price * d else 0;
    NightlyOfSelection(plan, parseDate);
    PricedFacilityCosts(nightly, plan.selectedFacilities, d, dailyTotal);
  }

  /** Read from `price`, the sidebar's lines are numbers and add up to the
      corrected total. */
  lemma CorrectedSidebarAddsUp(plan: TripPlan, parseDate: string -> int)
    requires HasDates(plan)
    ensures plan.selectedAccommodation.Some? ==>
      AccommodationLineWith(plan.selectedAccommodation.value, plan, parseDate, PriceKey)
        == Num(plan.selectedAccommodation.value.price * Nights(plan, parseDate))
    ensures FacilityLineWith(plan, parseDate, PriceKey)
         == Num(DailyTotal(plan.selectedFacilities) * Nights(plan, parseDate))
    ensures Num(CorrectedTotalCost(plan, parseDate))
         == Plus(if plan.selectedAccommodation.Some?
                 then AccommodationLineWith(plan.selectedAccommodation.value, plan, parseDate, PriceKey) else Num(0),
                 if plan.selectedFacilities != [] then FacilityLineWith(plan, parseDate, PriceKey) else Num(0))
  {
    var d := Nights(plan, parseDate);
    var fs := plan.selectedFacilities;
    SidebarAddsUpToTotal(plan, parseDate, PriceKey, PriceKey);
    if plan.selectedAccommodation.Some? {
      NightlyPriceIsNumber(plan.selectedAccommodation.value);
    }
    PricedSumFromZero(fs);
    PricedFacilityCosts(if plan.selectedAccommodation.Some? then plan.selectedAccommodation.value.price * d else 0, fs, d, DailyTotal(fs));
  }

  /** `handleSearchAccommodations()`: with no destination the filters stay as
      they were; otherwise the city is the destination, the type is the
      chosen one with "any" read as no type, and a price range, when given,
      becomes the maximum price through `parsePrice` (the page's `parseFloat`). */
  function SearchAccommodations(plan: TripPlan, filters: AccommodationFilters, parsePrice: string -> int): (r: AccommodationFilters)
    ensures plan.destination == "" ==> r == filters
    ensures plan.destination != "" ==>
      && r.city == plan.destination
      && r.kind != "any"
      && (plan.accommodationType == "any" ==> r.kind == "")
      && (plan.accommodationType != "any" ==> r.kind == plan.accommodationType)
      && (r.maxPrice.Some? <==> plan.priceRange != "")
      && (plan.priceRange != "" ==> r.maxPrice.value == parsePrice(plan.priceRange))
  {
    if plan.destination == "" then filters
    else
      AccommodationFilters(
        plan.destination,
        if plan.accommodationType == "any" then "" else plan.accommodationType,
        if plan.priceRange != "" then Some(parsePrice(plan.priceRange)) else None)
  }

  /** `handleSearchFacilities()` with `userSport` the signed-in user's sport:
      with no destination the filters stay as they were; otherwise the city is
      the destination, the type is cleared, and the sports are the user's one
      sport, or none when there is no user or no sport. */
  function SearchFacilities(plan: TripPlan, filters: FacilityFilters, userSport: Option<string>): (r: FacilityFilters)
    ensures plan.destination == "" ==> r == filters
    ensures plan.destination != "" ==>
      && r.city == plan.destination
      && r.kind == ""
      && |r.sports| <= 1
      && (|r.sports| == 1 <==> userSport.Some? && userSport.value != "")
      && (|r.sports| == 1 ==> r.sports[0] == userSport.value)
  {
    if plan.destination == "" then filters
    else
      FacilityFilters(
        plan.destination,
        "",
        if userSport.Some? && userSport.value != "" then [userSport.value] else [])
  }

  /** A search with a destination always enables its query, whatever the
      previous filters were; a search without one leaves the queries exactly as
      enabled as before. */
  lemma SearchEnablesQueries(plan: TripPlan, a: AccommodationFilters, f: FacilityFilters,
                             parsePrice: string -> int, userSport: Option<string>)
    ensures plan.destination != "" ==>
      SearchAccommodations(plan, a, parsePrice).city != "" && SearchFacilities(plan, f, userSport).city != ""
    ensures plan.destination == "" ==>
      SearchAccommodations(plan, a, parsePrice).city == a.city && SearchFacilities(plan, f, userSport).city == f.city
  {
  }

  /** With a destination the searches overwrite the previous filters
      completely: two searches from different earlier filters agree, and a
      repeated search changes nothing. */
  lemma SearchOverwritesFilters(plan: TripPlan, a1: AccommodationFilters, a2: AccommodationFilters,
                                f1: FacilityFilters, f2: FacilityFilters,
                                parsePrice: string -> int, userSport: Option<string>)
    requires plan.destination != ""
    ensures SearchAccommodations(plan, a1, parsePrice) == SearchAccommodations(plan, a2, parsePrice)
    ensures SearchFacilities(plan, f1, userSport) == SearchFacilities(plan, f2, userSport)
    ensures SearchAccommodations(plan, SearchAccommodations(plan, a1, parsePrice), parsePrice)
         == SearchAccommodations(plan, a1, parsePrice)
    ensures SearchFacilities(plan, SearchFacilities(plan, f1, userSport), userSport)
         == SearchFacilities(plan, f1, userSport)
  {
  }
}

=== FILE: recent_searches.dfy ===
/** The most-recent-first search history that both client storage helpers keep. */
module RecentSearches {
  import Seqs

  /** How many searches a history keeps. */
  const Limit := 10

  /** The filter `h => h !== q`. */
  function Other<T(==)>(q: T): T -> bool
  {
    h => h != q
  }

  /** `history.filter(h => h !== q)`, then `unshift(q)`, then `slice(0, 10)`:
      the new search first, its older copies dropped, at most `Limit` entries,
      then the most recent other searches in their previous order. */
  function AddRecent<T(==)>(history: seq<T>, q: T): (r: seq<T>)
    ensures 1 <= |r| <= Limit && r[0] == q
    ensures forall i :: 1 <= i < |r| ==> r[i] != q && r[i] in history
    ensures Seqs.Subseq(r[1..], history)
    ensures |history| < Limit ==> forall i :: 0 <= i < |history| ==> history[i] in r
    ensures r[1..] <= Seqs.Filter(history, Other(q))
    ensures var others := Seqs.Filter(history, Other(q));
      |r| == if |others| < Limit then 1 + |others| else Limit
  {
    var others := Seqs.Filter(history, Other(q));
    var n := if |others| < Limit then |others| else Limit - 1;
    var r := [q] + others[..n];
    assert r[1..] == others[..n];
    assert forall i :: 1 <= i < |r| ==> r[i] == others[i - 1];
    Seqs.FilterSubseq(history, Other(q));
    Seqs.SubseqPrefix(others, history, n);
    assert |history| < Limit ==> forall i :: 0 <= i < |history| ==> history[i] in r by {
      if |history| < Limit {
        assert others[..n] == others;
      }
    }
    r
  }

  /** Searching for the latest search again changes nothing. */
  lemma AddRecentIdempotent<T>(history: seq<T>, q: T)
    ensures AddRecent(AddRecent(history, q), q) == AddRecent(history, q)
  {
    var r := AddRecent(history, q);
    var tail := r[1..];
    assert r == [q] + tail;
    Seqs.FilterAppend([q], tail, Other(q));
    Seqs.FilterKeepsAll(tail, Other(q));
    Seqs.FilterDropsAll([q], Other(q));
    assert Seqs.Filter(r, Other(q)) == tail;
    assert tail[..|tail|] == tail;
  }

  /** A history without duplicates stays without duplicates. */
  lemma AddRecentKeepsDistinct<T>(history: seq<T>, q: T)
    requires Seqs.NoDup(history)
    ensures Seqs.NoDup(AddRecent(history, q))
  {
    var others := Seqs.Filter(history, Other(q));
    Seqs.FilterNoDup(history, Other(q));
    var r := AddRecent(history, q);
    forall i, j | 0 <= i < j < |r| ensures r[i] != r[j] {
      if i > 0 {
        assert r[i] == others[i - 1] && r[j] == others[j - 1];
      }
    }
  }
}

=== FILE: route_properties.dfy ===
/** Properties of the REST handlers that relate several requests. */
module RouteProperties {
  import opened Wrappers
  import opened JsonValues
  import opened Schema
  import opened MemStorage
  import opened Routes
  import Tables
  import StorageProperties

  /** bcrypt's own promise: a password matches the hash made from it. */
  predicate MatchesOwnHash(c: Crypto, password: string)
  {
    c.compare(password, c.hash(password))
  }

  /** Every stored user's `id` column equals the key it is stored under. Creates
      keep this; a `PUT /api/user/:id` whose body carries `id` can break it. */
  ghost predicate UserIdsMatchKeys(r: Repo)
  {
    forall k :: k in r.users.rows ==> r.users.rows[k].id == k
  }

  /** When no earlier row has the email, the row just appended is the one found. */
  lemma FindsAppendedUser(r: Repo, r1: Repo, u: User)
    requires Tables.Values(r1.users) == Tables.Values(r.users) + [u]
    requires GetUserByEmail(r, u.email).None?
    ensures GetUserByEmail(r1, u.email) == Some(u)
  {
    var old_ := Tables.Values(r.users);
    var all := Tables.Values(r1.users);
    assert all[|old_|] == u;
    var found := GetUserByEmail(r1, u.email);
    assert found.Some?;
    var i :| 0 <= i < |all| && all[i] == found.value &&
      forall j :: 0 <= j < i ==> all[j].email != u.email;
  }

  /** A user who registers can then log in with the same email and password,
      and login answers with the same user register did. */
  lemma RegisterThenLogin(r: Repo, ins: InsertUser, c: Crypto, now: int)
    requires Valid(r)
    requires GetUserByEmail(r, ins.email).None?
    requires MatchesOwnHash(c, ins.password)
    ensures var (r1, reg) := Register(r, Some(ins), c, now);
            var (_, log) := Login(r1, Some(ins.email), Some(ins.password), c);
            reg.status == 200 && log.status == 200 && log.body == reg.body
  {
    var (r1, u) := CreateUser(r, ins.(password := c.hash(ins.password)), now);
    assert Register(r, Some(ins), c, now) == (r1, Response(200, Data(AuthBody(Strip(u)))));
    FindsAppendedUser(r, r1, u);
  }

  /** Once an email is registered, registering it again is refused with 400
      "User already exists" and changes nothing. */
  lemma RegisterTwiceRejected(r: Repo, a: InsertUser, b: InsertUser, c: Crypto, now: int, later: int)
    requires Valid(r)
    requires a.email == b.email
    requires GetUserByEmail(r, a.email).None?
    ensures var r1 := Register(r, Some(a), c, now).0;
            Register(r1, Some(b), c, later) == (r1, Response(400, Message("User already exists")))
  {
    var (r1, u) := CreateUser(r, a.(password := c.hash(a.password)), now);
    assert Register(r, Some(a), c, now).0 == r1;
    FindsAppendedUser(r, r1, u);
  }

  /** An unknown email and a wrong password give the same response, so a client
      cannot tell which emails are registered. */
  lemma LoginFailuresLookAlike(r: Repo, e1: string, p1: string, e2: string, p2: string, c: Crypto)
    requires GetUserByEmail(r, e1).None?
    requires GetUserByEmail(r, e2).Some? && !c.compare(p2, GetUserByEmail(r, e2).value.password)
    ensures Login(r, Some(e1), Some(p1), c) == Login(r, Some(e2), Some(p2), c)
    ensures Login(r, Some(e1), Some(p1), c).1 == Response(401, Message("Invalid credentials"))
  {
  }

  /** The user found by email is stored under its own id. */
  lemma StoredUserIsKeyed(r: Repo, email: string)
    requires Valid(r) && UserIdsMatchKeys(r)
    requires GetUserByEmail(r, email).Some?
    ensures var u := GetUserByEmail(r, email).value;
            u.id in r.users.rows && r.users.rows[u.id] == u
  {
    var u := GetUserByEmail(r, email).value;
    var all := Tables.Values(r.users);
    var i :| 0 <= i < |all| && all[i] == u && forall j :: 0 <= j < i ==> all[j].email != email;
    assert r.users.rows[Tables.Keys(r.users)[i]] == u;
  }

  /** A successful login stores `isAuthenticated: true` on the user's row and
      leaves its email and password hash as they were. */
  lemma LoginMarksRow(r: Repo, email: string, password: string, c: Crypto, u: User)
    requires Valid(r) && UserIdsMatchKeys(r)
    requires GetUserByEmail(r, email) == Some(u) && c.compare(password, u.password)
    ensures var (r1, res) := Login(r, Some(email), Some(password), c);
            && res.status == 200
            && u.id in r1.users.rows
            && "isAuthenticated" in r1.users.rows[u.id].extra
            && r1.users.rows[u.id].extra["isAuthenticated"] == JBool(true)
            && r1.users.rows[u.id].password == u.password
            && r1.users.rows[u.id].email == email
            && r1.users.next == r.users.next
  {
    StoredUserIsKeyed(r, email);
    assert Login(r, Some(email), Some(password), c).0 == UpdateUser(r, u.id, MarkAuthenticated).0;
    MarkAuthenticatedRow(r, u);
  }

  /** Merging `{isAuthenticated: true}` into a stored row sets that property
      and keeps every column. */
  lemma MarkAuthenticatedRow(r: Repo, u: User)
    requires u.id in r.users.rows && r.users.rows[u.id] == u
    ensures var r1 := UpdateUser(r, u.id, MarkAuthenticated).0;
            && u.id in r1.users.rows
            && "isAuthenticated" in r1.users.rows[u.id].extra
            && r1.users.rows[u.id].extra["isAuthenticated"] == JBool(true)
            && r1.users.rows[u.id].password == u.password
            && r1.users.rows[u.id].email == u.email
            && r1.users.next == r.users.next
  {
    var (r1, m) := UpdateUser(r, u.id, MarkAuthenticated);
    assert m == Some(MergeUser(u, MarkAuthenticated));
    assert "isAuthenticated" !in UserColumns;
  }

  /** A request whose body the schema rejects never changes the repository. */
  lemma RejectedBodiesChangeNothing(r: Repo, c: Crypto, now: int)
    ensures Register(r, None, c, now).0 == r
    ensures PostEventRoute(r, None).0 == r
    ensures PostTripRoute(r, None).0 == r
    ensures PostReminderRoute(r, None).0 == r
  {
  }

  /** The list routes ignore their query strings entirely. */
  lemma ListRoutesIgnoreQuery(r: Repo, q1: map<string, string>, q2: map<string, string>)
    ensures ListEventsRoute(r, q1) == ListEventsRoute(r, q2)
    ensures ListAccommodationsRoute(r, q1) == ListAccommodationsRoute(r, q2)
    ensures ListFacilitiesRoute(r, q1) == ListFacilitiesRoute(r, q2)
  {
  }

  /** A trip created through `POST /api/trips` is what `GET /api/trips/:id`
      answers for the id it was given. */
  lemma PostedTripIsFetched(r: Repo, ins: InsertTrip)
    ensures var (r1, res) := PostTripRoute(r, Some(ins));
            res.body.Data? && GetTripRoute(r1, res.body.value.id) == Response(200, res.body)
  {
  }

  /** An event created through `POST /api/events` is listed last by
      `GET /api/events`, after every event listed before, whatever the query. */
  lemma PostedEventIsListedLast(r: Repo, ins: InsertEvent, q: map<string, string>)
    requires Valid(r)
    ensures var (r1, res) := PostEventRoute(r, Some(ins));
            res.body.Data? &&
            ListEventsRoute(r1, q).body.value == ListEventsRoute(r, q).body.value + [res.body.value]
  {
  }

  /** A trip created through `POST /api/trips` is listed last by
      `GET /api/trips/user/:userId` for its owner, and no other user's list
      changes. */
  lemma PostedTripIsListedLast(r: Repo, ins: InsertTrip, userId: int)
    requires Valid(r)
    ensures var (r1, res) := PostTripRoute(r, Some(ins));
            res.body.Data? &&
            GetUserTripsRoute(r1, userId).body.value
              == GetUserTripsRoute(r, userId).body.value + (if ins.userId == userId then [res.body.value] else [])
  {
    StorageProperties.CreateTripListsLast(r, ins, userId);
  }

  /** A reminder created through `POST /api/reminders` is listed last by
      `GET /api/reminders/user/:userId` for its owner, and no other user's list
      changes. */
  lemma PostedReminderIsListedLast(r: Repo, ins: InsertReminder, userId: int)
    requires Valid(r)
    ensures var (r1, res) := PostReminderRoute(r, Some(ins));
            res.body.Data? &&
            GetUserRemindersRoute(r1, userId).body.value
              == GetUserRemindersRoute(r, userId).body.value + (if ins.userId == userId then [res.body.value] else [])
  {
    StorageProperties.CreateReminderListsLast(r, ins, userId);
  }
}

=== FILE: routes.dfy ===
/** The REST handlers over the repository. Each handler is one atomic
    transition: it returns the repository after the request and the response
    (status code and JSON body). Schema validation is abstracted: a handler
    receives the insert shape the schema parsed, or `None` when parsing threw.
    bcrypt is the pair of functions in `Crypto`. */
module Routes {
  import opened Wrappers
  import opened JsonValues
  import opened Schema
  import opened MemStorage
  import Tables
  import Seqs

  /** A JSON body: the data the route returns, or `{ message }`. */
  datatype Reply<T> = Data(value: T) | Message(text: string)

  datatype Response<T> = Response(status: int, body: Reply<T>)

  /** `{ user: ... }`, the body of a successful register or login. */
  datatype AuthBody = AuthBody(user: PublicUser)

  /** `bcrypt.hash(password, 10)` and `bcrypt.compare(password, hash)`, uninterpreted. */
  datatype Crypto = Crypto(hash: string -> string, compare: (string, string) -> bool)

  /** `const { password, ...rest } = user`: every key of the row except `password`. */
  function Strip(u: User): (p: PublicUser)
    ensures p.id == u.id && p.email == u.email && p.firstName == u.firstName && p.lastName == u.lastName
    ensures p.sport == u.sport && p.level == u.level && p.goals == u.goals && p.preferences == u.preferences
    ensures p.createdAt == u.createdAt
    ensures "password" !in p.extra && forall k :: k in p.extra <==> k in u.extra && k != "password"
  {
    PublicUser(u.id, u.email, u.firstName, u.lastName, u.sport, u.level, u.goals, u.preferences,
      u.createdAt, u.extra - {"password"})
  }

  /** The response of every point lookup: 404 with `<what> not found` when the
      repository has no row, the row with 200 otherwise. */
  function Lookup<T>(row: Option<T>, what: string): (res: Response<T>)
    ensures res.status == 404 <==> row.None?
    ensures row.None? ==> res.body == Message(what + " not found")
    ensures row.Some? ==> res == Response(200, Data(row.value))
  {
    match row
    case None => Response(404, Message(what + " not found"))
    case Some(v) => Response(200, Data(v))
  }

  // ------------------------------------------------------------------- users

  /** `POST /api/auth/register`. A body the schema rejects gives 400 "Invalid user
      data"; an email already taken gives 400 "User already exists" and creates
      nothing; otherwise the user is created with the hashed password and
      returned without it. */
  function Register(r: Repo, body: Option<InsertUser>, crypto: Crypto, now: int): (res: (Repo, Response<AuthBody>))
    ensures body.None? ==> res == (r, Response(400, Message("Invalid user data")))
    ensures body.Some? && GetUserByEmail(r, body.value.email).Some? ==>
      res == (r, Response(400, Message("User already exists")))
    ensures res.1.status == 200 <==> body.Some? && GetUserByEmail(r, body.value.email).None?
    ensures res.1.status != 200 ==> res.0 == r
    ensures res.1.status == 200 ==>
      && res.0 == r.(users := res.0.users)
      && res.0.users.next == r.users.next + 1
      && r.users.next in res.0.users.rows
      && res.0.users.rows[r.users.next].password == crypto.hash(body.value.password)
      && res.0.users.rows[r.users.next].email == body.value.email
      && res.1.body == Data(AuthBody(Strip(res.0.users.rows[r.users.next])))
    ensures res.1.status == 200 ==>
      var created := CreateUser(r, body.value.(password := crypto.hash(body.value.password)), now);
      res.0 == created.0 && res.1.body == Data(AuthBody(Strip(created.1)))
    ensures Valid(r) ==> Valid(res.0)
  {
    match body
    case None => (r, Response(400, Message("Invalid user data")))
    case Some(data) =>
      if GetUserByEmail(r, data.email).Some? then (r, Response(400, Message("User already exists")))
      else
        var (r', u) := CreateUser(r, data.(password := crypto.hash(data.password)), now);
        (r', Response(200, Data(AuthBody(Strip(u)))))
  }

  /** The body login merges into the user row: `{ isAuthenticated: true }`. */
  const MarkAuthenticated: UserPatch :=
    UserPatch(Keep, Keep, Keep, Keep, Keep, Keep, Keep, Keep, Keep, Keep, map["isAuthenticated" := JBool(true)])

  /** `POST /api/auth/login`. An unknown (or missing) email and a wrong password
      both give 401 "Invalid credentials"; a missing password for a known email
      makes bcrypt throw, giving 500. On success the row is marked
      `isAuthenticated`, but the response carries the user as read before. */
  function Login(r: Repo, email: Option<string>, password: Option<string>, crypto: Crypto): (res: (Repo, Response<AuthBody>))
    ensures var found := if email.Some? then GetUserByEmail(r, email.value) else None;
      && (found.None? ==> res == (r, Response(401, Message("Invalid credentials"))))
      && (found.Some? && password.None? ==> res == (r, Response(500, Message("Authentication failed"))))
      && (found.Some? && password.Some? && !crypto.compare(password.value, found.value.password) ==>
            res == (r, Response(401, Message("Invalid credentials"))))
      && (res.1.status == 200 <==>
            found.Some? && password.Some? && crypto.compare(password.value, found.value.password))
      && (res.1.status == 200 ==>
            res.1.body == Data(AuthBody(Strip(found.value))) &&
            res.0 == UpdateUser(r, found.value.id, MarkAuthenticated).0)
  {
    var found := if email.Some? then GetUserByEmail(r, email.value) else None;
    match found
    case None => (r, Response(401, Message("Invalid credentials")))
    case Some(u) =>
      if password.None? then (r, Response(500, Message("Authentication failed")))
      else if !crypto.compare(password.value, u.password) then (r, Response(401, Message("Invalid credentials")))
      else
        var (r', _) := UpdateUser(r, u.id, MarkAuthenticated);
        (r', Response(200, Data(AuthBody(Strip(u)))))
  }

  /** `GET /api/user/:id`: 404 "User not found", or the user without its password. */
  function GetUserRoute(r: Repo, id: int): (res: Response<PublicUser>)
    ensures res.status == 404 <==> GetUser(r, id).None?
    ensures res.status == 404 ==> res.body == Message("User not found")
    ensures res.status != 404 ==> res == Response(200, Data(Strip(r.users.rows[id])))
  {
    match GetUser(r, id)
    case None => Response(404, Message("User not found"))
    case Some(u) => Response(200, Data(Strip(u)))
  }

  /** `PUT /api/user/:id`: the raw body goes to `updateUser`; 404 "User not found"
      when the id is absent, otherwise the merged user without its password. */
  function PutUserRoute(r: Repo, id: int, p: UserPatch): (res: (Repo, Response<PublicUser>))
    ensures res.1.status == 404 <==> id !in r.users.rows
    ensures res.1.status == 404 ==> res.0 == r && res.1.body == Message("User not found")
    ensures res.1.status != 404 ==>
      res.1 == Response(200, Data(Strip(MergeUser(r.users.rows[id], p)))) &&
      res.0 == UpdateUser(r, id, p).0
  {
    var (r', u) := UpdateUser(r, id, p);
    match u
    case None => (r', Response(404, Message("User not found")))
    case Some(v) => (r', Response(200, Data(Strip(v))))
  }

  // ------------------------------------------------------------------ events

  /** `GET /api/events`: the route hands its query to `getEvents`, which takes no
      parameters, so every event is returned whatever the query. */
  function ListEventsRoute(r: Repo, query: map<string, string>): (res: Response<seq<Event>>)
    ensures res.status == 200 && res.body.Data?
    ensures |res.body.value| == |Tables.Keys(r.events)|
    ensures forall i :: 0 <= i < |res.body.value| ==> res.body.value[i] == r.events.rows[Tables.Keys(r.events)[i]]
    ensures Valid(r) ==> forall id :: id in r.events.rows ==> r.events.rows[id] in res.body.value
  {
    Response(200, Data(GetEvents(r)))
  }

  function GetEventRoute(r: Repo, id: int): (res: Response<Event>)
    ensures res.status == 404 <==> id !in r.events.rows
    ensures res.status == 404 ==> res.body == Message("Event not found")
    ensures res.status != 404 ==> res.body == Data(r.events.rows[id])
    ensures id in r.events.rows ==> res == Response(200, Data(r.events.rows[id]))
  {
    Lookup(GetEvent(r, id), "Event")
  }

  /** `POST /api/events`: 400 "Invalid event data" and no change when the body is
      rejected, otherwise 201 with the created event. */
  function PostEventRoute(r: Repo, body: Option<InsertEvent>): (res: (Repo, Response<Event>))
    ensures body.None? ==> res == (r, Response(400, Message("Invalid event data")))
    ensures body.Some? ==>
      res.1.status == 201 && res.0 == CreateEvent(r, body.value).0 &&
      res.1.body == Data(CreateEvent(r, body.value).1)
    ensures body.Some? ==> res.0.events.next == r.events.next + 1
  {
    match body
    case None => (r, Response(400, Message("Invalid event data")))
    case Some(ins) =>
      var (r', e) := CreateEvent(r, ins);
      (r', Response(201, Data(e)))
  }

  // ------------------------------------------------------------------- trips

  function GetUserTripsRoute(r: Repo, userId: int): (res: Response<seq<Trip>>)
    ensures res.status == 200 && res.body.Data?
    ensures forall t :: t in res.body.value <==> t in Tables.Values(r.trips) && t.userId == userId
    ensures Seqs.Subseq(res.body.value, Tables.Values(r.trips))
    ensures |res.body.value| == |Seqs.Positions(Tables.Values(r.trips), TripOf(userId))|
  {
    Response(200, Data(GetUserTrips(r, userId)))
  }

  function GetTripRoute(r: Repo, id: int): (res: Response<Trip>)
    ensures res.status == 404 <==> id !in r.trips.rows
    ensures res.status == 404 ==> res.body == Message("Trip not found")
    ensures res.status != 404 ==> res.body == Data(r.trips.rows[id])
    ensures id in r.trips.rows ==> res == Response(200, Data(r.trips.rows[id]))
  {
    Lookup(GetTrip(r, id), "Trip")
  }

  /** `POST /api/trips`: 400 "Invalid trip data" and no change when the body is
      rejected, otherwise 201 with the created trip. */
  function PostTripRoute(r: Repo, body: Option<InsertTrip>): (res: (Repo, Response<Trip>))
    ensures body.None? ==> res == (r, Response(400, Message("Invalid trip data")))
    ensures body.Some? ==>
      res.1.status == 201 && res.0 == CreateTrip(r, body.value).0 &&
      res.1.body == Data(CreateTrip(r, body.value).1)
    ensures body.Some? ==> res.0.trips.next == r.trips.next + 1
  {
    match body
    case None => (r, Response(400, Message("Invalid trip data")))
    case Some(ins) =>
      var (r', t) := CreateTrip(r, ins);
      (r', Response(201, Data(t)))
  }

  /** `PUT /api/trips/:id`: 404 "Trip not found" when absent, otherwise the merged trip. */
  function PutTripRoute(r: Repo, id: int, p: TripPatch): (res: (Repo, Response<Trip>))
    ensures res.1.status == 404 <==> id !in r.trips.rows
    ensures res.1.status == 404 ==> res.0 == r && res.1.body == Message("Trip not found")
    ensures res.1.status != 404 ==>
      res.1 == Response(200, Data(MergeTrip(r.trips.rows[id], p))) && res.0 == UpdateTrip(r, id, p).0
  {
    var (r', t) := UpdateTrip(r, id, p);
    (r', Lookup(t, "Trip"))
  }

  // ---------------------------------------------- accommodations and facilities

  /** `GET /api/accommodations`: `getAccommodations` takes no parameters, so
      every accommodation is returned whatever the query. */
  function ListAccommodationsRoute(r: Repo, query: map<string, string>): (res: Response<seq<Accommodation>>)
    ensures res.status == 200 && res.body.Data?
    ensures |res.body.value| == |Tables.Keys(r.accommodations)|
    ensures forall i :: 0 <= i < |res.body.value| ==> res.body.value[i] == r.accommodations.rows[Tables.Keys(r.accommodations)[i]]
    ensures Valid(r) ==> forall id :: id in r.accommodations.rows ==> r.accommodations.rows[id] in res.body.value
  {
    Response(200, Data(GetAccommodations(r)))
  }

  function GetAccommodationRoute(r: Repo, id: int): (res: Response<Accommodation>)
    ensures res.status == 404 <==> id !in r.accommodations.rows
    ensures res.status == 404 ==> res.body == Message("Accommodation not found")
    ensures res.status != 404 ==> res.body == Data(r.accommodations.rows[id])
    ensures id in r.accommodations.rows ==> res == Response(200, Data(r.accommodations.rows[id]))
  {
    Lookup(GetAccommodation(r, id), "Accommodation")
  }

  /** `GET /api/training-facilities`: `getTrainingFacilities` takes no
      parameters, so every facility is returned whatever the query. */
  function ListFacilitiesRoute(r: Repo, query: map<string, string>): (res: Response<seq<TrainingFacility>>)
    ensures res.status == 200 && res.body.Data?
    ensures |res.body.value| == |Tables.Keys(r.facilities)|
    ensures forall i :: 0 <= i < |res.body.value| ==> res.body.value[i] == r.facilities.rows[Tables.Keys(r.facilities)[i]]
    ensures Valid(r) ==> forall id :: id in r.facilities.rows ==> r.facilities.rows[id] in res.body.value
  {
    Response(200, Data(GetTrainingFacilities(r)))
  }

  function GetFacilityRoute(r: Repo, id: int): (res: Response<TrainingFacility>)
    ensures res.status == 404 <==> id !in r.facilities.rows
    ensures res.status == 404 ==> res.body == Message("Training facility not found")
    ensures res.status != 404 ==> res.body == Data(r.facilities.rows[id])
    ensures id in r.facilities.rows ==> res == Response(200, Data(r.facilities.rows[id]))
  {
    Lookup(GetTrainingFacility(r, id), "Training facility")
  }

  // --------------------------------------------------------------- reminders

  function GetUserRemindersRoute(r: Repo, userId: int): (res: Response<seq<Reminder>>)
    ensures res.status == 200 && res.body.Data?
    ensures forall x :: x in res.body.value <==> x in Tables.Values(r.reminders) && x.userId == userId
    ensures Seqs.Subseq(res.body.value, Tables.Values(r.reminders))
    ensures |res.body.value| == |Seqs.Positions(Tables.Values(r.reminders), ReminderOf(userId))|
  {
    Response(200, Data(GetUserReminders(r, userId)))
  }

  /** `POST /api/reminders`: 400 "Invalid reminder data" and no change when the
      body is rejected, otherwise 201 with the created reminder. */
  function PostReminderRoute(r: Repo, body: Option<InsertReminder>): (res: (Repo, Response<Reminder>))
    ensures body.None? ==> res == (r, Response(400, Message("Invalid reminder data")))
    ensures body.Some? ==>
      res.1.status == 201 && res.0 == CreateReminder(r, body.value).0 &&
      res.1.body == Data(CreateReminder(r, body.value).1)
    ensures body.Some? ==> res.0.reminders.next == r.reminders.next + 1
  {
    match body
    case None => (r, Response(400, Message("Invalid reminder data")))
    case Some(ins) =>
      var (r', x) := CreateReminder(r, ins);
      (r', Response(201, Data(x)))
  }

  /** `PUT /api/reminders/:id`: 404 "Reminder not found" when absent, otherwise
      the merged reminder. */
  function PutReminderRoute(r: Repo, id: int, p: ReminderPatch): (res: (Repo, Response<Reminder>))
    ensures res.1.status == 404 <==> id !in r.reminders.rows
    ensures res.1.status == 404 ==> res.0 == r && res.1.body == Message("Reminder not found")
    ensures res.1.status != 404 ==>
      res.1 == Response(200, Data(MergeReminder(r.reminders.rows[id], p))) && res.0 == UpdateReminder(r, id, p).0
  {
    var (r', x) := UpdateReminder(r, id, p);
    (r', Lookup(x, "Reminder"))
  }
}

=== FILE: schema.dfy ===
/** The shared table definitions: one row shape per table, the shape a create
    accepts (the row minus the server-generated columns), the shape of a partial
    update body, and the column defaults the schema declares.
    Timestamps are milliseconds since the epoch; a nullable column is an `Option`;
    `jsonb` columns hold `Json`. */
module Schema {
  import opened Wrappers
  import opened JsonValues

  /** `users`: `email` is declared unique. `extra` holds keys outside the table's
      columns that a raw update body merged into the row (login merges
      `isAuthenticated` this way). */
  datatype User = User(
    id: int,
    email: string,
    password: string,
    firstName: string,
    lastName: string,
    sport: Option<string>,
    level: Option<string>,
    goals: Option<Json>,
    preferences: Option<Json>,
    createdAt: Option<int>,
    extra: map<string, Json>)

  /** A user as the API returns it and the client stores it: every key but `password`. */
  datatype PublicUser = PublicUser(
    id: int,
    email: string,
    firstName: string,
    lastName: string,
    sport: Option<string>,
    level: Option<string>,
    goals: Option<Json>,
    preferences: Option<Json>,
    createdAt: Option<int>,
    extra: map<string, Json>)

  /** `InsertUser`: the user columns minus `id` and `createdAt`. */
  datatype InsertUser = InsertUser(
    email: string,
    password: string,
    firstName: string,
    lastName: string,
    sport: Option<string>,
    level: Option<string>,
    goals: Option<Json>,
    preferences: Option<Json>)

  /** The column names of `users`; other keys of an update body land in `extra`. */
  const UserColumns: set<string> :=
    {"id", "email", "password", "firstName", "lastName", "sport", "level", "goals", "preferences", "createdAt"}

  /** A raw `PUT /api/user/:id` body. */
  datatype UserPatch = UserPatch(
    id: Field<int>,
    email: Field<string>,
    password: Field<string>,
    firstName: Field<string>,
    lastName: Field<string>,
    sport: Field<Option<string>>,
    level: Field<Option<string>>,
    goals: Field<Option<Json>>,
    preferences: Field<Option<Json>>,
    createdAt: Field<Option<int>>,
    extra: map<string, Json>)

  /** `events`. `registered` declares default 0. */
  datatype Event = Event(
    id: int,
    title: string,
    description: Option<string>,
    sport: string,
    location: string,
    date: int,
    price: Option<int>,
    difficulty: Option<string>,
    registrationDeadline: Option<int>,
    imageUrl: Option<string>,
    organizer: Option<string>,
    capacity: Option<int>,
    registered: Option<int>)

  /** `InsertEvent`: the event columns minus `id`. */
  datatype InsertEvent = InsertEvent(
    title: string,
    description: Option<string>,
    sport: string,
    location: string,
    date: int,
    price: Option<int>,
    difficulty: Option<string>,
    registrationDeadline: Option<int>,
    imageUrl: Option<string>,
    organizer: Option<string>,
    capacity: Option<int>,
    registered: Option<int>)

  /** `accommodations`. `isAthleteFriendly` declares default false. */
  datatype Accommodation = Accommodation(
    id: int,
    name: string,
    location: string,
    price: int,
    rating: Option<int>,
    amenities: Option<Json>,
    imageUrl: Option<string>,
    description: Option<string>,
    isAthleteFriendly: Option<bool>,
    nearbyFacilities: Option<Json>)

  /** `InsertAccommodation`: the accommodation columns minus `id`. */
  datatype InsertAccommodation = InsertAccommodation(
    name: string,
    location: string,
    price: int,
    rating: Option<int>,
    amenities: Option<Json>,
    imageUrl: Option<string>,
    description: Option<string>,
    isAthleteFriendly: Option<bool>,
    nearbyFacilities: Option<Json>)

  /** `training_facilities`; the `type` column is `kind` here. `status`
      declares default "open". */
  datatype TrainingFacility = TrainingFacility(
    id: int,
    name: string,
    location: string,
    kind: string,
    price: Option<int>,
    amenities: Option<Json>,
    hours: Option<Json>,
    rating: Option<int>,
    distance: Option<string>,
    status: Option<string>)

  /** The keys of an accommodation as `res.json` sends it: its columns. */
  const AccommodationColumns: set<string> :=
    {"id", "name", "location", "price", "rating", "amenities", "imageUrl", "description",
     "isAthleteFriendly", "nearbyFacilities"}

  /** The keys of a training facility as `res.json` sends it: its columns. */
  const FacilityColumns: set<string> :=
    {"id", "name", "location", "type", "price", "amenities", "hours", "rating", "distance", "status"}

  /** A nullable integer column in a JSON body. */
  function NumOrNull(o: Option<int>): Json
  {
    if o.Some? then JNum(o.value) else JNull
  }

  /** A nullable text column in a JSON body. */
  function StrOrNull(o: Option<string>): Json
  {
    if o.Some? then JStr(o.value) else JNull
  }

  /** A nullable `jsonb` column in a JSON body. */
  function JsonOrNull(o: Option<Json>): Json
  {
    if o.Some? then o.value else JNull
  }

  /** `a[key]` on an accommodation as the routes send it: the column's value,
      or nothing for a key that is not a column. */
  function AccommodationField(a: Accommodation, key: string): (r: Option<Json>)
    ensures r.Some? <==> key in AccommodationColumns
  {
    if key == "id" then Some(JNum(a.id))
    else if key == "name" then Some(JStr(a.name))
    else if key == "location" then Some(JStr(a.location))
    else if key == "price" then Some(JNum(a.price))
    else if key == "rating" then Some(NumOrNull(a.rating))
    else if key == "amenities" then Some(JsonOrNull(a.amenities))
    else if key == "imageUrl" then Some(StrOrNull(a.imageUrl))
    else if key == "description" then Some(StrOrNull(a.description))
    else if key == "isAthleteFriendly" then
      Some(if a.isAthleteFriendly.Some? then JBool(a.isAthleteFriendly.value) else JNull)
    else if key == "nearbyFacilities" then Some(JsonOrNull(a.nearbyFacilities))
    else None
  }

  /** `f[key]` on a training facility as the routes send it: the column's
      value, or nothing for a key that is not a column. */
  function FacilityField(f: TrainingFacility, key: string): (r: Option<Json>)
    ensures r.Some? <==> key in FacilityColumns
  {
    if key == "id" then Some(JNum(f.id))
    else if key == "name" then Some(JStr(f.name))
    else if key == "location" then Some(JStr(f.location))
    else if key == "type" then Some(JStr(f.kind))
    else if key == "price" then Some(NumOrNull(f.price))
    else if key == "amenities" then Some(JsonOrNull(f.amenities))
    else if key == "hours" then Some(JsonOrNull(f.hours))
    else if key == "rating" then Some(NumOrNull(f.rating))
    else if key == "distance" then Some(StrOrNull(f.distance))
    else if key == "status" then Some(StrOrNull(f.status))
    else None
  }

  /** An accommodation as the accommodation routes send it and the client parses
      it: one key per column, `null` for an absent value. */
  function AccommodationJson(a: Accommodation): (j: Json)
    ensures j.JObj? && j.fields.Keys == AccommodationColumns
    ensures j.fields["id"] == JNum(a.id) && j.fields["price"] == JNum(a.price)
  {
    JObj(map[
      "id" := JNum(a.id), "name" := JStr(a.name), "location" := JStr(a.location),
      "price" := JNum(a.price), "rating" := NumOrNull(a.rating),
      "amenities" := JsonOrNull(a.amenities), "imageUrl" := StrOrNull(a.imageUrl),
      "description" := StrOrNull(a.description),
      "isAthleteFriendly" := if a.isAthleteFriendly.Some? then JBool(a.isAthleteFriendly.value) else JNull,
      "nearbyFacilities" := JsonOrNull(a.nearbyFacilities)])
  }

  /** A training facility as the facility routes send it and the client parses
      it: one key per column (`kind` under `type`), `null` for an absent value. */
  function FacilityJson(f: TrainingFacility): (j: Json)
    ensures j.JObj? && j.fields.Keys == FacilityColumns
    ensures j.fields["id"] == JNum(f.id) && j.fields["price"] == NumOrNull(f.price)
  {
    JObj(map[
      "id" := JNum(f.id), "name" := JStr(f.name), "location" := JStr(f.location),
      "type" := JStr(f.kind), "price" := NumOrNull(f.price),
      "amenities" := JsonOrNull(f.amenities), "hours" := JsonOrNull(f.hours),
      "rating" := NumOrNull(f.rating), "distance" := StrOrNull(f.distance),
      "status" := StrOrNull(f.status)])
  }
  /** Reading a field agrees with reading the serialised record. */
  lemma AccommodationFieldIsProp(a: Accommodation, key: string)
    ensures AccommodationField(a, key) == Prop(AccommodationJson(a), key)
  {
  }

  lemma FacilityFieldIsProp(f: TrainingFacility, key: string)
    ensures FacilityField(f, key) == Prop(FacilityJson(f), key)
  {
  }


  /** `InsertTrainingFacility`: the facility columns minus `id`. */
  datatype InsertTrainingFacility = InsertTrainingFacility(
    name: string,
    location: string,
    kind: string,
    price: Option<int>,
    amenities: Option<Json>,
    hours: Option<Json>,
    rating: Option<int>,
    distance: Option<string>,
    status: Option<string>)

  /** `trips`: `userId` and `eventId` are plain integers with no reference
      constraint; `accommodationId` is nullable; `status` declares default "planning". */
  datatype Trip = Trip(
    id: int,
    userId: int,
    eventId: int,
    accommodationId: Option<int>,
    startDate: int,
    endDate: int,
    status: Option<string>,
    itinerary: Option<Json>,
    notes: Option<string>,
    extra: map<string, Json>)

  /** `InsertTrip`: the trip columns minus `id`. */
  datatype InsertTrip = InsertTrip(
    userId: int,
    eventId: int,
    accommodationId: Option<int>,
    startDate: int,
    endDate: int,
    status: Option<string>,
    itinerary: Option<Json>,
    notes: Option<string>)

  const TripColumns: set<string> :=
    {"id", "userId", "eventId", "accommodationId", "startDate", "endDate", "status", "itinerary", "notes"}

  /** A raw `PUT /api/trips/:id` body. */
  datatype TripPatch = TripPatch(
    id: Field<int>,
    userId: Field<int>,
    eventId: Field<int>,
    accommodationId: Field<Option<int>>,
    startDate: Field<int>,
    endDate: Field<int>,
    status: Field<Option<string>>,
    itinerary: Field<Option<Json>>,
    notes: Field<Option<string>>,
    extra: map<string, Json>)

  /** `progress`: `date` declares default now. */
  datatype Progress = Progress(
    id: int,
    userId: int,
    date: Option<int>,
    workoutType: Option<string>,
    duration: Option<int>,
    distance: Option<int>,
    calories: Option<int>,
    notes: Option<string>,
    metrics: Option<Json>)

  /** `InsertProgress`: the progress columns minus `id`. */
  datatype InsertProgress = InsertProgress(
    userId: int,
    date: Option<int>,
    workoutType: Option<string>,
    duration: Option<int>,
    distance: Option<int>,
    calories: Option<int>,
    notes: Option<string>,
    metrics: Option<Json>)

  /** `reminders`; the `type` column is `kind` here. `isCompleted` declares
      default false and `priority` default "medium". */
  datatype Reminder = Reminder(
    id: int,
    userId: int,
    kind: string,
    title: string,
    message: string,
    dueDate: Option<int>,
    isCompleted: Option<bool>,
    priority: Option<string>,
    extra: map<string, Json>)

  /** `InsertReminder`: the reminder columns minus `id`. */
  datatype InsertReminder = InsertReminder(
    userId: int,
    kind: string,
    title: string,
    message: string,
    dueDate: Option<int>,
    isCompleted: Option<bool>,
    priority: Option<string>)

  const ReminderColumns: set<string> :=
    {"id", "userId", "type", "title", "message", "dueDate", "isCompleted", "priority"}

  /** A raw `PUT /api/reminders/:id` body. */
  datatype ReminderPatch = ReminderPatch(
    id: Field<int>,
    userId: Field<int>,
    kind: Field<string>,
    title: Field<string>,
    message: Field<string>,
    dueDate: Field<Option<int>>,
    isCompleted: Field<Option<bool>>,
    priority: Field<Option<string>>,
    extra: map<string, Json>)

  /** The defaults the table definitions declare. The in-memory repository does
      not apply them. */
  const DefaultRegistered: int := 0
  const DefaultAthleteFriendly: bool := false
  const DefaultFacilityStatus: string := "open"
  const DefaultTripStatus: string := "planning"
  const DefaultReminderCompleted: bool := false
  const DefaultReminderPriority: string := "medium"

  /** `value || null`: a present value survives only when JavaScript finds it
      truthy. */
  function OrNull<T>(o: Option<T>, truthy: T -> bool): (r: Option<T>)
    ensures r.Some? <==> o.Some? && truthy(o.value)
    ensures r.Some? ==> r == o
  {
    if o.Some? && truthy(o.value) then o else None
  }

  predicate StrTruthy(s: string) { s != "" }
  predicate IntTruthy(n: int) { n != 0 }
  predicate BoolTruthy(b: bool) { b }
}

=== FILE: seqs.dfy ===
/** The JavaScript array operations the model relies on: `filter`, `findIndex`
    and a stable ascending sort by an integer key. */
module Seqs {

  /** `s.filter(p)`: the elements that pass `p`, in their original order. */
  function Filter<T>(s: seq<T>, p: T -> bool): (r: seq<T>)
    ensures |r| <= |s|
    ensures forall i :: 0 <= i < |r| ==> r[i] in s && p(r[i])
    ensures forall i :: 0 <= i < |s| && p(s[i]) ==> s[i] in r
    decreases |s|
  {
    if |s| == 0 then []
    else (if p(s[0]) then [s[0]] else []) + Filter(s[1..], p)
  }

  /** Filtering distributes over concatenation: the kept elements of each part
      appear in the order of the parts. */
  lemma {:induction false} FilterAppend<T>(a: seq<T>, b: seq<T>, p: T -> bool)
    ensures Filter(a + b, p) == Filter(a, p) + Filter(b, p)
    decreases |a|
  {
    if |a| == 0 {
      assert a + b == b;
    } else {
      assert (a + b)[1..] == a[1..] + b;
      FilterAppend(a[1..], b, p);
    }
  }

  /** When every element passes, filtering returns the sequence itself. */
  lemma {:induction false} FilterKeepsAll<T>(s: seq<T>, p: T -> bool)
    requires forall i :: 0 <= i < |s| ==> p(s[i])
    ensures Filter(s, p) == s
    decreases |s|
  {
    if |s| > 0 {
      FilterKeepsAll(s[1..], p);
    }
  }

  /** When no element passes, filtering returns the empty sequence. */
  lemma {:induction false} FilterDropsAll<T>(s: seq<T>, p: T -> bool)
    requires forall i :: 0 <= i < |s| ==> !p(s[i])
    ensures Filter(s, p) == []
    decreases |s|
  {
    if |s| > 0 {
      FilterDropsAll(s[1..], p);
    }
  }

  /** Two filters applied in a row keep exactly what one conjoined filter keeps,
      so the order in which independent filters run does not matter. */
  lemma {:induction false} FilterFilter<T>(s: seq<T>, p: T -> bool, q: T -> bool)
    ensures Filter(Filter(s, p), q) == Filter(s, x => p(x) && q(x))
    ensures Filter(Filter(s, p), q) == Filter(Filter(s, q), p)
    decreases |s|
  {
    if |s| > 0 {
      FilterFilter(s[1..], p, q);
      var head := if p(s[0]) then [s[0]] else [];
      FilterAppend(head, Filter(s[1..], p), q);
      var head' := if q(s[0]) then [s[0]] else [];
      FilterAppend(head', Filter(s[1..], q), p);
    }
  }

  /** The positions of `s` whose element passes `p`. */
  function Positions<T>(s: seq<T>, p: T -> bool): set<int>
  {
    set i | 0 <= i < |s| && p(s[i])
  }

  /** A filter keeps exactly one element per passing position, in order: the
      result is a subsequence with as many elements as there are passing
      positions. Together with "every kept element passes" this pins the result
      down. */
  lemma FilterSelects<T>(s: seq<T>, p: T -> bool)
    ensures Subseq(Filter(s, p), s)
    ensures |Filter(s, p)| == |Positions(s, p)|
  {
    FilterSubseq(s, p);
    FilterCountsPositions(s, p);
  }

  /** The filter is the only sequence with those three properties: a
      subsequence of `s` whose elements all pass `p` and whose length is the
      number of passing positions is `Filter(s, p)`. */
  lemma FilterUnique<T>(r: seq<T>, s: seq<T>, p: T -> bool)
    requires Subseq(r, s) && (forall i :: 0 <= i < |r| ==> p(r[i]))
    requires |r| == |Positions(s, p)|
    ensures r == Filter(s, p)
  {
    FilterCountsPositions(s, p);
    SelectionIsFilter(r, s, p);
  }

  /** A passing subsequence as long as the filter is the filter. */
  lemma {:induction false} SelectionIsFilter<T>(r: seq<T>, s: seq<T>, p: T -> bool)
    requires Subseq(r, s) && (forall i :: 0 <= i < |r| ==> p(r[i]))
    requires |r| == |Filter(s, p)|
    ensures r == Filter(s, p)
    decreases |s|
  {
    if |r| > 0 {
      if r[0] == s[0] {
        assert Filter(s, p) == [s[0]] + Filter(s[1..], p);
        SelectionIsFilter(r[1..], s[1..], p);
      } else if p(s[0]) {
        SelectionAtMostFilter(r, s[1..], p);
        assert false;
      } else {
        SelectionIsFilter(r, s[1..], p);
      }
    }
  }

  /** A passing subsequence is no longer than the filter. */
  lemma {:induction false} SelectionAtMostFilter<T>(r: seq<T>, s: seq<T>, p: T -> bool)
    requires Subseq(r, s) && (forall i :: 0 <= i < |r| ==> p(r[i]))
    ensures |r| <= |Filter(s, p)|
    decreases |s|
  {
    if |r| > 0 {
      if r[0] == s[0] {
        SelectionAtMostFilter(r[1..], s[1..], p);
      } else {
        SelectionAtMostFilter(r, s[1..], p);
      }
    }
  }

  /** The length of a filter is the number of passing positions. */
  lemma {:induction false} FilterCountsPositions<T>(s: seq<T>, p: T -> bool)
    ensures |Filter(s, p)| == |Positions(s, p)|
    decreases |s|
  {
    if |s| > 0 {
      var n := |s|;
      var init := s[..n - 1];
      FilterCountsPositions(init, p);
      assert s == init + [s[n - 1]];
      FilterAppend(init, [s[n - 1]], p);
      assert |Filter([s[n - 1]], p)| == if p(s[n - 1]) then 1 else 0 by {
        assert [s[n - 1]][1..] == [];
      }
      PositionsSnoc(s, p);
    }
  }

  /** The passing positions of `s` are those of all but its last element, plus
      the last position when the last element passes. */
  lemma PositionsSnoc<T>(s: seq<T>, p: T -> bool)
    requires |s| > 0
    ensures var n := |s|;
            Positions(s, p) == Positions(s[..n - 1], p) + (if p(s[n - 1]) then {n - 1} else {})
  {
    var n := |s|;
    var a := Positions(s[..n - 1], p);
    forall i | i in Positions(s, p) && i < n - 1 ensures i in a {
      assert s[..n - 1][i] == s[i];
    }
  }

  /** Filters that agree on every element keep the same elements. */
  lemma {:induction false} FilterCongruent<T>(s: seq<T>, p: T -> bool, q: T -> bool)
    requires forall i :: 0 <= i < |s| ==> p(s[i]) == q(s[i])
    ensures Filter(s, p) == Filter(s, q)
    decreases |s|
  {
    if |s| > 0 {
      FilterCongruent(s[1..], p, q);
    }
  }

  /** `s.findIndex(p)`: the first index whose element passes, or -1. */
  function FindIndex<T>(s: seq<T>, p: T -> bool): (r: int)
    ensures -1 <= r < |s|
    ensures r == -1 <==> forall i :: 0 <= i < |s| ==> !p(s[i])
    ensures r >= 0 ==> p(s[r]) && forall j :: 0 <= j < r ==> !p(s[j])
    decreases |s|
  {
    if |s| == 0 then -1
    else if p(s[0]) then 0
    else
      var r := FindIndex(s[1..], p);
      if r == -1 then -1 else r + 1
  }

  /** Appending elements does not move the first match of a list that has one. */
  lemma FindIndexAppend<T>(a: seq<T>, b: seq<T>, p: T -> bool)
    requires FindIndex(a, p) != -1
    ensures FindIndex(a + b, p) == FindIndex(a, p)
  {
    var r := FindIndex(a, p);
    assert (a + b)[r] == a[r];
    assert forall j :: 0 <= j < r ==> (a + b)[j] == a[j];
  }

  /** Writing the same element twice at one index is writing it once. */
  lemma UpdateTwice<T>(s: seq<T>, i: nat, x: T)
    requires i < |s|
    ensures s[i := x][i := x] == s[i := x]
  {
  }

  /** Replacing the first match by another element that passes keeps it the
      first match. */
  lemma FindIndexReplace<T>(s: seq<T>, x: T, p: T -> bool)
    requires FindIndex(s, p) != -1 && p(x)
    ensures FindIndex(s[FindIndex(s, p) := x], p) == FindIndex(s, p)
  {
    var r := FindIndex(s, p);
    var t := s[r := x];
    assert t[r] == x;
    assert forall j :: 0 <= j < r ==> t[j] == s[j];
  }

  /** The elements are in ascending order of `key`. */
  ghost predicate SortedBy<T>(s: seq<T>, key: T -> int)
  {
    forall i, j :: 0 <= i < j < |s| ==> key(s[i]) <= key(s[j])
  }

  /** Inserts `x` before the first element whose key is not smaller. */
  function InsertBy<T>(x: T, s: seq<T>, key: T -> int): (r: seq<T>)
    ensures multiset(r) == multiset(s) + multiset{x}
    ensures forall i :: 0 <= i < |r| ==> r[i] == x || r[i] in s
    decreases |s|
  {
    if |s| == 0 then [x]
    else if key(x) <= key(s[0]) then [x] + s
    else
      assert s == [s[0]] + s[1..];
      [s[0]] + InsertBy(x, s[1..], key)
  }

  /** Inserting into an ascending sequence keeps it ascending. */
  lemma {:induction false} InsertBySorted<T>(x: T, s: seq<T>, key: T -> int)
    requires SortedBy(s, key)
    ensures SortedBy(InsertBy(x, s, key), key)
    decreases |s|
  {
    if |s| == 0 {
    } else if key(x) <= key(s[0]) {
      ConsSorted(x, s, key);
    } else {
      var rest := InsertBy(x, s[1..], key);
      InsertBySorted(x, s[1..], key);
      forall i | 0 <= i < |rest| ensures key(s[0]) <= key(rest[i]) {
        if rest[i] != x {
          var k :| 0 <= k < |s| - 1 && s[1..][k] == rest[i];
          assert s[1..][k] == s[k + 1];
        }
      }
      ConsSorted(s[0], rest, key);
    }
  }

  /** An element no larger than any of an ascending sequence can go in front. */
  lemma ConsSorted<T>(h: T, s: seq<T>, key: T -> int)
    requires SortedBy(s, key)
    requires forall i :: 0 <= i < |s| ==> key(h) <= key(s[i])
    ensures SortedBy([h] + s, key)
  {
    var r := [h] + s;
    forall i, j | 0 <= i < j < |r| ensures key(r[i]) <= key(r[j]) {
      assert r[j] == s[j - 1];
      if i > 0 {
        assert r[i] == s[i - 1];
      }
    }
  }

  /** `s.sort((a, b) => key(a) - key(b))`: an ascending rearrangement of `s`;
      elements with equal keys keep their original order. */
  function SortBy<T>(s: seq<T>, key: T -> int): (r: seq<T>)
    ensures multiset(r) == multiset(s)
    ensures SortedBy(r, key)
    decreases |s|
  {
    if |s| == 0 then []
    else
      assert s == [s[0]] + s[1..];
      var rest := SortBy(s[1..], key);
      InsertBySorted(s[0], rest, key);
      InsertBy(s[0], rest, key)
  }

  /** No element occurs twice. */
  ghost predicate NoDup<T>(s: seq<T>)
  {
    forall i, j :: 0 <= i < j < |s| ==> s[i] != s[j]
  }

  /** `a` is `b` with some elements left out: the elements of `a` occur in `b`
      in the same relative order. */
  ghost predicate Subseq<T>(a: seq<T>, b: seq<T>)
    decreases |b|
  {
    |a| == 0 || (|b| > 0 && if a[0] == b[0] then Subseq(a[1..], b[1..]) else Subseq(a, b[1..]))
  }

  /** A filter keeps the survivors in their original relative order. */
  lemma {:induction false} FilterSubseq<T>(s: seq<T>, p: T -> bool)
    ensures Subseq(Filter(s, p), s)
    decreases |s|
  {
    if |s| > 0 {
      FilterSubseq(s[1..], p);
      if p(s[0]) {
        assert Filter(s, p) == [s[0]] + Filter(s[1..], p);
        assert Filter(s, p)[1..] == Filter(s[1..], p);
      } else {
        assert Filter(s, p) == Filter(s[1..], p);
        SubseqDropFront(Filter(s[1..], p), s);
      }
    }
  }

  /** A subsequence of the tail is a subsequence of the whole. */
  lemma {:induction false} SubseqDropFront<T>(a: seq<T>, b: seq<T>)
    requires |b| > 0 && Subseq(a, b[1..])
    ensures Subseq(a, b)
    decreases |b|, 0
  {
    if |a| > 0 && a[0] == b[0] {
      SubseqTail(a, b[1..]);
    }
  }

  /** Dropping the first element of a subsequence keeps it a subsequence. */
  lemma {:induction false} SubseqTail<T>(a: seq<T>, b: seq<T>)
    requires |a| > 0 && Subseq(a, b)
    ensures Subseq(a[1..], b)
    decreases |b|, 1
  {
    if a[0] == b[0] {
      SubseqDropFront(a[1..], b);
    } else {
      SubseqTail(a, b[1..]);
      SubseqDropFront(a[1..], b);
    }
  }

  /** Every prefix of a subsequence is a subsequence. */
  lemma {:induction false} SubseqPrefix<T>(a: seq<T>, b: seq<T>, k: nat)
    requires k <= |a| && Subseq(a, b)
    ensures Subseq(a[..k], b)
    decreases |b|
  {
    if k > 0 {
      if a[0] == b[0] {
        SubseqPrefix(a[1..], b[1..], k - 1);
        assert a[..k][1..] == a[1..][..k - 1];
      } else {
        SubseqPrefix(a, b[1..], k);
      }
    }
  }

  /** Filtering a sequence without duplicates gives one without duplicates. */
  lemma {:induction false} FilterNoDup<T>(s: seq<T>, p: T -> bool)
    requires NoDup(s)
    ensures NoDup(Filter(s, p))
    decreases |s|
  {
    if |s| > 0 {
      assert NoDup(s[1..]);
      FilterNoDup(s[1..], p);
      var rest := Filter(s[1..], p);
      if p(s[0]) {
        assert s[0] !in s[1..];
        assert s[0] !in rest;
        assert Filter(s, p) == [s[0]] + rest;
      }
    }
  }

  /** A filter returns as many elements as it was given exactly when every
      element passes. */
  lemma {:induction false} FilterKeepsLength<T>(s: seq<T>, p: T -> bool)
    ensures |Filter(s, p)| == |s| <==> forall i :: 0 <= i < |s| ==> p(s[i])
    decreases |s|
  {
    if |s| > 0 {
      FilterKeepsLength(s[1..], p);
      assert forall i :: 1 <= i < |s| ==> s[1..][i - 1] == s[i];
    }
  }

  /** Two filters in a row keep what one filter keeps, for any filter `r` that
      agrees with `p && q` on the elements. */
  lemma {:induction false} FilterFilterWith<T>(s: seq<T>, p: T -> bool, q: T -> bool, r: T -> bool)
    requires forall i :: 0 <= i < |s| ==> r(s[i]) == (p(s[i]) && q(s[i]))
    ensures Filter(Filter(s, p), q) == Filter(s, r)
    decreases |s|
  {
    if |s| > 0 {
      FilterFilterWith(s[1..], p, q, r);
      var head := if p(s[0]) then [s[0]] else [];
      FilterAppend(head, Filter(s[1..], p), q);
      if p(s[0]) {
        assert Filter(head, q) == (if q(s[0]) then [s[0]] else []) by {
          assert head[1..] == [];
        }
      }
    }
  }
}

=== FILE: storage_manager.dfy ===
/** `LocalStorageManager` of `client/src/lib/storage.ts`: every key it touches
    carries the prefix `athletetravel_` (lower-case `t`); `get` catches parse
    errors and answers `null`. */
module StorageManager {
  import opened Wrappers
  import opened JsonValues
  import opened BrowserStore
  import Seqs
  import Text
  import RecentSearches

  const Prefix := "athletetravel_"

  /** `get`: the parsed value under `Prefix + key`; `null` when the key is absent
      or its text does not parse. */
  function Get(s: Store, key: string): (j: Json)
    ensures Prefix + key !in s ==> j == JNull
    ensures Prefix + key in s && s[Prefix + key].Unparsable? ==> j == JNull
    ensures Prefix + key in s && s[Prefix + key].Stored? ==> j == s[Prefix + key].value
  {
    var k := Prefix + key;
    if k in s && s[k].Stored? then s[k].value else JNull
  }

  /** `set`: `JSON.stringify(value)` under `Prefix + key`. */
  function Set(s: Store, key: string, value: Json): (r: Store)
    ensures Get(r, key) == value
    ensures SameElsewhere(r, s, Prefix + key)
  {
    s[Prefix + key := Stored(value)]
  }

  /** Setting a key to the value it was just set to changes nothing. */
  lemma SetTwice(s: Store, key: string, value: Json)
    ensures Set(Set(s, key, value), key, value) == Set(s, key, value)
  {
    var k := Prefix + key;
    assert s[k := Stored(value)][k := Stored(value)] == s[k := Stored(value)];
  }

  /** `remove`. */
  function Remove(s: Store, key: string): (r: Store)
    ensures Get(r, key) == JNull
    ensures SameElsewhere(r, s, Prefix + key)
  {
    s - {Prefix + key}
  }

  /** `clear`: removes exactly the keys that start with the prefix. */
  function Clear(s: Store): (r: Store)
    ensures forall k :: k in r <==> k in s && !Text.StartsWith(k, Prefix)
    ensures forall k :: k in r ==> r[k] == s[k]
  {
    map k | k in s && !Text.StartsWith(k, Prefix) :: s[k]
  }

  /** `x || []`. */
  function OrEmptyList(j: Json): (r: Json)
    ensures Truthy(j) ==> r == j
    ensures !Truthy(j) ==> r == JArr([])
  {
    if Truthy(j) then j else JArr([])
  }

  /** `getTrips`: the stored trips, `[]` when nothing (truthy) is stored. */
  function GetTrips(s: Store): (j: Json)
    ensures Prefix + "trips" !in s ==> j == JArr([])
    ensures Truthy(Get(s, "trips")) ==> j == Get(s, "trips")
    ensures !Truthy(Get(s, "trips")) ==> j == JArr([])
  {
    OrEmptyList(Get(s, "trips"))
  }

  /** `setItem('trips', trips)`: an array is truthy, so it reads back as stored. */
  function WriteTrips(s: Store, ys: seq<Json>): (r: Store)
    ensures GetTrips(r) == JArr(ys)
    ensures SameElsewhere(r, s, Prefix + "trips")
  {
    Set(s, "trips", JArr(ys))
  }

  /** `{...trip, id: Date.now()}`: the id is `now`, every other key as in `trip`. */
  function Stamped(trip: Json, now: int): (t: Json)
    ensures Prop(t, "id") == Some(JNum(now))
    ensures forall k :: k != "id" ==> Prop(t, k) == Prop(trip, k)
  {
    Spread(trip, JObj(map["id" := JNum(now)]))
  }

  /** `t.id === trip.id`. */
  predicate SameId(t: Json, trip: Json)
  {
    StrictEquals(Prop(t, "id"), Prop(trip, "id"))
  }

  /** The filter `t => t.id === trip.id`. */
  function SameIdAs(trip: Json): Json -> bool
  {
    (t: Json) => SameId(t, trip)
  }

  /** Where `findIndex(t => t.id === trip.id)` stops: at the first match, or
      earlier at an entry whose `.id` cannot be read because it, or `trip`,
      is `null`. */
  function StopsAt(trip: Json): Json -> bool
  {
    (t: Json) => t == JNull || trip == JNull || SameId(t, trip)
  }

  /** `findIndex` throws: it reaches a `null` entry, or reads `trip.id` of a
      `null` trip, before any stored trip has the id. */
  predicate FindIndexThrows(xs: seq<Json>, trip: Json)
  {
    exists i :: 0 <= i < |xs| && (xs[i] == JNull || trip == JNull)
      && forall j :: 0 <= j < i ==> !SameId(xs[j], trip)
  }

  /** `saveTrip`: replaces the first stored trip whose id equals `trip.id`, or
      else appends `{...trip, id: Date.now()}`. A stored value that is truthy
      but not an array, or a `null` met before the first match, makes
      `findIndex` throw. */
  function SaveTrip(s: Store, trip: Json, now: int): (o: Outcome<Store>)
    ensures o.Throws? <==> !GetTrips(s).JArr? || FindIndexThrows(GetTrips(s).items, trip)
    ensures o.Ok? ==>
      var xs := GetTrips(s).items;
      && GetTrips(o.value).JArr?
      && var ys := GetTrips(o.value).items;
      && SameElsewhere(o.value, s, Prefix + "trips")
      && |xs| <= |ys| <= |xs| + 1
      && ((exists i :: 0 <= i < |xs| && SameId(xs[i], trip)) ==>
            exists i ::
              && 0 <= i < |xs| && SameId(xs[i], trip)
              && (forall j :: 0 <= j < i ==> !SameId(xs[j], trip))
              && ys == xs[i := trip])
      && ((forall i :: 0 <= i < |xs| ==> !SameId(xs[i], trip)) ==>
            && |ys| == |xs| + 1 && ys[..|xs|] == xs
            && Prop(ys[|xs|], "id") == Some(JNum(now))
            && forall k :: k != "id" ==> Prop(ys[|xs|], k) == Prop(trip, k))
  {
    match GetTrips(s)
    case JArr(xs) =>
      var i := Seqs.FindIndex(xs, StopsAt(trip));
      if i >= 0 && (xs[i] == JNull || trip == JNull) then
        Throws
      else
        StopsAtMatch(xs, trip);
        var ys := if i >= 0 then xs[i := trip] else xs + [Stamped(trip, now)];
        assert i < 0 ==> ys[..|xs|] == xs;
        Ok(WriteTrips(s, ys))
    case _ => Throws
  }

  /** Where `findIndex` stops decides whether it throws, and when it does not,
      it stops at the first match or nowhere. */
  lemma StopsAtMatch(xs: seq<Json>, trip: Json)
    ensures var i := Seqs.FindIndex(xs, StopsAt(trip));
      && (FindIndexThrows(xs, trip) <==> i >= 0 && (xs[i] == JNull || trip == JNull))
      && (!FindIndexThrows(xs, trip) ==> i == Seqs.FindIndex(xs, SameIdAs(trip)))
  {
    StopsAtThrows(xs, trip);
    StopsAtFirstMatch(xs, trip);
  }

  lemma StopsAtThrows(xs: seq<Json>, trip: Json)
    ensures var i := Seqs.FindIndex(xs, StopsAt(trip));
      FindIndexThrows(xs, trip) <==> i >= 0 && (xs[i] == JNull || trip == JNull)
  {
    var i := Seqs.FindIndex(xs, StopsAt(trip));
    if i >= 0 && (xs[i] == JNull || trip == JNull) {
      assert forall j :: 0 <= j < i ==> !StopsAt(trip)(xs[j]);
    }
    if FindIndexThrows(xs, trip) {
      var w :| 0 <= w < |xs| && (xs[w] == JNull || trip == JNull)
        && forall j :: 0 <= j < w ==> !SameId(xs[j], trip);
      assert StopsAt(trip)(xs[w]);
    }
  }

  /** When `findIndex` does not throw, it stops at the first match. */
  lemma {:induction false} StopsAtFirstMatch(xs: seq<Json>, trip: Json)
    ensures !FindIndexThrows(xs, trip) ==>
      Seqs.FindIndex(xs, StopsAt(trip)) == Seqs.FindIndex(xs, SameIdAs(trip))
    decreases |xs|
  {
    if |xs| > 0 && !SameId(xs[0], trip) {
      if FindIndexThrows(xs[1..], trip) {
        ThrowsCons(xs, trip);
      }
      if xs[0] == JNull || trip == JNull {
        assert 0 <= 0 < |xs| && (xs[0] == JNull || trip == JNull);
      }
      StopsAtFirstMatch(xs[1..], trip);
    }
  }

  /** A `null` met in the tail is met in the whole list when the head does
      not match. */
  lemma ThrowsCons(xs: seq<Json>, trip: Json)
    requires |xs| > 0 && !SameId(xs[0], trip) && FindIndexThrows(xs[1..], trip)
    ensures FindIndexThrows(xs, trip)
  {
    var ys := xs[1..];
    var v :| 0 <= v < |ys| && (ys[v] == JNull || trip == JNull)
      && forall j :: 0 <= j < v ==> !SameId(ys[j], trip);
    assert xs[v + 1] == ys[v];
    forall j | 0 <= j < v + 1 ensures !SameId(xs[j], trip) {
      if j > 0 { assert xs[j] == ys[j - 1]; }
    }
  }

  /** When `saveTrip` does not throw and a stored trip has the id, it replaces
      the first such trip. */
  lemma SaveTripFound(s: Store, trip: Json, now: int)
    requires GetTrips(s).JArr? && !FindIndexThrows(GetTrips(s).items, trip)
    requires Seqs.FindIndex(GetTrips(s).items, SameIdAs(trip)) >= 0
    ensures var xs := GetTrips(s).items;
            SaveTrip(s, trip, now) == Ok(Set(s, "trips", JArr(xs[Seqs.FindIndex(xs, SameIdAs(trip)) := trip])))
  {
    StopsAtMatch(GetTrips(s).items, trip);
  }

  /** Replacing the first match with `trip` leaves `findIndex` stopping at
      the same place, at `trip` itself, so it still does not throw. */
  lemma ReplaceKeepsNoThrow(xs: seq<Json>, trip: Json)
    requires !FindIndexThrows(xs, trip) && Seqs.FindIndex(xs, SameIdAs(trip)) >= 0
    ensures !FindIndexThrows(xs[Seqs.FindIndex(xs, SameIdAs(trip)) := trip], trip)
  {
    var i := Seqs.FindIndex(xs, SameIdAs(trip));
    StopsAtMatch(xs, trip);
    assert StopsAt(trip)(trip);
    Seqs.FindIndexReplace(xs, trip, StopsAt(trip));
    StopsAtMatch(xs[i := trip], trip);
  }

  /** Saving a trip whose id is already stored a second time changes nothing,
      whenever the first save does not throw. */
  lemma SaveTripIdempotent(s: Store, trip: Json, now: int, later: int)
    requires GetTrips(s).JArr?
    requires exists i :: 0 <= i < |GetTrips(s).items| && SameId(GetTrips(s).items[i], trip)
    ensures SaveTrip(s, trip, now).Ok? ==>
      SaveTrip(SaveTrip(s, trip, now).value, trip, later) == SaveTrip(s, trip, now)
  {
    var xs := GetTrips(s).items;
    if !FindIndexThrows(xs, trip) {
      var p := SameIdAs(trip);
      var w :| 0 <= w < |xs| && SameId(xs[w], trip);
      assert p(xs[w]);
      var i := Seqs.FindIndex(xs, p);
      var ys := xs[i := trip];
      SaveTripFound(s, trip, now);
      assert p(trip);
      Seqs.FindIndexReplace(xs, trip, p);
      ReplaceKeepsNoThrow(xs, trip);
      SaveTripFound(Set(s, "trips", JArr(ys)), trip, later);
      Seqs.UpdateTwice(xs, i, trip);
      SetTwice(s, "trips", JArr(ys));
    }
  }

  /** The preferences `getPreferences` answers when nothing (truthy) is stored. */
  const DefaultPreferences: Json :=
    JObj(map[
      "dietaryRestrictions" := JArr([]),
      "preferredSports" := JArr([]),
      "budgetRange" := JObj(map["min" := JNum(0), "max" := JNum(1000)]),
      "notifications" := JBool(true)])

  /** `getPreferences`. */
  function GetPreferences(s: Store): (j: Json)
    ensures Prefix + "preferences" !in s ==> j == DefaultPreferences
    ensures Truthy(Get(s, "preferences")) ==> j == Get(s, "preferences")
    ensures !Truthy(Get(s, "preferences")) ==> j == DefaultPreferences
  {
    var p := Get(s, "preferences");
    if Truthy(p) then p else DefaultPreferences
  }

  /** `savePreferences`. */
  function SavePreferences(s: Store, prefs: Json): (r: Store)
    ensures Truthy(prefs) ==> GetPreferences(r) == prefs
    ensures SameElsewhere(r, s, Prefix + "preferences")
  {
    Set(s, "preferences", prefs)
  }

  /** `getSearchHistory`. */
  function GetSearchHistory(s: Store): (j: Json)
    ensures Prefix + "search_history" !in s ==> j == JArr([])
    ensures Truthy(Get(s, "search_history")) ==> j == Get(s, "search_history")
    ensures !Truthy(Get(s, "search_history")) ==> j == JArr([])
  {
    OrEmptyList(Get(s, "search_history"))
  }

  /** `addSearchHistory`: the search becomes the most recent one. A stored value
      that is truthy but not an array makes `filter` throw. */
  function AddSearchHistory(s: Store, q: string): (o: Outcome<Store>)
    ensures o.Throws? <==> !GetSearchHistory(s).JArr?
    ensures o.Ok? ==>
      && GetSearchHistory(o.value).JArr?
      && var h := GetSearchHistory(o.value).items;
      && 1 <= |h| <= RecentSearches.Limit && h[0] == JStr(q)
      && (forall i :: 1 <= i < |h| ==> h[i] != JStr(q))
      && Seqs.Subseq(h[1..], GetSearchHistory(s).items)
      && var others := Seqs.Filter(GetSearchHistory(s).items, RecentSearches.Other(JStr(q)));
      && h[1..] <= others
      && |h| == (if |others| < RecentSearches.Limit then 1 + |others| else RecentSearches.Limit)
      && SameElsewhere(o.value, s, Prefix + "search_history")
  {
    match GetSearchHistory(s)
    case JArr(h) => Ok(Set(s, "search_history", JArr(RecentSearches.AddRecent(h, JStr(q)))))
    case _ => Throws
  }
}

=== FILE: storage_properties.dfy ===
/** Properties of the in-memory repository that relate several operations. */
module StorageProperties {
  import opened Wrappers
  import opened JsonValues
  import opened Schema
  import opened Text
  import opened MemStorage
  import Seqs
  import Tables

  /** Every id handed out by a create is larger than every id already stored, so
      ids are distinct and increase in creation order. */
  lemma CreatedIdExceedsStored(r: Repo, ins: InsertEvent)
    requires Valid(r)
    ensures forall k :: k in r.events.rows ==> k < CreateEvent(r, ins).1.id
  {
    forall k | k in r.events.rows ensures k < CreateEvent(r, ins).1.id {
    }
  }

  /** Two creates in a row hand out consecutive ids. */
  lemma ConsecutiveCreates(r: Repo, a: InsertTrip, b: InsertTrip)
    requires Valid(r)
    ensures var (r1, t1) := CreateTrip(r, a);
            CreateTrip(r1, b).1.id == t1.id + 1
  {
  }

  /** The seeded repository answers ids 1 to 3 for events and nothing at 4. */
  lemma SeededLookups()
    ensures GetEvent(Initial(), 2) == Some(AlpsChallenge)
    ensures GetEvent(Initial(), 4) == None
    ensures GetAccommodation(Initial(), 4) == None
    ensures GetUser(Initial(), 1) == None
  {
    var r := Initial();
    Tables.GetNeverCreated(r.events, 4);
    Tables.GetNeverCreated(r.accommodations, 4);
  }

  /** The `date` key of an event search has no effect on the result. */
  lemma SearchEventsIgnoresDate(r: Repo, f: EventFilters, d: Option<string>)
    ensures SearchEvents(r, f) == SearchEvents(r, f.(date := d))
  {
    var es := GetEvents(r);
    var g := f.(date := d);
    Seqs.FilterCongruent(es, Matching(f), Matching(g));
    assert SearchEvents(r, g) == Seqs.Filter(es, Matching(g));
  }

  /** With no active filter every event is returned, in creation order. */
  lemma SearchEventsUnfiltered(r: Repo, sport: Option<string>, difficulty: Option<string>)
    requires sport == None || sport == Some("") || sport == Some("All Sports")
    requires difficulty == None || difficulty == Some("") || difficulty == Some("Any Level")
    ensures SearchEvents(r, EventFilters(sport, None, None, difficulty)) == GetEvents(r)
  {
    var f := EventFilters(sport, None, None, difficulty);
    Seqs.FilterKeepsAll(GetEvents(r), Matching(f));
  }

  /** Narrowing one search by the predicate of another gives the same list in
      either order: independent filters commute. */
  lemma SearchEventsCommute(r: Repo, f: EventFilters, g: EventFilters)
    ensures Seqs.Filter(SearchEvents(r, f), Matching(g))
         == Seqs.Filter(SearchEvents(r, g), Matching(f))
  {
    Seqs.FilterFilter(GetEvents(r), Matching(f), Matching(g));
  }

  /** Searching the seeded events for "Cycling" yields exactly the Alps Challenge. */
  lemma SeededCyclingSearch()
    ensures SearchEvents(Initial(), EventFilters(Some("Cycling"), None, None, None)) == [AlpsChallenge]
  {
    SampleCycling(EventFilters(Some("Cycling"), None, None, None));
  }

  /** Of the sample events only the Alps Challenge is a cycling event. */
  lemma SampleCycling(f: EventFilters)
    requires f == EventFilters(Some("Cycling"), None, None, None)
    ensures Seqs.Filter(SampleEvents, Matching(f)) == [AlpsChallenge]
  {
    var p := Matching(f);
    assert !p(BostonMarathon) && p(AlpsChallenge) && !p(OpenWaterChampionship);
    Seqs.FilterAppend([BostonMarathon, AlpsChallenge], [OpenWaterChampionship], p);
    Seqs.FilterAppend([BostonMarathon], [AlpsChallenge], p);
    assert [BostonMarathon, AlpsChallenge] == [BostonMarathon] + [AlpsChallenge];
    assert SampleEvents == [BostonMarathon, AlpsChallenge] + [OpenWaterChampionship];
  }

  /** An empty location query keeps every accommodation. */
  lemma EmptyLocationKeepsAll(r: Repo)
    ensures SearchAccommodations(r, "") == GetAccommodations(r)
  {
    var xs := GetAccommodations(r);
    forall i | 0 <= i < |xs| ensures LocationMatches(xs[i].location, "") {
      ContainsEmpty(ToLower(xs[i].location));
    }
    Seqs.FilterKeepsAll(xs, AccommodationIn(""));
  }

  /** Falsy optional values are stored as null: a price or registered count of 0
      and an `isAthleteFriendly` of false are all lost. */
  lemma FalsyOptionalsStoredAsNull(r: Repo, e: InsertEvent, a: InsertAccommodation)
    requires e.price == Some(0) && e.registered == Some(0) && e.description == Some("")
    requires a.isAthleteFriendly == Some(false)
    ensures CreateEvent(r, e).1.price == None
    ensures CreateEvent(r, e).1.registered == None
    ensures CreateEvent(r, e).1.description == None
    ensures CreateAccommodation(r, a).1.isAthleteFriendly == None
  {
  }

  /** The repository does not fill in the schema's declared defaults: an omitted
      `registered`, facility `status`, trip `status`, `isCompleted` or `priority`
      stays null. */
  lemma DeclaredDefaultsNotApplied(r: Repo, e: InsertEvent, f: InsertTrainingFacility, t: InsertTrip, x: InsertReminder)
    requires e.registered == None && f.status == None && t.status == None
    requires x.isCompleted == None && x.priority == None
    ensures CreateEvent(r, e).1.registered != Some(DefaultRegistered)
    ensures CreateTrainingFacility(r, f).1.status != Some(DefaultFacilityStatus)
    ensures CreateTrip(r, t).1.status != Some(DefaultTripStatus)
    ensures CreateReminder(r, x).1.isCompleted != Some(DefaultReminderCompleted)
    ensures CreateReminder(r, x).1.priority != Some(DefaultReminderPriority)
  {
  }

  /** The repository itself accepts a second user with a taken email; email
      lookups keep answering with the earlier user. */
  lemma DuplicateEmailKeepsFirst(r: Repo, ins: InsertUser, now: int)
    requires Valid(r)
    requires GetUserByEmail(r, ins.email).Some?
    ensures var (r', u) := CreateUser(r, ins, now);
            GetUserByEmail(r', ins.email) == GetUserByEmail(r, ins.email) &&
            u in Tables.Values(r'.users) && u.email == ins.email &&
            GetUserByEmail(r, ins.email).value in Tables.Values(r'.users)
  {
    var (r', u) := CreateUser(r, ins, now);
    var before := Tables.Values(r.users);
    assert Tables.Values(r'.users) == before + [u];
    Seqs.FindIndexAppend(before, [u], EmailIs(ins.email));
    var i := Seqs.FindIndex(before, EmailIs(ins.email));
    assert (before + [u])[i] == before[i];
    assert (before + [u])[|before|] == u;
  }

  /** An update body that carries no key leaves the row as it was. */
  lemma MergeNothingIsIdentity(u: User)
    ensures MergeUser(u, UserPatch(Keep, Keep, Keep, Keep, Keep, Keep, Keep, Keep, Keep, Keep, map[])) == u
  {
    assert u.extra + (map[] - UserColumns) == u.extra;
  }

  /** Merging the same body twice is the same as merging it once. */
  lemma MergeIdempotent(u: User, p: UserPatch)
    ensures MergeUser(MergeUser(u, p), p) == MergeUser(u, p)
  {
    var e := p.extra - UserColumns;
    assert (u.extra + e) + e == u.extra + e;
  }

  /** A trip update leaves the list of the user's trips in the same order:
      the updated trip stays at its position. */
  lemma UpdateTripKeepsPosition(r: Repo, id: int, p: TripPatch)
    requires Valid(r) && id in r.trips.rows
    ensures var vs := Tables.Values(r.trips);
            var vs' := Tables.Values(UpdateTrip(r, id, p).0.trips);
            |vs'| == |vs| &&
            forall i :: 0 <= i < |vs| ==>
              vs'[i] == (if Tables.Keys(r.trips)[i] == id then MergeTrip(r.trips.rows[id], p) else vs[i])
  {
    Tables.UpdateValues(r.trips, id, TripMerge(p));
  }

  /** A created trip joins the end of its owner's list and no other user's:
      the earlier trips stay, in order. */
  lemma CreateTripListsLast(r: Repo, ins: InsertTrip, userId: int)
    requires Valid(r)
    ensures var (r', t) := CreateTrip(r, ins);
            GetUserTrips(r', userId) == GetUserTrips(r, userId) + (if ins.userId == userId then [t] else [])
  {
    var (r', t) := CreateTrip(r, ins);
    var ts := Tables.Values(r.trips);
    assert Tables.Values(r'.trips) == ts + [t];
    Seqs.FilterAppend(ts, [t], TripOf(userId));
    assert Seqs.Filter([t], TripOf(userId)) == (if ins.userId == userId then [t] else []);
    assert GetUserTrips(r', userId) == Seqs.Filter(ts + [t], TripOf(userId));
  }

  /** A created progress entry joins the end of its owner's list and no other
      user's. */
  lemma CreateProgressListsLast(r: Repo, ins: InsertProgress, now: int, userId: int)
    requires Valid(r)
    ensures var (r', p) := CreateProgress(r, ins, now);
            GetUserProgress(r', userId) == GetUserProgress(r, userId) + (if ins.userId == userId then [p] else [])
  {
    var (r', p) := CreateProgress(r, ins, now);
    assert Tables.Values(r'.progress) == Tables.Values(r.progress) + [p];
    Seqs.FilterAppend(Tables.Values(r.progress), [p], ProgressOf(userId));
  }

  /** A created reminder joins the end of its owner's list and no other
      user's. */
  lemma CreateReminderListsLast(r: Repo, ins: InsertReminder, userId: int)
    requires Valid(r)
    ensures var (r', x) := CreateReminder(r, ins);
            GetUserReminders(r', userId) == GetUserReminders(r, userId) + (if ins.userId == userId then [x] else [])
  {
    var (r', x) := CreateReminder(r, ins);
    assert Tables.Values(r'.reminders) == Tables.Values(r.reminders) + [x];
    Seqs.FilterAppend(Tables.Values(r.reminders), [x], ReminderOf(userId));
  }

  /** An empty location query keeps every training facility. */
  lemma EmptyLocationKeepsAllFacilities(r: Repo)
    ensures SearchTrainingFacilities(r, "") == GetTrainingFacilities(r)
  {
    var xs := GetTrainingFacilities(r);
    forall i | 0 <= i < |xs| ensures LocationMatches(xs[i].location, "") {
      ContainsEmpty(ToLower(xs[i].location));
    }
    Seqs.FilterKeepsAll(xs, FacilityIn(""));
  }

  /** The facility search ignores the case of the query: a query and its
      lower-cased form find the same facilities. */
  lemma FacilitySearchIgnoresQueryCase(r: Repo, q: string)
    ensures SearchTrainingFacilities(r, q) == SearchTrainingFacilities(r, ToLower(q))
  {
    var xs := GetTrainingFacilities(r);
    ToLowerIdempotent(q);
    Seqs.FilterCongruent(xs, FacilityIn(q), FacilityIn(ToLower(q)));
  }
}

=== FILE: tables.dfy ===
/** One entity collection of the in-memory repository: a JavaScript
    `Map<number, Row>` together with its auto-increment counter.

    `Map.values()` lists rows in the order their keys were first set. Every key
    of the repository is taken from the table's increasing counter and no row is
    ever deleted, so that order is ascending id order; the model lists rows by
    ascending id and does not keep a separate insertion order. */
module Tables {
  import opened Wrappers

  /** `rows` are the stored rows by id and `next` the id the next create takes. */
  datatype Table<T> = Table(rows: map<int, T>, next: int)

  /** The representation invariant: the counter starts at 1 and every stored id
      was once taken from it. */
  ghost predicate Valid<T>(t: Table<T>)
  {
    1 <= t.next && forall k :: k in t.rows ==> 1 <= k < t.next
  }

  /** `new Map()` with its counter set to 1. */
  function Empty<T>(): (t: Table<T>)
    ensures Valid(t)
    ensures t.next == 1 && t.rows == map[]
  {
    Table(map[], 1)
  }

  /** The stored ids below `n`, ascending. */
  function KeysBelow<T>(rows: map<int, T>, n: int): (ks: seq<int>)
    ensures forall i :: 0 <= i < |ks| ==> ks[i] in rows && ks[i] < n
    ensures forall i, j :: 0 <= i < j < |ks| ==> ks[i] < ks[j]
    ensures forall k :: k in rows && 1 <= k < n ==> k in ks
    decreases n
  {
    if n <= 1 then []
    else
      var prev := KeysBelow(rows, n - 1);
      if n - 1 in rows then prev + [n - 1] else prev
  }

  /** The ids of the stored rows, in the order `Map.keys()` lists them:
      ascending, and on a valid table every stored id. */
  function Keys<T>(t: Table<T>): (ks: seq<int>)
    ensures forall i :: 0 <= i < |ks| ==> ks[i] in t.rows
    ensures forall i, j :: 0 <= i < j < |ks| ==> ks[i] < ks[j]
    ensures Valid(t) ==> forall k :: k in t.rows ==> k in ks
  {
    KeysBelow(t.rows, t.next)
  }

  /** `Array.from(map.values())`: the stored rows in the order of their ids. */
  function Values<T>(t: Table<T>): (vs: seq<T>)
    ensures |vs| == |Keys(t)|
    ensures forall i :: 0 <= i < |vs| ==> vs[i] == t.rows[Keys(t)[i]]
  {
    var ks := Keys(t);
    seq(|ks|, i requires 0 <= i < |ks| => t.rows[ks[i]])
  }

  /** `map.get(id)`: the row stored under `id`, or absent. */
  function Get<T>(t: Table<T>, id: int): (r: Option<T>)
    ensures r.Some? <==> id in t.rows
    ensures r.Some? ==> r.value == t.rows[id]
  {
    if id in t.rows then Some(t.rows[id]) else None
  }

  /** A table never holds a key its counter has not yet handed out. */
  lemma GetNeverCreated<T>(t: Table<T>, id: int)
    requires Valid(t)
    requires id < 1 || id >= t.next
    ensures Get(t, id) == None
  {
  }

  /** Which ids are listed depends only on which ids are stored. */
  lemma {:induction false} KeysBelowSameDomain<T>(a: map<int, T>, b: map<int, T>, n: int)
    requires a.Keys == b.Keys
    ensures KeysBelow(a, n) == KeysBelow(b, n)
    decreases n
  {
    if n > 1 {
      KeysBelowSameDomain(a, b, n - 1);
    }
  }

  /** Storing a row at or above `n` does not change the ids listed below `n`. */
  lemma {:induction false} KeysBelowFrame<T>(rows: map<int, T>, n: int, k: int, v: T)
    requires k >= n
    ensures KeysBelow(rows[k := v], n) == KeysBelow(rows, n)
    decreases n
  {
    if n > 1 {
      KeysBelowFrame(rows, n - 1, k, v);
    }
  }

  /** A create: the row is stored under the current counter value, which then
      advances by one. Every other id keeps its row; on a valid table the new
      row is listed last. */
  function Add<T>(t: Table<T>, row: T): (r: Table<T>)
    ensures r.next == t.next + 1
    ensures Get(r, t.next) == Some(row)
    ensures forall j :: j != t.next ==> Get(r, j) == Get(t, j)
    ensures Valid(t) ==> Valid(r) && Keys(r) == Keys(t) + [t.next] && Values(r) == Values(t) + [row]
  {
    var r := Table(t.rows[t.next := row], t.next + 1);
    assert Valid(t) ==> Keys(r) == Keys(t) + [t.next] && Values(r) == Values(t) + [row] by {
      if Valid(t) {
        AddLists(t, row);
      }
    }
    r
  }

  /** On a valid table a create lists the new id and row after the old ones. */
  lemma AddLists<T>(t: Table<T>, row: T)
    requires Valid(t)
    ensures var r := Table(t.rows[t.next := row], t.next + 1);
            Keys(r) == Keys(t) + [t.next] && Values(r) == Values(t) + [row]
  {
    var r := Table(t.rows[t.next := row], t.next + 1);
    KeysBelowFrame(t.rows, t.next, t.next, row);
    assert Keys(r) == Keys(t) + [t.next];
    var ks := Keys(t);
    forall i | 0 <= i < |ks| ensures Values(r)[i] == Values(t)[i] {
      assert ks[i] < t.next;
    }
  }

  /** Creates `rows` one after another in a fresh table, as the sample data is
      seeded. */
  function FromSeq<T>(rows: seq<T>): (t: Table<T>)
    ensures Seeded(t, rows)
    decreases |rows|
  {
    if |rows| == 0 then Empty()
    else
      var prev := FromSeq(rows[..|rows| - 1]);
      FromSeqStep(rows, prev);
      Add(prev, rows[|rows| - 1])
  }

  /** `t` holds exactly `rows`: row `k` (from 1) under id `k`, listed in that
      order, nothing else, and the counter just after the last. */
  ghost predicate Seeded<T>(t: Table<T>, rows: seq<T>)
  {
    && Valid(t)
    && t.next == |rows| + 1
    && Values(t) == rows
    && (forall k :: 1 <= k <= |rows| ==> Get(t, k) == Some(rows[k - 1]))
  }

  /** The step of `FromSeq`: creating the last row in a table seeded with the
      others seeds the table with all of them. */
  lemma FromSeqStep<T>(rows: seq<T>, prev: Table<T>)
    requires |rows| > 0 && Seeded(prev, rows[..|rows| - 1])
    ensures Seeded(Add(prev, rows[|rows| - 1]), rows)
  {
    var n := |rows|;
    var t := Add(prev, rows[n - 1]);
    assert rows[..n - 1] + [rows[n - 1]] == rows;
    forall k | 1 <= k <= n ensures Get(t, k) == Some(rows[k - 1]) {
      if k < n {
        assert rows[..n - 1][k - 1] == rows[k - 1];
      }
    }
  }

  /** `const row = map.get(id); if (!row) return undefined; map.set(id, f(row))`:
      the shape shared by every update of the repository. An absent id leaves the
      table as it was; a present one keeps its key, its place and the counter. */
  function Update<T>(t: Table<T>, id: int, f: T -> T): (r: (Table<T>, Option<T>))
    ensures r.1.None? <==> id !in t.rows
    ensures r.1.None? ==> r.0 == t
    ensures r.1.Some? ==> r.1.value == f(t.rows[id]) && Get(r.0, id) == r.1
    ensures forall j :: j != id ==> Get(r.0, j) == Get(t, j)
    ensures r.0.rows.Keys == t.rows.Keys && r.0.next == t.next
    ensures Valid(t) ==> Valid(r.0)
  {
    if id in t.rows then
      var row := f(t.rows[id]);
      (Table(t.rows[id := row], t.next), Some(row))
    else (t, None)
  }

  /** After an update the listed rows are the old ones, except the updated row,
      which has the merged value at its old position. */
  lemma UpdateValues<T>(t: Table<T>, id: int, f: T -> T)
    ensures Keys(Update(t, id, f).0) == Keys(t)
    ensures |Values(Update(t, id, f).0)| == |Values(t)|
    ensures forall i :: 0 <= i < |Keys(t)| ==>
      Values(Update(t, id, f).0)[i] == (if Keys(t)[i] == id then f(t.rows[id]) else Values(t)[i])
  {
    KeysBelowSameDomain(Update(t, id, f).0.rows, t.rows, t.next);
  }
}

=== FILE: text.dfy ===
/** The JavaScript string operations the model relies on: decimal rendering of
    integers (`${n}`), `padStart`, `includes`, `startsWith` and ASCII case mapping. */
module Text {

  predicate IsDigit(c: char)
  {
    '0' <= c <= '9'
  }

  predicate AllDigits(s: string)
  {
    forall i :: 0 <= i < |s| ==> IsDigit(s[i])
  }

  function DigitChar(d: int): (c: char)
    requires 0 <= d < 10
    ensures IsDigit(c)
  {
    ('0' as int + d) as char
  }

  function DigitValue(c: char): (d: int)
    requires IsDigit(c)
    ensures 0 <= d < 10 && DigitChar(d) == c
  {
    c as int - '0' as int
  }

  /** The decimal value of a string of digits, read most significant first. */
  function ParseDigits(s: string): (n: nat)
    requires AllDigits(s)
    decreases |s|
  {
    if |s| == 0 then 0
    else ParseDigits(s[..|s| - 1]) * 10 + DigitValue(s[|s| - 1])
  }

  /** `${n}` for a non-negative integer: its shortest decimal rendering, which
      reads back as `n`. */
  function NatToString(n: nat): (s: string)
    ensures |s| >= 1 && AllDigits(s)
    ensures |s| > 1 ==> s[0] != '0'
    ensures ParseDigits(s) == n
    decreases n
  {
    if n < 10 then [DigitChar(n)]
    else
      var prefix := NatToString(n / 10);
      var s := prefix + [DigitChar(n % 10)];
      assert s[..|s| - 1] == prefix;
      s
  }

  /** `${i}` for any integer: a leading `-` on negatives, then the digits. */
  function IntToString(i: int): (s: string)
    ensures |s| >= 1
    ensures i >= 0 ==> AllDigits(s) && ParseDigits(s) == i
    ensures i < 0 ==> s[0] == '-' && AllDigits(s[1..]) && ParseDigits(s[1..]) == -i
  {
    if i >= 0 then NatToString(i)
    else
      var s := "-" + NatToString(-i);
      assert s[1..] == NatToString(-i);
      s
  }

  /** Rendering a non-negative integer is injective: two values with the same
      text are equal. */
  lemma NatToStringInjective(m: nat, n: nat)
    requires NatToString(m) == NatToString(n)
    ensures m == n
  {
  }

  /** `n` copies of `c`. */
  function Fill(c: char, n: nat): (r: string)
    ensures |r| == n && forall i :: 0 <= i < n ==> r[i] == c
  {
    if n == 0 then [] else [c] + Fill(c, n - 1)
  }

  /** `s.padStart(width, c)` with a one-character pad: as many copies of `c`
      as `s` falls short of `width`, then `s`. */
  function PadStart(s: string, width: nat, c: char): (r: string)
    ensures |r| == if |s| >= width then |s| else width
    ensures r[|r| - |s|..] == s
    ensures forall i :: 0 <= i < |r| - |s| ==> r[i] == c
  {
    if |s| >= width then s
    else
      var pad := Fill(c, width - |s|);
      assert (pad + s)[|pad|..] == s;
      pad + s
  }

  /** `needle` occurs in `hay` starting at index `i`. */
  predicate OccursAt(hay: string, needle: string, i: int)
  {
    0 <= i && i + |needle| <= |hay| && hay[i..i + |needle|] == needle
  }

  /** `hay.includes(needle)`. */
  predicate Contains(hay: string, needle: string)
  {
    exists i | 0 <= i <= |hay| :: OccursAt(hay, needle, i)
  }

  /** Every string includes the empty string, so an empty search text keeps
      every row. */
  lemma ContainsEmpty(hay: string)
    ensures Contains(hay, "")
  {
    assert OccursAt(hay, "", 0);
  }

  /** `s.startsWith(p)`. */
  predicate StartsWith(s: string, p: string)
  {
    |p| <= |s| && s[..|p|] == p
  }

  function LowerChar(c: char): char
  {
    if 'A' <= c <= 'Z' then (c as int + 32) as char else c
  }

  function UpperChar(c: char): char
  {
    if 'a' <= c <= 'z' then (c as int - 32) as char else c
  }

  /** `s.toLowerCase()`, restricted to ASCII letters. */
  function ToLower(s: string): (r: string)
    ensures |r| == |s|
    ensures forall i :: 0 <= i < |s| ==> r[i] == LowerChar(s[i])
  {
    seq(|s|, i requires 0 <= i < |s| => LowerChar(s[i]))
  }

  /** `s.toUpperCase()`, restricted to ASCII letters. */
  function ToUpper(s: string): (r: string)
    ensures |r| == |s|
    ensures forall i :: 0 <= i < |s| ==> r[i] == UpperChar(s[i])
  {
    seq(|s|, i requires 0 <= i < |s| => UpperChar(s[i]))
  }

  /** Lower-casing leaves no upper-case ASCII letter and a second pass changes nothing. */
  lemma ToLowerIdempotent(s: string)
    ensures forall i :: 0 <= i < |s| ==> !('A' <= ToLower(s)[i] <= 'Z')
    ensures ToLower(ToLower(s)) == ToLower(s)
  {
  }

  /** Case-insensitive containment is insensitive to the case of either side. */
  lemma ContainsIgnoringCaseOfQuery(hay: string, q: string)
    ensures Contains(ToLower(hay), ToLower(q)) == Contains(ToLower(hay), ToLower(ToLower(q)))
  {
    ToLowerIdempotent(q);
  }
}

=== FILE: wrappers.dfy ===
/** Failure-compatible wrappers shared by every module of the model. */
module Wrappers {

  /** A value that may be absent: JavaScript's `undefined`/`null` on the Dafny side. */
  datatype Option<+T> = None | Some(value: T) {

    /** The wrapped value, or `default` when absent (JavaScript's `x ?? default`). */
    function GetOr(default: T): T
    {
      match this
      case Some(v) => v
      case None => default
    }
  }

  /** One key of a shallow-merge patch (`{...row, ...patch}`): either the patch
      leaves the key out, or it carries a value that overwrites the stored one. */
  datatype Field<+T> = Keep | Put(value: T) {

    /** The value the key has after the merge, given its stored value. */
    function Over(current: T): T
    {
      match this
      case Put(v) => v
      case Keep => current
    }
  }
}
